=== FILE: README.md ===
# semantic-id-generator in Dafny

A model of semantic-id-generator, a JavaScript library. The library builds
identifiers of the form

    concept | seg1 - seg2 - … - segN

Each segment comes from one of seven random string strategies. Those
strategies are "all characters", "visible characters", "numbers",
"alphanumeric", "hexadecimal", "base64" and "passphrase". The library also
inspects an identifier and reports whether it fits a configuration.

The model covers:

- **Configuration.** How configurations are normalised: type checks, the
  merge over defaults or over a domain preset, and per-compartment checks.
  The generator's constructor and `normalizeConfiguration` share this logic.
- **Domain presets.** The thirty presets and their override merge.
- **Strategies.** The seven strategies, with their random draws passed in as
  an explicit finite sequence.
- **Generation.** How an identifier is assembled.
- **Inspection.** The inspector: choosing the configuration, cutting the
  identifier, the per-compartment validators, and the passphrase
  segmentation dynamic program.
- **Word lists.** The word-list cache, as a state machine.
- **Schema export.** The schema exporter's helpers, including `escapeXml`
  with the predefined entities of section 4.6 of XML 1.0.

The headline theorem is `RoundTrip.GeneratedIdInspectsValid`. It is stated
for the generator with the corrected strategies of `Strategies.Generate`
(see Findings). It says the inspector accepts what that generator emits,
under explicit conditions (`RoundTrips`). For each condition there is a
concrete input that breaks the round trip once it is dropped:
two-character separators (`RoundTrip.LongSeparatorBreaksRoundTrip`), a hex
digit as separator (`RoundTrip.HexSeparatorBreaksRoundTrip`), a passphrase
compartment (`RoundTrip.TruncatedPassphraseRejected`), an unknown preset
(`RoundTrip.UnknownPresetFailsInspection`) and a concept holding the
separator (`RoundTrip.SeparatorInConceptMisread`). The strategies as written do not satisfy it: the
visible-characters strategy can emit DEL (`Strategies.VisibleAsWrittenEmitsDel`).

## Modules

| file | module | what it holds |
|---|---|---|
| values.dfy | `Values` | `Option`, `Result`, the `Field` picture of a JavaScript property, and the library's errors |
| types.dfy | `Types` | compartments and configurations, both raw and normalised |
| draws.dfy | `Draws` | 32-bit draws, the `Outcome` of a computation over them, `crypto.randomInt` and `_randomIntFromInterval` |
| encodings.dfy | `Encodings` | character classes, and hex and base64 (section 4 of RFC 4648) encodings |
| text.dfy | `Text` | `indexOf`, `includes`, `split`, `join`, `trim` and ASCII `toLowerCase` over UTF-16 code units |
| wordlists.dfy | `WordLists` | the word-lists object and the sticky `getWordLists` cache |
| strategies.dfy | `Strategies` | the seven strategies, as written and as corrected |
| segmentation.dfy | `Segmentation` | the passphrase dictionary and `canSegmentWithDictionary` |
| validators.dfy | `Validators` | the per-strategy validators and `validateCompartmentValue` |
| presets.dfy | `Presets` | the preset table, its lookups and `resolvePresetConfiguration` |
| normalization.dfy | `Normalization` | `normalizeConfiguration` and the defaults |
| generator.dfy | `Generator` | the constructor and `generateSemanticID` |
| inspector.dfy | `Inspector` | `inspect`, configuration resolution, `inspectWithConfiguration` and preset detection |
| roundtrip.dfy | `RoundTrip` | generator against inspector: the round trip, and an input that breaks it for each dropped condition |
| schema.dfy | `Schema` | the schema exporter |

### Modelling choices

- **Strings.** A string is `seq<char>`, one `char` per UTF-16 code unit.
  This is also how JavaScript measures `length`.
- **Properties.** `Field<T>` stands for a caller's property:
  - `Absent` is a missing property. A property set to `undefined` or `null`
    is read as missing too. That is exact for the type checks, which test
    truthiness, and for `compartments`, which falls back through `??`. It is
    not exact for an explicit separator, which the spread merge keeps (see
    Left out);
  - `Present(v)` has the expected type;
  - `Foreign` holds a value of another type. Where the code tests truthiness
    first, `Foreign` stands for a truthy value.
- **Randomness.** Each random primitive consumes one `Word32` from the draw
  sequence. A strategy that runs out of draws returns `Exhausted` instead of
  looping forever. Every property is stated for every successful outcome,
  whatever the draws are.
- **Random primitives.**
  - `crypto.randomInt(lo, hi)` is `lo + d % (hi - lo)`, with the same exclusive
    upper bound.
  - `_randomIntFromInterval` is computed with exact rational arithmetic.
- **Word lists.** Reading and parsing the word-lists file is an oracle
  argument of type `Option<WordLists>`. The cache in front of it is modelled
  separately in `WordLists.GetWordLists`.
- **Own keys.** Lookups on plain objects are modelled as own-key lookups.
  The code as written also answers for inherited `Object.prototype` names.
  That behaviour is modelled separately and logged under Findings for the
  generator's strategy table, `getPresetDefinition`, `getPresetMetadata` and
  `getPassphraseDictionary`. For the passphrase strategy's
  `wordLists[languageCode]` it is not modelled (see Left out).
- **Tests versus code.** The library's tests expect passphrase output in
  lower case (test/06-passphrase-strategy.test.js:111-115 and 314-315) and
  expect the passphrase strategy to use the word-lists cache
  (test/06-passphrase-strategy.test.js:47-66). In the code,
  `_generateRandomPassphraseString` reads the word-lists file itself on
  every call (src/string-generators.js:224-231) and appends words exactly as
  listed. The model follows the code:
  - `Strategies.PassphraseWords` is not lower-cased;
  - `Inspector.InspectorPoolMatchesGenerator` states when the two pools
    agree.
- **Corrected strategies.** The generator's strategies (`Strategies.Generate`)
  are the corrected versions listed under Findings. The as-written versions
  are kept next to them, each with its counterexample:
  - the digit and table samplers with the as-written bounds 9 and 61;
  - the visible-characters sampler over the as-written interval;
  - the whole-word test by equality.

  The as-written "all characters" strategy is followed only up to the code
  point it draws (`Strategies.UnicodeCodePointAsWritten`), because its
  largest draw gives 0xD800, which is not a Dafny `char`.

## Model

| member | source | states |
|---|---|---|
| Draws.RandomInt | src/string-generators.js:99 | `crypto.randomInt(lo, hi)` lies in `[lo, hi)`: the upper bound is exclusive |
| Draws.IntervalAsWritten | src/string-generators.js:79-83 | `_randomIntFromInterval(min, max)` as written lies in `[min, max+1]`, and reaches `max+1` exactly when the draw is 0xFFFFFFFF |
| Draws.Interval | src/string-generators.js:79-83 | the interval scaled by 2^32 always stays within `[min, max]` |
| Draws.IntervalAsWrittenOvershoots | src/string-generators.js:82 | only the largest 32-bit draw pushes the as-written interval past `max` |
| Encodings.B64 | src/string-generators.js:123 | the first 62 characters of the base64 alphabet are the alphanumeric table, and every entry is a base64 character |
| Encodings.B64Index | src/string-generators.js:123 | every base64 character has a position in the alphabet that gives it back |
| Encodings.B64Injective | src/string-generators.js:196 | the base64 alphabet has no repeated character |
| Encodings.HexByte | src/string-generators.js:152 | `toString('hex')` of one byte is two lower-case hex digits |
| Encodings.HexEncode | src/string-generators.js:152 | hex text has two lower-case digits per byte |
| Encodings.HexRoundTrip | src/string-generators.js:149-153 | decoding hex text gives back the bytes |
| Encodings.Base64Encode | src/string-generators.js:196 | padded base64 text has four characters per started group of three bytes, all from the alphabet or `=` |
| Text.IndexOf | src/semantic-id-inspector.js:78 | `indexOf` finds the first occurrence, or says there is none |
| Text.ContainsSingle | src/semantic-id-inspector.js:332 | `includes` of a one-character string is character membership |
| Text.JoinLength | src/semantic-id-generator.js:129-141 | a joined text is as long as its pieces plus one separator between each pair |
| Text.SplitJoin | src/semantic-id-inspector.js:95-97 | splitting on a one-character separator that no piece contains gives the joined pieces back |
| Text.JoinLacks | src/semantic-id-generator.js:136-140 | a character absent from the pieces and from the separator is absent from the join |
| Text.TrimStart | src/semantic-id-inspector.js:34 | leading trim removes exactly the leading whitespace |
| Text.TrimEnd | src/semantic-id-inspector.js:34 | trailing trim removes exactly the trailing whitespace |
| Text.TrimIdentity | src/semantic-id-inspector.js:34 | `trim` leaves a string alone exactly when it neither starts nor ends with whitespace |
| Text.TrimBlank | src/semantic-id-inspector.js:35-37 | a string trims to nothing exactly when every character is whitespace |
| WordLists.LanguageWords | src/string-generators.js:236-238 | `wordLists[code]` is the list stored under that key |
| WordLists.AllWords | src/string-generators.js:241-243 | the union of all lists contains exactly the words of some list |
| WordLists.GetWordLists | src/word-lists.js:10-31 | a cached value comes first and needs no load; a recorded failure is rethrown with no load; otherwise one load, whose success is cached and whose failure is recorded as one generic error |
| WordLists.Run | src/word-lists.js:10-31 | successive calls give one result per call |
| WordLists.DecidedIsFinal | src/word-lists.js:12-18 | once a value or a failure is recorded, no later call loads, and every call returns the same result |
| WordLists.StickyOutcome | src/word-lists.js:10-31 | from an empty cache the file is read exactly once, and every call returns the first call's result, success or failure |
| WordLists.DirectReads | src/string-generators.js:224-231 | the passphrase strategy reads the file on every call, each call's result is its own read, and the cache is untouched |
| WordLists.DirectReadsAsWritten | src/string-generators.js:224-231 | after one good read, a second call that cannot read the file fails when it reads directly, but succeeds without reading through the cache |
| Strategies.StrategyOf | src/semantic-id-generator.js:22-30 | the strategy table recognises exactly the seven names |
| Strategies.InheritedNamePassesAsWritten | src/semantic-id-generator.js:105-108 | the as-written check lets "constructor" pass although it is not one of the seven |
| Strategies.Pick | src/string-generators.js:46 | each sampler yields only characters of its own range; the visible sampler as written can also yield DEL (0x7F) |
| Strategies.VisibleAsWrittenEmitsDel | src/string-generators.js:69-76 | as written, the largest draw makes the visible-characters strategy emit DEL, which is not printable |
| Strategies.UnicodeCodePointAsWritten | src/string-generators.js:46 | the code point drawn as written lies in `0..0xD800`, and is 0xD800 exactly on the largest draw |
| Strategies.UnicodeAsWrittenReachesSurrogate | src/string-generators.js:46 | as written, the largest draw gives the surrogate 0xD800, which the inspector counts as non-printable |
| Strategies.Accepted | src/string-generators.js:43-53 | the reference filter keeps only in-range characters that are neither separator |
| Strategies.Sample | src/string-generators.js:70-76 | the sampling loop yields exactly `need` characters, namely the accepted characters of the draws it consumed; it runs out exactly when the draws hold too few accepted characters |
| Strategies.SampledString | src/string-generators.js:64-77 | it fails iff the length is not positive; on success it returns `length` characters from the sampler's range, none of them a separator |
| Strategies.DigitsAsWrittenNeverNine | src/string-generators.js:99 | the number strategy as written never emits '9' |
| Strategies.AlphanumericAsWrittenNeverNine | src/string-generators.js:126 | the alphanumeric strategy as written never emits '9', the last table entry |
| Strategies.CorrectedSamplersReachNine | src/string-generators.js:99 | with the exclusive bounds 10 and 62, one draw yields '9' |
| Strategies.UnicodeAsWrittenEmitsControls | src/string-generators.js:46-52 | the "all characters" strategy as written keeps NUL, which is not printable |
| Strategies.HexFill | src/string-generators.js:150-153 | the hex loop appends the hex encoding of exactly the bytes it consumed, one per two digits still needed |
| Strategies.HexString | src/string-generators.js:143-157 | the hexadecimal strategy fails iff the length is not positive; it consumes `ceil(length/2)` bytes and returns the first `length` digits of their hex encoding |
| Strategies.HexStringDecodes | src/string-generators.js:149-156 | an even-length hex compartment decodes back to the drawn bytes |
| Strategies.Base64Batch | src/string-generators.js:195 | `Math.ceil(length * 0.75)` bytes are enough for `length` base64 characters |
| Strategies.KeptChars | src/string-generators.js:199-201 | the kept characters come from the input, and none is a separator |
| Strategies.KeptAppend | src/string-generators.js:199-203 | filtering distributes over concatenation |
| Strategies.TakeKept | src/string-generators.js:199-203 | the inner loop's result is the first `need` characters of the accumulated text plus the filtered text |
| Strategies.BatchesAlphabet | src/string-generators.js:193-197 | the text of successive batches uses only base64 characters and `=` |
| Strategies.Base64Fill | src/string-generators.js:193-204 | the base64 loop's result is the first `need` kept characters of the encodings of whole batches it consumed |
| Strategies.Base64String | src/string-generators.js:184-208 | it fails iff the length is not positive; on success it returns `length` base64 characters, none a separator, taken in order from whole encoded batches |
| Strategies.PassphraseWords | src/string-generators.js:234-244 | the pool is the configured language's list when the code names one, otherwise every list in key order |
| Strategies.ContainmentExcludesSeparators | src/string-generators.js:258 | a word that passes the containment test holds no separator character |
| Strategies.AppendWord | src/string-generators.js:258-268 | one pass appends the whole word when the test allows it and it fits; otherwise it appends the word's non-separator characters up to `need`; the string never exceeds `need`, and under the containment test no added character is a separator |
| Strategies.Drawn | src/string-generators.js:255-256 | one picked word per draw, each a word of the pool |
| Strategies.AppendAll | src/string-generators.js:253-269 | applying `AppendWord` to a list of words keeps the string between its start and `need` |
| Strategies.AppendAllFull | src/string-generators.js:253 | once the string has `need` characters, further words leave it unchanged |
| Strategies.PassphraseFill | src/string-generators.js:253-269 | the passphrase loop returns exactly `need` characters, each occurring in a pool word; the result is `AppendWord` applied in turn to the words its draws pick; it runs out of draws exactly when all the draws leave the string short |
| Strategies.PassphraseString | src/string-generators.js:217-273 | it fails for a bad length, a failed load or an empty pool, with the matching error; otherwise it returns `length` characters drawn from pool words |
| Strategies.WholeWordWithSeparatorAsWritten | src/string-generators.js:258-260 | as written, a word made of "a", the data-concept separator and "b" is appended whole, separator included |
| Strategies.WholeWordWithSeparatorCorrected | src/string-generators.js:258-267 | with the containment test, the same draws give "aba", without the separator |
| Strategies.Generate | src/semantic-id-generator.js:130-134 | each strategy rejects a non-positive length; on success it returns `length` characters of its alphabet, none a separator for the filtering strategies |
| Segmentation.Dedup | src/semantic-id-inspector.js:289 | `Array.from(new Set(xs))` keeps every value once |
| Segmentation.Ascending | src/semantic-id-inspector.js:290 | a numeric sort of a set gives its members strictly ascending |
| Segmentation.BuildDictionary | src/semantic-id-inspector.js:289-295 | the word set is the lower-cased list; the words are distinct and are the set; the lengths are strictly ascending and are exactly the word lengths |
| Segmentation.DictionaryWords | src/semantic-id-inspector.js:274-287 | a code naming a list other than "all" gives that list; no code, the empty code, "all" or an unknown code gives every list, so a list named "all" is never used on its own |
| Segmentation.DictionaryWordsAsWritten | src/semantic-id-inspector.js:272-288 | as written, an inherited name that is not a language throws a `TypeError`; otherwise the words are the own-key lookup's |
| Segmentation.InheritedLanguageAsWritten | src/semantic-id-inspector.js:274-288 | language "constructor" throws as written, where the own-key lookup uses every list |
| Segmentation.GetPassphraseDictionary | src/semantic-id-inspector.js:272-298 | the dictionary's word set is exactly the pool words lower-cased, and every word length is listed |
| Segmentation.SegmentsSound | src/semantic-id-inspector.js:300-323 | a reachable position is spelled by dictionary words |
| Segmentation.SegmentsComplete | src/semantic-id-inspector.js:300-323 | a prefix spelled by dictionary words is a reachable position |
| Segmentation.SegmentsIffSpelled | src/semantic-id-inspector.js:300-323 | a value is reachable exactly when some sequence of dictionary words spells it |
| Segmentation.CanSegmentWithDictionary | src/semantic-id-inspector.js:300-323 | the dynamic program answers true exactly when the value splits into dictionary words |
| Segmentation.AppleExamples | src/semantic-id-inspector.js:300-323 | "appleapple" splits into words of {"apple"}; "applezzzzz" does not |
| Validators.CountRejected | src/semantic-id-inspector.js:173-180 | no character is rejected exactly when every character is accepted |
| Validators.ClassIssues | src/semantic-id-inspector.js:173-249 | a validator reports nothing exactly when the value conforms; otherwise it reports its single issue, with a positive count for non-printable characters |
| Validators.ValidatePassphrase | src/semantic-id-inspector.js:251-270 | a non-letter value is reported before the word lists are consulted; a letters-only value passes exactly when its lower-cased form is spelled by dictionary words |
| Validators.ValidateValue | src/semantic-id-inspector.js:154-160 | only the passphrase validator can throw; the others report nothing exactly on a conforming value |
| Validators.FindForbiddenSeparator | src/semantic-id-inspector.js:325-338 | the data-concept separator is checked first, and a non-empty separator is found exactly when the value contains it |
| Validators.NoForbiddenSingle | src/semantic-id-inspector.js:325-338 | with one-character separators, no separator is found exactly when the value holds neither character |
| Validators.ValidateCompartmentValue | src/semantic-id-inspector.js:139-171 | the report carries the definition's name, position, length and strategy; it is valid exactly when its issues are empty and the value is present, of the right length, separator-free and accepted by the strategy |
| Validators.GeneratedCharsAccepted | src/semantic-id-inspector.js:173-249 | every character a non-passphrase strategy generates is one its validator accepts |
| Presets.FindFrom | src/domain-presets.js:52-67 | it finds the first position holding the key, or shows there is none |
| Presets.KeyIndex | src/domain-presets.js:52-67 | a key has a position in the definitions list |
| Presets.GetPresetDefinition | src/domain-presets.js:84-95 | a non-string throws "must be a string" and an unknown key throws "Unknown domain preset"; a known key yields its own definition |
| Presets.GetPresetDefinitionAsWritten | src/domain-presets.js:84-95 | as written, the inherited names are accepted, and only those beyond the own keys |
| Presets.GetDomainPresetAsWritten | src/domain-presets.js:97-100 | as written, an inherited name yields `null` |
| Presets.GetDomainPreset | src/domain-presets.js:97-100 | same errors as the definition lookup; a known key yields the default separators (bar and hyphen) and the three preset compartments |
| Presets.DomainPresetFollowsDefinition | src/domain-presets.js:97-100 | the configuration lookup fails exactly when, and with the same error as, the definition lookup |
| Presets.InheritedPresetNameAsWritten | src/domain-presets.js:88-95 | "constructor" yields `null` as written, but the unknown-preset error with an own-key lookup |
| Presets.GetPresetMetadata | src/domain-presets.js:102-105 | the metadata is the key's definition, with the label equal to the schema name; a non-string name throws the type error and an unknown name throws "Unknown domain preset" |
| Presets.GetPresetMetadataAsWritten | src/domain-presets.js:102-105 | as written, an inherited name gives empty metadata; otherwise it agrees with the own-key lookup, errors included |
| Presets.InheritedMetadataAsWritten | src/domain-presets.js:102-105 | "constructor" gives empty metadata as written, but the unknown-preset error with an own-key lookup |
| Presets.ListDomainPresets | src/domain-presets.js:107-109 | it lists the thirty definition keys in declaration order, and exactly the keys |
| Presets.KeyShape | src/domain-presets.js:19-50 | no key is empty or contains the bar, the presets' data-concept separator |
| Presets.KeysDistinct | src/domain-presets.js:19-50 | the thirty keys are pairwise distinct |
| Presets.KeyIndexUnique | src/domain-presets.js:19-50 | a key's position is the only one holding it |
| Presets.ResolvePresetConfiguration | src/domain-presets.js:111-119 | override fields win over the preset's; compartments are `overrides.compartments ?? preset.compartments`; a name that is not an own key throws (inherited names as written: `Presets.ResolvePresetConfigurationAsWritten`) |
| Presets.ResolvePresetConfigurationAsWritten | src/domain-presets.js:111-119 | as written, an inherited name such as "constructor" has a `null` base: a `compartments` override yields the overrides unchanged, and without one it throws a `TypeError`; every other name resolves as with own keys |
| Presets.InheritedPresetResolvedAsWritten | src/domain-presets.js:111-119 | "constructor" resolves to the overrides when they hold compartments, and throws a `TypeError` otherwise, where the own-key lookup gives "Unknown domain preset" |
| Presets.ResolveWithoutOverrides | src/domain-presets.js:111-119 | with no overrides, the result is the preset's own configuration |
| Normalization.SupportedNamesAreStrategies | src/semantic-id-inspector.js:5-15 | the inspector's supported names are exactly the generator's seven strategy names |
| Normalization.CheckCompartment | src/configuration-utils.js:54-67 | a definition passes exactly when its length is a positive integer, its name is non-blank and its strategy is accepted; checks run in that order, and the first failure names the error |
| Normalization.FirstInvalid | src/configuration-utils.js:55-67 | it finds the first invalid definition |
| Normalization.CheckCompartments | src/configuration-utils.js:54-68 | all pass exactly when every definition is valid; otherwise the first invalid definition decides the error; the result copies the definitions |
| Normalization.Normalize | src/configuration-utils.js:20-71 | type errors in order: preset, each separator, then compartments; a preset that is not an own key throws (inherited names as written: `Normalization.NormalizeAsWritten`); otherwise the first invalid compartment's error is thrown; the result records the input preset, keeps the caller's separators and compartments over the defaults or preset, falls back to "\|" and "-", and holds only valid compartments |
| Normalization.NormalizeOkIff | src/configuration-utils.js:20-71 | it succeeds exactly for a well-typed input with a known preset (if any) whose effective compartments are all valid |
| Normalization.NormalizeIdempotent | src/configuration-utils.js:42-52 | normalising a normalised configuration changes nothing |
| Normalization.NormalizeEmpty | src/configuration-utils.js:3-11 | `{}` normalises to the bar and hyphen separators and the three visible compartments of lengths 4, 8 and 12 |
| Normalization.CheckValidRoundTrip | src/configuration-utils.js:13-18 | checking copies of valid compartments gives the same compartments back |
| Normalization.NormalizePresetOnly | src/configuration-utils.js:40-52 | `{ preset: k }` gives the preset's separators and compartments and remembers `k` |
| Normalization.EmptyCompartmentsKept | src/configuration-utils.js:42-46 | an explicit empty compartment list replaces the defaults |
| Normalization.NormalizeAsWritten | src/configuration-utils.js:20-71 | as written: the same type checks; an inherited preset name with a `compartments` array normalises as if no preset were given but records the name, and without compartments throws a `TypeError`; every other input normalises as `Normalize` does |
| Normalization.InheritedPresetAcceptedAsWritten | src/configuration-utils.js:40-52 | `{ preset: "constructor" }` with the default compartments normalises, as written, to the defaults with preset "constructor"; `Normalize` rejects it as an unknown preset |
| Normalization.InheritedPresetAloneAsWritten | src/configuration-utils.js:40 | `{ preset: "constructor" }` alone throws a `TypeError` as written; `Normalize` rejects it as an unknown preset |
| Normalization.GeneratorAcceptsInheritedNameAsWritten | src/semantic-id-generator.js:105-108 | the constructor as written accepts the strategy "constructor"; checking against the seven names rejects it |
| Generator.NewGenerator | src/semantic-id-generator.js:60-111 | the constructor succeeds exactly when normalisation with the seven names would; its compartments all have a strategy and a positive length |
| Generator.GenerateSegments | src/semantic-id-generator.js:129-141 | one conforming segment per compartment, each generated from the draws the previous one left; only a passphrase compartment can throw |
| Generator.GenerateSemanticId | src/semantic-id-generator.js:122-144 | a missing or empty concept throws; the identifier is the concept, the data-concept separator, then conforming segments joined by the compartment separator with none trailing |
| Generator.ConformingLengths | src/semantic-id-generator.js:134 | conforming segments are exactly as long as the compartment lengths add up to |
| Generator.GeneratedLength | src/semantic-id-generator.js:127-143 | the identifier's length is the concept's, plus the separator's, plus the sum of compartment lengths, plus one compartment separator per gap |
| Generator.AssembledLength | src/semantic-id-generator.js:127-143 | the same length formula, for any conforming segments |
| Generator.DefaultLayoutGeneratable | src/semantic-id-generator.js:34-42 | the default compartments can be generated from |
| Generator.DefaultShape | src/semantic-id-generator.js:34-42 | the default generator gives `concept`, the bar, and 26 more characters |
| Generator.DefaultAssembled | src/semantic-id-generator.js:127-143 | with the default layout, any conforming segments give the same shape |
| Inspector.ConceptName | src/semantic-id-inspector.js:78-89 | the concept is the text before the first data-concept separator, or empty when there is none |
| Inspector.StructuralIssues | src/semantic-id-inspector.js:80-104 | no issue exactly when the separator is present, the concept is non-empty and the segment count matches |
| Inspector.CompartmentOutcome | src/semantic-id-inspector.js:106-116 | compartment `k` is checked against the value at `k`, or `''` when there is none |
| Inspector.Collect | src/semantic-id-inspector.js:106-116 | `map` with a throwing callback either gives every report or throws the first error |
| Inspector.Reports | src/semantic-id-inspector.js:106-116 | one report per defined compartment, or the error of a compartment that throws |
| Inspector.MetadataFor | src/semantic-id-inspector.js:118 | no or an empty preset gives no metadata; otherwise the metadata is `getPresetMetadata`'s for that name, and it throws exactly when the name is unknown |
| Inspector.InspectWithConfiguration | src/semantic-id-inspector.js:74-137 | the report has the identifier, concept name, preset, language code, the preset's metadata and, per compartment, that compartment's check of its value; it is valid exactly when there is no structural issue and every compartment is valid; it throws exactly when a compartment check or the metadata lookup throws, with the compartment's error first |
| Inspector.DetectFrom | src/semantic-id-inspector.js:352-364 | the scan returns the first key that, followed by the bar, starts the identifier, or shows there is none |
| Inspector.DetectPreset | src/semantic-id-inspector.js:352-364 | a detected preset is a key that, followed by the bar, starts the identifier; none is detected exactly when no key matches |
| Inspector.PrefixBeforeBar | src/semantic-id-inspector.js:359 | two separator-free prefixes, each followed by the bar at the start of an identifier, are equal |
| Inspector.DetectPresetUnique | src/semantic-id-inspector.js:352-364 | any matching key is the one detected, so list order does not matter |
| Inspector.ResolveInspectionConfiguration | src/semantic-id-inspector.js:49-72 | non-object overrides throw; given overrides are normalised; next comes the inspector's own configuration; then a detected preset; otherwise it throws |
| Inspector.NewInspector | src/semantic-id-inspector.js:20-27 | no configuration gives none; a given one must normalise |
| Inspector.Inspect | src/semantic-id-inspector.js:29-46 | a non-string or blank identifier throws; a report describes the trimmed identifier |
| Inspector.InspectorPoolMatchesGenerator | src/semantic-id-inspector.js:274-287 | the inspector's dictionary words equal the generator's pool unless a list is named "all" |
| RoundTrip.SegmentClean | src/string-generators.js:150-156 | a conforming segment holds no separator character; hex is safe only with non-hex separators |
| RoundTrip.SegmentValid | src/semantic-id-inspector.js:139-171 | a generated non-passphrase segment passes every check on its compartment |
| RoundTrip.ValuesOfGenerated | src/semantic-id-inspector.js:78-97 | the inspector reads back the concept and exactly the generated segments |
| RoundTrip.GeneratedIdInspectsValid | src/semantic-id-generator.js:122-144 | under `RoundTrips`, an identifier generated with the corrected strategies whose concept lacks the separator is inspected as valid, with that concept |
| RoundTrip.AssembledInspectsValid | src/semantic-id-inspector.js:74-137 | an identifier assembled from conforming segments is inspected as valid |
| RoundTrip.InspectValidFrom | src/semantic-id-inspector.js:118-120 | no structural issue, a known preset and all compartments valid make the inspection valid |
| RoundTrip.PresetsRoundTrip | src/domain-presets.js:8-17 | every preset configuration, and the default one, meet the round-trip conditions |
| RoundTrip.InspectTrimmed | src/semantic-id-inspector.js:29-46 | without overrides, an inspector with its own configuration inspects the trimmed identifier under it |
| RoundTrip.InspectUntrimmed | src/semantic-id-inspector.js:34 | an identifier without surrounding whitespace is inspected as given |
| RoundTrip.SpaceGenerated | src/string-generators.js:64-77 | a visible-characters compartment can end the identifier with a space |
| RoundTrip.NoValueAfterSeparator | src/semantic-id-inspector.js:95-104 | the identifier "c" plus the bar has no compartment value and gets the too-few-compartments issue |
| RoundTrip.TrailingSpaceLost | src/semantic-id-inspector.js:34 | `inspect` trims a generated trailing space and rejects the identifier, so the round trip holds for `inspectWithConfiguration` but not for `inspect` |
| RoundTrip.SeparatorInConceptMisread | src/semantic-id-generator.js:123-127 | a concept containing the separator is cut at its first occurrence, and the identifier is rejected |
| RoundTrip.PassphraseTruncates | src/string-generators.js:261-267 | a word that does not fit is cut to the compartment length |
| RoundTrip.TruncatedPassphraseRejected | src/semantic-id-inspector.js:259-267 | the cut word fails the inspector's dictionary check |
| RoundTrip.HexSegmentExample | src/string-generators.js:149-156 | the hexadecimal strategy turns the byte 0xA0 into "a0" |
| RoundTrip.HexSeparatorGenerated | src/semantic-id-generator.js:122-144 | with compartment separator "a", the generator emits "c\|a0" |
| RoundTrip.HexSeparatorValues | src/semantic-id-inspector.js:95-97 | the inspector splits "a0" at the digit "a" into two values |
| RoundTrip.HexSeparatorBreaksRoundTrip | src/semantic-id-inspector.js:98-120 | that generated identifier is inspected without error and reported invalid |
| RoundTrip.LongSeparatorSegment | src/string-generators.js:124-131 | the alphanumeric strategy emits "ab" one character at a time, neither equal to the separator "ab" |
| RoundTrip.LongSeparatorGenerated | src/semantic-id-generator.js:122-144 | with compartment separator "ab", the generator emits "c\|ab" |
| RoundTrip.LongSeparatorValues | src/semantic-id-inspector.js:95-97 | the inspector splits "ab" at "ab" into two empty values |
| RoundTrip.LongSeparatorBreaksRoundTrip | src/semantic-id-inspector.js:98-120 | that generated identifier is inspected without error and reported invalid |
| RoundTrip.UnknownPresetFailsInspection | src/semantic-id-inspector.js:118 | with a non-empty preset the table does not know, inspecting any identifier throws |
| RoundTrip.OvershootFailsVisibleCheck | src/string-generators.js:71 | the as-written interval can give DEL (0x7F), which the visible validator rejects |
| Schema.ExpandSchemaType | src/schema-exporter.js:102-112 | an empty type gives schema.org's `Thing`; a compact `schema:` name is expanded; anything else is unchanged |
| Schema.ExpandIdempotent | src/schema-exporter.js:102-112 | expanding twice is expanding once |
| Schema.ExpandCompact | src/schema-exporter.js:107-109 | `schema:X` expands to the schema.org IRI of `X` |
| Schema.ReplaceAll | src/schema-exporter.js:120 | replacing a character that does not occur changes nothing |
| Schema.EscapeXmlIsEscapeEach | src/schema-exporter.js:118-125 | the chain of replacements, `&` first, equals escaping each character on its own |
| Schema.UnescapeEscape | src/schema-exporter.js:118-125 | reading the entities back gives the input |
| Schema.EscapeXmlProperties | src/schema-exporter.js:118-125 | the output holds none of `<`, `>`, `"`, `'`, and equals the input exactly when the input holds none of the five reserved characters |
| Schema.CompartmentEntries | src/schema-exporter.js:51-57 | one entry per compartment, in order, with `sig:position` equal to its index |
| Schema.CompartmentEntriesRoundTrip | src/schema-exporter.js:51-57 | the compartments can be read back from the entries |
| Schema.BuildJsonLdSchema | src/schema-exporter.js:33-59 | it succeeds exactly for a known preset; IRIs, metadata and separators come from the preset; entries map its compartments in order |
| Schema.OwlProperties | src/schema-exporter.js:69-78 | one property per compartment, in order, with an escaped label and strategy |
| Schema.OwlLabelsReadBack | src/schema-exporter.js:73 | every property label reads back as its compartment's name |
| Schema.BuildOwlSchema | src/schema-exporter.js:61-100 | it succeeds exactly for a known preset; the class label, comment and entity IRI read back as the preset's schema name, description and IRI; the class is a subclass of its expanded schema type; the separators read back as the bar and the hyphen; one property per compartment |
| Schema.OwlCompartmentsReadBack | src/schema-exporter.js:69-78 | the OWL properties describe the preset's compartments in order |
| Schema.ExportSchema | src/schema-exporter.js:21-31 | "jsonld" and an omitted format give JSON-LD, "owl" gives OWL, any other format throws "Unsupported schema format" |
| Schema.BuildSchemaForPreset | src/schema-exporter.js:13-19 | both documents describe the same preset: same IRI, the OWL class labelled with the escaped entity schema, and as many properties as entries |

## Left out

- Surrogate pairs: strings are sequences of code units. The validators' `for…of` iteration over code points is read one code unit at a time, and Dafny `char`s exclude lone surrogates.
- `toLowerCase` covers only ASCII letters. Word lists outside ASCII are not lower-cased beyond that.
- Falsy non-string values: a falsy separator or preset that is not a string (`0`, `false`) and a falsy non-array `compartments` are not representable. A field is either absent, of the expected type, or a truthy value of another type.
- A property explicitly set to `undefined` or `null` is modelled as absent.
- Normalization.Normalize: an explicit `undefined` or `null` separator is read as absent, so the default "|" or "-" is kept. As written it passes the truthiness type check, the spread merge keeps it (src/configuration-utils.js:44, src/semantic-id-generator.js:82), and the identifier is built with the text "null" or "undefined". It also reads presets by own key, so an inherited name such as "constructor" throws "Unknown domain preset". As written, that name normalises with a `compartments` array and throws a `TypeError` without one; this is `Normalization.NormalizeAsWritten` (see Findings). The generator's constructor performs the same steps (src/semantic-id-generator.js:78-90), so `Generator.NewGenerator` and `Inspector.NewInspector` carry the same difference.
- Presets.ResolvePresetConfiguration: an explicit `undefined` or `null` separator override is read as absent, so the preset's separator is kept. As written the spread at src/domain-presets.js:114-118 replaces it. An inherited preset name is rejected as unknown; the as-written `null` base is `Presets.ResolvePresetConfigurationAsWritten`.
- Any non-integer or non-number compartment length is `Foreign`: `Number.isInteger` is not modelled beyond that.
- The `strategyResolver` option of `normalizeConfiguration` is always a membership test in a set of names. The call without a resolver has no in-library caller.
- The OWL document's template text, its namespace declarations and the property IRIs, including `encodeFragment` and its `encodeURIComponent`, are left out. Only the values interpolated into the document are modelled.
- Schema.ExportSchema: a non-string `format` is not modelled.
- The process-wide dictionary cache `PASS_PHRASE_DICTIONARY_CACHE` is left out. A dictionary is rebuilt from the word lists each time, which gives the same value.
- The inspector's `PRESET_HINTS` table is not built from `getDomainPreset`. Every preset's data-concept separator is "|", so the hint for each key is `key + "|"`.
- File reads and JSON parsing are an oracle argument (`Option<WordLists>`). `crypto.randomBytes` and `crypto.randomInt` are explicit draw arguments. Uniformity and the probabilistic coverage and performance tests are not modelled.
- The UUID helpers are left out. They wrap the `uuid` package and are not in the strategy table.
- The MCP server, the CLI scripts, the TypeScript declarations and the examples contain no core logic and are left out.
- The identity of error objects is left out, for example the same `Error` instance being rethrown by the cache. Errors are compared by kind and message.
- Strategies.Generate: it models the corrected strategies. The as-written ones are kept beside them (see Findings), and the generator uses the corrected ones.
- Generator.NewGenerator: it checks strategy names against the seven supported names, not with the plain-object lookup as written (see Findings). A `null` configuration is not modelled: `ConfigInput` is always an object. As written, `new SemanticIDGenerator(null)` throws a `TypeError` from the destructuring at src/semantic-id-generator.js:61, because the default `{}` applies only to `undefined`.
- Presets.GetDomainPreset: it uses an own-key lookup, not the as-written lookup that also finds inherited names (see Findings).
- Presets.GetPresetMetadata: it uses an own-key lookup; the as-written empty metadata for inherited names is `Presets.GetPresetMetadataAsWritten` (see Findings).
- Segmentation.DictionaryWords: it uses an own-key lookup; the as-written `TypeError` for inherited names is `Segmentation.DictionaryWordsAsWritten` (see Findings).
- Strategies.PassphraseWords: an inherited name as language code is not modelled. As written, `wordLists["constructor"]` is the function `Object`. The pool becomes that one function, and the strategy emits prefixes of its source text, "function Object() { [native code] }". For `__proto__` it throws a `TypeError`. Those values are not strings, and the model's pool holds only words.
- Strategies.Pick: the "all characters" sampler uses the corrected interval. As written, the largest draw gives code point 0xD800, a lone surrogate, which cannot be a Dafny `char`. That draw is modelled at the code-point level by `Strategies.UnicodeCodePointAsWritten`.
- Generator.GenerateSemanticId: one load outcome stands for every passphrase compartment of one identifier. As written, each compartment reads the file itself (`WordLists.DirectReads`), so a read that fails part-way through is not modelled (see Findings).

## Findings

| source | as written | input that shows it | evidently intended | confidence | as-written member | corrected member |
|---|---|---|---|---|---|---|
| src/string-generators.js:79-83 | `min + floor((max-min+1) * (r / 4294967295))` | draw r = 0xFFFFFFFF gives `max+1`; for the visible strategy that is DEL (0x7F), and for "all characters" (line 46) the lone surrogate 0xD800 | a value in `[min, max]`, dividing by 2^32 | high, not executed | Draws.IntervalAsWritten | Draws.Interval |
| src/string-generators.js:69-76 | the visible-characters strategy draws through the as-written interval | draw 0xFFFFFFFF appends DEL, which is not a visible character | only characters in `0x20..0x7E` | high, not executed | Strategies.VisibleAsWrittenEmitsDel | Strategies.Generate |
| src/string-generators.js:46 | the "all characters" strategy draws through the as-written interval | draw 0xFFFFFFFF gives code point 0xD800, a lone surrogate the inspector rejects | code points up to 0xD7FF only | high, not executed | Strategies.UnicodeAsWrittenReachesSurrogate | Strategies.Generate |
| src/string-generators.js:224-231 | the passphrase strategy reads and parses the file on every call, bypassing `getWordLists` | a first call that reads, then a read that throws: the second call fails, where test/06-passphrase-strategy.test.js:47-66 expects no second read | read through the sticky cache | high, not executed | WordLists.DirectReadsAsWritten | WordLists.StickyOutcome |
| src/semantic-id-inspector.js:273-288 | `wordLists[languageCode]` answers for inherited names | language code "constructor" makes `words.map` throw a `TypeError` | fall back to every list | medium, not executed | Segmentation.InheritedLanguageAsWritten | Segmentation.DictionaryWords |
| src/configuration-utils.js:40-52 | `resolvePresetConfiguration` builds on the `null` that `getDomainPreset` returns for inherited names | `{ preset: "constructor", compartments }` normalises with preset "constructor", and `{ preset: "constructor" }` throws a `TypeError` | unknown names throw "Unknown domain preset" | high, not executed | Normalization.InheritedPresetAcceptedAsWritten | Normalization.Normalize |
| src/domain-presets.js:102-105 | `getPresetDefinition` accepts inherited names | `getPresetMetadata("constructor")` returns `{}` instead of throwing | unknown names throw "Unknown domain preset" | high, not executed | Presets.InheritedMetadataAsWritten | Presets.GetPresetMetadata |
| src/string-generators.js:46-52 | "all characters" draws any code point in `0..0xD7FF` | draw 0 gives NUL, which the inspector counts as non-printable | only code points the inspector accepts | medium, not executed | Strategies.UnicodeAsWrittenEmitsControls | Strategies.Generate |
| src/string-generators.js:258-259 | `separators.has(word)` tests equality with a separator | the word a-bar-b, with the bar as data-concept separator, is appended whole | skip whole words that contain a separator | high, not executed | Strategies.WholeWordWithSeparatorAsWritten | Strategies.PassphraseString |
| src/semantic-id-generator.js:105-108 | the strategy is looked up on a plain object | strategy "constructor" passes the constructor's check | only the seven strategy names are accepted | high, not executed | Normalization.NormalizeAsWritten | src/configuration-utils.js:20-71 | as written: the same type checks; an inherited preset name with a `compartments` array normalises as if no preset were given but records the name, and without compartments throws a `TypeError`; every other input normalises as `Normalize` does |
| Normalization.InheritedPresetAcceptedAsWritten | src/configuration-utils.js:40-52 | `{ preset: "constructor" }` with the default compartments normalises, as written, to the defaults with preset "constructor"; `Normalize` rejects it as an unknown preset |
| Normalization.InheritedPresetAloneAsWritten | src/configuration-utils.js:40 | `{ preset: "constructor" }` alone throws a `TypeError` as written; `Normalize` rejects it as an unknown preset |
| Normalization.GeneratorAcceptsInheritedNameAsWritten | Generator.NewGenerator |
| src/domain-presets.js:88-95 | `DOMAIN_PRESETS[name]` on a plain object | `getDomainPreset("constructor")` returns `null` instead of throwing | unknown names throw "Unknown domain preset" | high, not executed | Presets.InheritedPresetNameAsWritten | Presets.GetDomainPreset |
| src/string-generators.js:99 | `crypto.randomInt(0, 9)` has an exclusive upper bound | no draw yields '9' | every digit 0-9 | high, not executed | Strategies.DigitsAsWrittenNeverNine | Strategies.CorrectedSamplersReachNine |
| src/string-generators.js:126 | `crypto.randomInt(0, alphanumericChars.length - 1)` | no draw yields '9', the 62nd table character | every character of the table | high, not executed | Strategies.AlphanumericAsWrittenNeverNine | Strategies.CorrectedSamplersReachNine |

=== FILE: draws.dfy ===
/**
  Randomness as an explicit input. Every random primitive the strategies use
  (`crypto.randomBytes(4).readUInt32BE`, `crypto.randomBytes(1)`,
  `crypto.randomInt`) consumes one 32-bit draw from a finite stream; a
  strategy that runs out of draws reports `Exhausted` instead of looping on.
 */
module Draws {
  import opened Values

  const TwoTo32: int := 0x1_0000_0000
  const MaxWord32: int := 0xFFFF_FFFF

  /** One draw: an unsigned 32-bit integer. */
  type Word32 = x: int | 0 <= x < 0x1_0000_0000

  type Byte = x: int | 0 <= x < 256

  /** A computation over the draw stream: a value and the unused draws, a thrown error, or too few draws. */
  datatype Outcome<+T> = Done(value: T, rest: seq<Word32>) | Failed(error: Error) | Exhausted

  /** `rest` is what remains of `draws` after some prefix was consumed. */
  predicate IsSuffix(rest: seq<Word32>, draws: seq<Word32>) {
    |rest| <= |draws| && rest == draws[|draws| - |rest|..]
  }

  /** The prefix of `draws` consumed when `rest` remains. */
  function Consumed(draws: seq<Word32>, rest: seq<Word32>): (used: seq<Word32>)
    requires |rest| <= |draws|
    ensures |used| == |draws| - |rest|
  {
    draws[..|draws| - |rest|]
  }

  /** `crypto.randomBytes(1)[0]` read from one draw. */
  function ByteOf(d: Word32): Byte {
    d % 256
  }

  /** `crypto.randomInt(lo, hi)`: a value in `[lo, hi)`; which draw gives which value is immaterial here. */
  function RandomInt(lo: int, hi: int, d: Word32): (v: int)
    requires lo < hi
    ensures lo <= v < hi
  {
    lo + d % (hi - lo)
  }

  lemma MulMono(x: int, y: int, m: int)
    requires x >= y && m >= 0
    ensures x * m >= y * m
  {
    var d := x - y;
    assert x * m == y * m + d * m;
  }

  /** Integer division by a positive `m` stays below `b` when the dividend does below `b * m`. */
  lemma DivBelow(a: int, b: int, m: int)
    requires 0 <= a < b * m && m > 0
    ensures 0 <= a / m < b
  {
    var q := a / m;
    assert a == q * m + a % m;
    if q >= b {
      MulMono(q, b, m);
    }
  }

  lemma DivExact(w: int, m: int)
    requires m > 0
    ensures (w * m) / m == w
  {
    var a := w * m;
    var q := a / m;
    assert a == q * m + a % m;
    if q > w {
      MulMono(q, w + 1, m);
    } else if q < w {
      MulMono(w, q + 1, m);
    }
  }

  lemma ScaledBelowMax(w: nat, r: nat, m: nat)
    requires w > 0 && m > 0 && r <= m
    ensures 0 <= (w * r) / m <= w
    ensures (w * r) / m == w <==> r == m
  {
    if r == m {
      DivExact(w, m);
    } else {
      MulMono(m, r + 1, w);
      assert w * r < w * m;
      DivBelow(w * r, w, m);
    }
  }

  lemma ScaledBelow(w: nat, r: nat, m: nat)
    requires w > 0 && m > 0 && r < m
    ensures 0 <= (w * r) / m < w
  {
    MulMono(m, r + 1, w);
    DivBelow(w * r, w, m);
  }

  /**
    `_randomIntFromInterval(min, max)` as written:
    `min + Math.floor((max - min + 1) * (r / 4294967295))`, read with exact
    rational arithmetic. Dividing by 2^32 - 1 rather than 2^32 lets the
    largest draw reach `max + 1`.
   */
  function IntervalAsWritten(min: int, max: int, r: Word32): (v: int)
    requires min <= max
    ensures min <= v <= max + 1
    ensures v == max + 1 <==> r == MaxWord32
  {
    ScaledBelowMax(max - min + 1, r, MaxWord32);
    min + ((max - min + 1) * r) / MaxWord32
  }

  /** `_randomIntFromInterval` as evidently intended: scaling by 2^32 keeps the value within `[min, max]`. */
  function Interval(min: int, max: int, r: Word32): (v: int)
    requires min <= max
    ensures min <= v <= max
  {
    ScaledBelow(max - min + 1, r, TwoTo32);
    min + ((max - min + 1) * r) / TwoTo32
  }

  /** The largest draw is the one that pushes the as-written interval past its bound. */
  lemma IntervalAsWrittenOvershoots(min: int, max: int)
    requires min <= max
    ensures IntervalAsWritten(min, max, MaxWord32) == max + 1
    ensures forall r: Word32 :: r != MaxWord32 ==> IntervalAsWritten(min, max, r) <= max
  {
  }
}

=== FILE: encodings.dfy ===
/**
  Character classes, and the two byte encodings the generator uses:
  `Buffer.toString('hex')` (two lower-case digits per byte) and
  `Buffer.toString('base64')` (section 4 of RFC 4648, with `=` padding).
 */
module Encodings {
  import opened Draws

  predicate IsDigit(c: char) { '0' <= c <= '9' }
  predicate IsUpper(c: char) { 'A' <= c <= 'Z' }
  predicate IsLower(c: char) { 'a' <= c <= 'z' }
  predicate IsLetter(c: char) { IsUpper(c) || IsLower(c) }
  predicate IsAlphanumeric(c: char) { IsLetter(c) || IsDigit(c) }
  predicate IsLowerHexDigit(c: char) { IsDigit(c) || 'a' <= c <= 'f' }
  /** `[0-9a-f]` under the `i` flag. */
  predicate IsHexDigit(c: char) { IsLowerHexDigit(c) || 'A' <= c <= 'F' }
  /** The 64 characters of the base64 alphabet, without the pad character. */
  predicate IsBase64Char(c: char) { IsAlphanumeric(c) || c == '+' || c == '/' }

  /** The `k`-th character of "0123456789abcdef". */
  function HexDigit(k: int): (c: char)
    requires 0 <= k < 16
    ensures IsLowerHexDigit(c)
  {
    if k < 10 then ('0' as int + k) as char else ('a' as int + k - 10) as char
  }

  /**
    The `k`-th character of "ABCDEFGHIJKLMNOPQRSTUVWXYZabcdefghijklmnopqrstuvwxyz0123456789+/";
    its first 62 characters are the generator's alphanumeric table.
   */
  function B64(k: int): (c: char)
    requires 0 <= k < 64
    ensures IsBase64Char(c)
    ensures k < 62 ==> IsAlphanumeric(c)
  {
    if k < 26 then ('A' as int + k) as char
    else if k < 52 then ('a' as int + k - 26) as char
    else if k < 62 then ('0' as int + k - 52) as char
    else if k == 62 then '+'
    else '/'
  }

  /** The position of a base64 character in the alphabet `B64` enumerates. */
  function B64Index(c: char): (k: int)
    requires IsBase64Char(c)
    ensures 0 <= k < 64 && B64(k) == c
    ensures IsAlphanumeric(c) ==> k < 62
  {
    if IsUpper(c) then c as int - 'A' as int
    else if IsLower(c) then c as int - 'a' as int + 26
    else if IsDigit(c) then c as int - '0' as int + 52
    else if c == '+' then 62
    else 63
  }

  /** `B64` and `B64Index` are inverse: the alphabet has no repeated character. */
  lemma B64Injective(k: int)
    requires 0 <= k < 64
    ensures B64Index(B64(k)) == k
  {
  }

  /**
    A code point the inspector counts as printable: a scalar value up to
    U+10FFFF that is neither a surrogate, a C0 control nor DEL or a C1 control.
   */
  predicate IsPrintableCodePoint(n: int) {
    !(0xD800 <= n <= 0xDFFF) && !(n <= 0x1F || (0x7F <= n <= 0x9F)) && n <= 0x10FFFF
  }

  /** The two hex digits of one byte. */
  function HexByte(b: Byte): (r: string)
    ensures |r| == 2 && IsLowerHexDigit(r[0]) && IsLowerHexDigit(r[1])
  {
    [HexDigit(b / 16), HexDigit(b % 16)]
  }

  function HexEncode(bs: seq<Byte>): (r: string)
    ensures |r| == 2 * |bs|
    ensures forall i :: 0 <= i < |r| ==> IsLowerHexDigit(r[i])
  {
    if |bs| == 0 then [] else HexByte(bs[0]) + HexEncode(bs[1..])
  }

  /** The value of a hex digit of either case. */
  function HexValue(c: char): nat
    requires IsHexDigit(c)
  {
    if IsDigit(c) then c as int - '0' as int
    else if 'a' <= c <= 'f' then c as int - 'a' as int + 10
    else c as int - 'A' as int + 10
  }

  function HexDecode(s: string): seq<int>
    requires |s| % 2 == 0
    requires forall i :: 0 <= i < |s| ==> IsHexDigit(s[i])
  {
    if |s| == 0 then [] else [16 * HexValue(s[0]) + HexValue(s[1])] + HexDecode(s[2..])
  }

  lemma HexDigitValue(k: int)
    requires 0 <= k < 16
    ensures HexValue(HexDigit(k)) == k
  {
  }

  /** Hex encoding loses nothing: decoding gives the bytes back. */
  lemma {:induction false} HexRoundTrip(bs: seq<Byte>)
    ensures HexDecode(HexEncode(bs)) == bs
  {
    if |bs| > 0 {
      var b := bs[0];
      HexDigitValue(b / 16);
      HexDigitValue(b % 16);
      assert HexEncode(bs)[2..] == HexEncode(bs[1..]);
      HexRoundTrip(bs[1..]);
    }
  }

  /** Base64 with padding: each group of three bytes becomes four characters. */
  function Base64Encode(bs: seq<Byte>): (r: string)
    ensures |r| == 4 * ((|bs| + 2) / 3)
    ensures forall i :: 0 <= i < |r| ==> IsBase64Char(r[i]) || r[i] == '='
    decreases |bs|
  {
    if |bs| == 0 then []
    else if |bs| == 1 then
      [B64(bs[0] / 4), B64((bs[0] % 4) * 16), '=', '=']
    else if |bs| == 2 then
      [B64(bs[0] / 4), B64((bs[0] % 4) * 16 + bs[1] / 16), B64((bs[1] % 16) * 4), '=']
    else
      [B64(bs[0] / 4), B64((bs[0] % 4) * 16 + bs[1] / 16), B64((bs[1] % 16) * 4 + bs[2] / 64), B64(bs[2] % 64)]
      + Base64Encode(bs[3..])
  }

  /** The bytes read from a run of draws. */
  function BytesOf(ds: seq<Word32>): (r: seq<Byte>)
    ensures |r| == |ds|
  {
    seq(|ds|, i requires 0 <= i < |ds| => ByteOf(ds[i]))
  }
}

=== FILE: generator.dfy ===
/**
  The generator: a normalised configuration, and an identifier built from a
  data concept name and one generated segment per compartment.
 */
module Generator {
  import opened Values
  import opened Text
  import opened Types
  import opened Draws
  import opened WordLists
  import opened Strategies
  import opened Normalization

  /** What a constructed generator guarantees about its compartments. */
  predicate Generatable(cfg: Configuration) {
    forall i :: 0 <= i < |cfg.compartments| ==>
      StrategyOf(cfg.compartments[i].strategy).Some? && cfg.compartments[i].length > 0
  }

  /**
    `new SemanticIDGenerator(configuration)`, with the strategy names checked
    against the supported seven rather than looked up on a plain object.
   */
  function NewGenerator(input: ConfigInput): (r: Result<Configuration>)
    ensures r.Ok? ==> Generatable(r.value)
    ensures r.Ok? <==> (WellTyped(input)
      && (RequestsPreset(input) ==> Presets.IsPresetKey(input.preset.value))
      && forall i :: 0 <= i < |EffectiveCompartments(input)| ==>
        IsValidCompartment(EffectiveCompartments(input)[i], SupportedStrategyNames))
  {
    var r := Normalize(input, SupportedStrategyNames);
    NormalizeOkIff(input, SupportedStrategyNames);
    if r.Ok? then
      assert Generatable(r.value) by {
        forall i | 0 <= i < |r.value.compartments|
          ensures StrategyOf(r.value.compartments[i].strategy).Some? && r.value.compartments[i].length > 0
        {
          assert IsValidCompartment(ToRaw(r.value.compartments[i]), SupportedStrategyNames);
          SupportedNamesAreStrategies(r.value.compartments[i].strategy);
        }
      }
      r
    else r
  }

  /** A segment that compartment `c` may produce under `cfg`. */
  predicate Conforms(seg: string, c: Compartment, cfg: Configuration)
    requires StrategyOf(c.strategy).Some?
  {
    var st := StrategyOf(c.strategy).value;
    |seg| == c.length
    && forall j :: 0 <= j < |seg| ==> InAlphabet(st, seg[j]) && (Filters(st) ==> !IsSeparatorChar(seg[j], cfg))
  }

  /** One segment per compartment, each conforming to its compartment. */
  predicate SegmentsConform(segs: seq<string>, comps: seq<Compartment>, cfg: Configuration)
    requires forall i :: 0 <= i < |comps| ==> StrategyOf(comps[i].strategy).Some?
  {
    |segs| == |comps| && forall i :: 0 <= i < |comps| ==> Conforms(segs[i], comps[i], cfg)
  }

  /** The compartments generated in order, each from the draws the previous one left. */
  function GenerateSegments(comps: seq<Compartment>, cfg: Configuration, load: Option<WordLists>, draws: seq<Word32>): (r: Outcome<seq<string>>)
    requires forall i :: 0 <= i < |comps| ==> StrategyOf(comps[i].strategy).Some? && comps[i].length > 0
    ensures r.Done? ==> IsSuffix(r.rest, draws) && SegmentsConform(r.value, comps, cfg)
    ensures r.Failed? ==> exists i :: 0 <= i < |comps| && StrategyOf(comps[i].strategy) == Some(Passphrase)
    decreases |comps|
  {
    if |comps| == 0 then Done([], draws)
    else
      match Generate(StrategyOf(comps[0].strategy).value, comps[0].length, cfg, load, draws)
      case Failed(e) => Failed(e)
      case Exhausted => Exhausted
      case Done(seg, rest) =>
        match GenerateSegments(comps[1..], cfg, load, rest)
        case Failed(e) =>
          var k :| 0 <= k < |comps[1..]| && StrategyOf(comps[1..][k].strategy) == Some(Passphrase);
          assert comps[k + 1] == comps[1..][k];
          Failed(e)
        case Exhausted => Exhausted
        case Done(segs, rest') =>
          assert forall i :: 1 <= i < |comps| ==> comps[i] == comps[1..][i - 1];
          Done([seg] + segs, rest')
  }

  /** The identifier `concept + dcs + segments joined by cs`. */
  function Assemble(concept: string, cfg: Configuration, segs: seq<string>): string {
    concept + cfg.dataConceptSeparator + Join(segs, cfg.compartmentSeparator)
  }

  /**
    `generateSemanticID(dataConceptName)`. `load` is what reading and
    parsing the word-lists file gives. As written, each passphrase
    compartment reads the file itself (`WordLists.DirectReads`); here one
    outcome stands for all of them, as it would through the cache
    (`WordLists.StickyOutcome`).
   */
  function GenerateSemanticId(cfg: Configuration, concept: Field<string>, load: Option<WordLists>, draws: seq<Word32>): (r: Outcome<string>)
    requires Generatable(cfg)
    ensures !(concept.Present? && concept.value != "") ==> r == Failed(InvalidConceptName)
    ensures r.Failed? && concept.Present? && concept.value != "" ==>
      exists i :: 0 <= i < |cfg.compartments| && StrategyOf(cfg.compartments[i].strategy) == Some(Passphrase)
    ensures r.Done? ==> (concept.Present? && IsSuffix(r.rest, draws)
      && exists segs :: SegmentsConform(segs, cfg.compartments, cfg) && r.value == Assemble(concept.value, cfg, segs))
  {
    if !(concept.Present? && concept.value != "") then Failed(InvalidConceptName)
    else
      match GenerateSegments(cfg.compartments, cfg, load, draws)
      case Failed(e) => Failed(e)
      case Exhausted => Exhausted
      case Done(segs, rest) => Done(Assemble(concept.value, cfg, segs), rest)
  }

  /** The sum of the compartment lengths. */
  function TotalLength(comps: seq<Compartment>): int {
    if |comps| == 0 then 0 else comps[0].length + TotalLength(comps[1..])
  }

  lemma {:induction false} ConformingLengths(segs: seq<string>, comps: seq<Compartment>, cfg: Configuration)
    requires forall i :: 0 <= i < |comps| ==> StrategyOf(comps[i].strategy).Some?
    requires SegmentsConform(segs, comps, cfg)
    ensures SumLengths(segs) == TotalLength(comps)
  {
    if |comps| > 0 {
      assert forall i :: 0 <= i < |comps[1..]| ==> comps[1..][i] == comps[i + 1] && segs[1..][i] == segs[i + 1];
      ConformingLengths(segs[1..], comps[1..], cfg);
    }
  }

  /**
    A generated identifier is as long as the concept name and separator,
    the compartment lengths, and one separator between each pair of
    compartments.
   */
  lemma GeneratedLength(cfg: Configuration, concept: Field<string>, load: Option<WordLists>, draws: seq<Word32>)
    requires Generatable(cfg) && |cfg.compartments| >= 1
    requires GenerateSemanticId(cfg, concept, load, draws).Done?
    ensures |GenerateSemanticId(cfg, concept, load, draws).value|
      == |concept.value| + |cfg.dataConceptSeparator| + TotalLength(cfg.compartments)
        + (|cfg.compartments| - 1) * |cfg.compartmentSeparator|
  {
    var r := GenerateSemanticId(cfg, concept, load, draws);
    var segs :| SegmentsConform(segs, cfg.compartments, cfg) && r.value == Assemble(concept.value, cfg, segs);
    AssembledLength(concept.value, cfg, segs);
  }

  /** The length of an identifier assembled from conforming segments. */
  lemma AssembledLength(concept: string, cfg: Configuration, segs: seq<string>)
    requires Generatable(cfg) && |cfg.compartments| >= 1
    requires SegmentsConform(segs, cfg.compartments, cfg)
    ensures |Assemble(concept, cfg, segs)|
      == |concept| + |cfg.dataConceptSeparator| + TotalLength(cfg.compartments)
        + (|cfg.compartments| - 1) * |cfg.compartmentSeparator|
  {
    ConformingLengths(segs, cfg.compartments, cfg);
    JoinLength(segs, cfg.compartmentSeparator);
  }

  /** A configuration with the default separators and compartments, such as the one the empty object normalises to. */
  predicate DefaultLayout(cfg: Configuration) {
    cfg.dataConceptSeparator == "|" && cfg.compartmentSeparator == "-" && cfg.compartments == DefaultCompartments
  }

  /** The default layout can be generated from. */
  lemma DefaultLayoutGeneratable(cfg: Configuration)
    requires DefaultLayout(cfg)
    ensures Generatable(cfg)
  {
  }

  /** The default generator produces `concept|xxxx-xxxxxxxx-xxxxxxxxxxxx`: 26 characters after the concept and separator. */
  lemma DefaultShape(cfg: Configuration, concept: string, load: Option<WordLists>, draws: seq<Word32>)
    requires DefaultLayout(cfg) && Generatable(cfg)
    requires GenerateSemanticId(cfg, Present(concept), load, draws).Done?
    ensures var id := GenerateSemanticId(cfg, Present(concept), load, draws).value;
      |id| == |concept| + 27 && id[..|concept| + 1] == concept + "|"
  {
    var r := GenerateSemanticId(cfg, Present(concept), load, draws);
    var segs :| SegmentsConform(segs, cfg.compartments, cfg) && r.value == Assemble(concept, cfg, segs);
    DefaultAssembled(cfg, concept, segs);
  }

  /** The default identifier's shape, for any conforming segments. */
  lemma DefaultAssembled(cfg: Configuration, concept: string, segs: seq<string>)
    requires DefaultLayout(cfg) && Generatable(cfg)
    requires SegmentsConform(segs, cfg.compartments, cfg)
    ensures var id := Assemble(concept, cfg, segs);
      |id| == |concept| + 27 && id[..|concept| + 1] == concept + "|"
  {
    AssembledLength(concept, cfg, segs);
    assert TotalLength(cfg.compartments) == 24;
    var id := Assemble(concept, cfg, segs);
    assert id == (concept + "|") + Join(segs, "-");
  }
}

=== FILE: inspector.dfy ===
/**
  The inspector: which configuration applies to an identifier, how the
  identifier is cut into a concept name and compartment values, and the
  report built from the per-compartment checks.
 */
module Inspector {
  import opened Values
  import opened Text
  import opened Types
  import opened WordLists
  import opened Strategies
  import opened Segmentation
  import opened Presets
  import opened Normalization
  import opened Validators

  /** The result of `inspect`: the `configuration` summary is flattened into four fields. */
  datatype Report = Report(
    semanticId: string,
    dataConceptName: string,
    preset: Option<string>,
    metadata: Option<PresetMetadata>,
    dataConceptSeparator: string,
    compartmentSeparator: string,
    languageCode: Option<string>,
    compartmentCount: nat,
    isValid: bool,
    issues: seq<Issue>,
    compartments: seq<CompartmentReport>)

  /** The concept name: what precedes the first data-concept separator, or nothing when there is none. */
  function ConceptName(id: string, dcs: string): (r: string)
    ensures IndexOf(id, dcs).None? ==> r == []
    ensures IndexOf(id, dcs).Some? ==> (|r| == IndexOf(id, dcs).value && id == r + dcs + id[|r| + |dcs|..]
      && (|dcs| > 0 ==> !Contains(r, dcs)))
  {
    match IndexOf(id, dcs)
    case None => []
    case Some(k) =>
      assert id[k..k + |dcs|] == dcs;
      assert id == id[..k] + dcs + id[k + |dcs|..];
      if |dcs| > 0 then
        assert !Contains(id[..k], dcs) by {
          forall j ensures !OccursAt(id[..k], dcs, j) {
            if OccursAt(id[..k], dcs, j) {
              assert id[..k][j..j + |dcs|] == id[j..j + |dcs|];
              assert OccursAt(id, dcs, j);
            }
          }
        }
        id[..k]
      else id[..k]
  }

  /** The text after the first data-concept separator, or nothing when there is none. */
  function CompartmentSegment(id: string, dcs: string): string {
    match IndexOf(id, dcs)
    case None => []
    case Some(k) => id[k + |dcs|..]
  }

  /** The compartment values: none for an empty segment, else the segment split on the compartment separator. */
  function CompartmentValues(id: string, cfg: Configuration): seq<string> {
    var segment := CompartmentSegment(id, cfg.dataConceptSeparator);
    if |segment| == 0 then [] else Split(segment, cfg.compartmentSeparator)
  }

  /** The identifier-level issues, in the order the source records them. */
  function StructuralIssues(id: string, cfg: Configuration): (r: seq<Issue>)
    ensures r == [] <==> (IndexOf(id, cfg.dataConceptSeparator).Some? && ConceptName(id, cfg.dataConceptSeparator) != []
      && |CompartmentValues(id, cfg)| == |cfg.compartments|)
  {
    var values := CompartmentValues(id, cfg);
    var expected := |cfg.compartments|;
    (if IndexOf(id, cfg.dataConceptSeparator).None? then [MissingConceptSeparator(cfg.dataConceptSeparator)] else [])
    + (if ConceptName(id, cfg.dataConceptSeparator) == [] then [MissingConceptName] else [])
    + (if |values| < expected then [TooFewCompartments(expected, |values|)]
       else if |values| > expected then [UnexpectedCompartments(|values| - expected)]
       else [])
  }

  /** The value paired with compartment `i`, or the empty string when the identifier has too few. */
  function ValueAt(values: seq<string>, i: nat): string {
    if i < |values| then values[i] else []
  }

  /** The check of compartment `k` against its value. */
  function CompartmentOutcome(cfg: Configuration, values: seq<string>, load: Option<WordLists>, k: nat): (r: Result<CompartmentReport>)
    requires k < |cfg.compartments|
    ensures r.Ok? ==> r.value.value == ValueAt(values, k)
  {
    ValidateCompartmentValue(ValueAt(values, k), cfg.compartments[k], cfg, k, k >= |values|, load)
  }

  /** The first error among the outcomes, or every report when there is none: `map` with a throwing callback. */
  function Collect(rs: seq<Result<CompartmentReport>>): (r: Result<seq<CompartmentReport>>)
    ensures r.Ok? ==> |r.value| == |rs| && forall k :: 0 <= k < |rs| ==> rs[k] == Ok(r.value[k])
    ensures r.Err? ==> exists k :: 0 <= k < |rs| && rs[k] == Err(r.error) && forall j :: 0 <= j < k ==> rs[j].Ok?
  {
    if |rs| == 0 then Ok([])
    else if rs[0].Err? then Err(rs[0].error)
    else
      var rest := Collect(rs[1..]);
      assert forall k :: 1 <= k < |rs| ==> rs[k] == rs[1..][k - 1];
      if rest.Err? then
        var k :| 0 <= k < |rs[1..]| && rs[1..][k] == Err(rest.error) && forall j :: 0 <= j < k ==> rs[1..][j].Ok?;
        assert rs[k + 1] == Err(rest.error);
        Err(rest.error)
      else
        Ok([rs[0].value] + rest.value)
  }

  /** The reports on every compartment; the first validator that throws ends the inspection. */
  function Reports(cfg: Configuration, values: seq<string>, load: Option<WordLists>): (r: Result<seq<CompartmentReport>>)
    ensures r.Ok? ==> (|r.value| == |cfg.compartments|
      && forall k :: 0 <= k < |cfg.compartments| ==> CompartmentOutcome(cfg, values, load, k) == Ok(r.value[k]))
    ensures r.Err? ==> exists k :: 0 <= k < |cfg.compartments| && CompartmentOutcome(cfg, values, load, k) == Err(r.error)
  {
    Collect(seq(|cfg.compartments|, k requires 0 <= k < |cfg.compartments| => CompartmentOutcome(cfg, values, load, k)))
  }

  /** `configuration.preset ? getPresetMetadata(configuration.preset) : null`. */
  function MetadataFor(cfg: Configuration): (r: Result<Option<PresetMetadata>>)
    ensures r.Err? <==> cfg.preset.Some? && cfg.preset.value != [] && !IsPresetKey(cfg.preset.value)
    ensures r.Ok? && r.value.Some? ==> cfg.preset.Some? && r.value.value.key == cfg.preset.value
    ensures cfg.preset.None? || cfg.preset.value == [] ==> r == Ok(None)
    ensures r.Ok? && r.value.Some? ==> Ok(r.value.value) == GetPresetMetadata(Present(cfg.preset.value))
  {
    if cfg.preset.Some? && cfg.preset.value != [] then
      var m :- GetPresetMetadata(Present(cfg.preset.value));
      Ok(Some(m))
    else Ok(None)
  }

  /** `inspectWithConfiguration(semanticId, configuration)`. */
  function InspectWithConfiguration(id: string, cfg: Configuration, load: Option<WordLists>): (r: Result<Report>)
    ensures r.Ok? ==> (r.value.semanticId == id
      && r.value.dataConceptName == ConceptName(id, cfg.dataConceptSeparator)
      && r.value.compartmentCount == |cfg.compartments| == |r.value.compartments|
      && r.value.preset == cfg.preset && r.value.languageCode == cfg.languageCode
      && r.value.issues == StructuralIssues(id, cfg))
    ensures r.Ok? ==> (r.value.isValid <==>
      (StructuralIssues(id, cfg) == [] && forall k :: 0 <= k < |r.value.compartments| ==> r.value.compartments[k].isValid))
    ensures r.Ok? ==> forall k :: 0 <= k < |r.value.compartments| ==>
      r.value.compartments[k].value == ValueAt(CompartmentValues(id, cfg), k)
    ensures r.Ok? ==> forall k :: 0 <= k < |cfg.compartments| ==>
      CompartmentOutcome(cfg, CompartmentValues(id, cfg), load, k) == Ok(r.value.compartments[k])
    ensures r.Ok? ==> MetadataFor(cfg) == Ok(r.value.metadata)
    ensures r.Err? <==> Reports(cfg, CompartmentValues(id, cfg), load).Err? || MetadataFor(cfg).Err?
    ensures r.Err? ==> r.error == (if Reports(cfg, CompartmentValues(id, cfg), load).Err?
      then Reports(cfg, CompartmentValues(id, cfg), load).error else MetadataFor(cfg).error)
  {
    var values := CompartmentValues(id, cfg);
    var issues := StructuralIssues(id, cfg);
    var reports :- Reports(cfg, values, load);
    assert forall k :: 0 <= k < |reports| ==> reports[k].value == ValueAt(values, k) by {
      forall k | 0 <= k < |reports| ensures reports[k].value == ValueAt(values, k) {
        assert CompartmentOutcome(cfg, values, load, k) == Ok(reports[k]);
      }
    }
    var metadata :- MetadataFor(cfg);
    var allValid := forall k :: 0 <= k < |reports| ==> reports[k].isValid;
    Ok(Report(id, ConceptName(id, cfg.dataConceptSeparator), cfg.preset, metadata,
      cfg.dataConceptSeparator, cfg.compartmentSeparator, cfg.languageCode, |cfg.compartments|,
      issues == [] && allValid, issues, reports))
  }

  /** The first preset key, in list order, such that the identifier starts with the key and its separator. */
  function DetectFrom(id: string, i: nat): (r: Option<string>)
    requires i <= |PresetKeys|
    decreases |PresetKeys| - i
    ensures r.Some? ==> r.value in PresetKeys[i..] && StartsWith(id, r.value + "|")
    ensures r.None? ==> forall k :: i <= k < |PresetKeys| ==> !StartsWith(id, PresetKeys[k] + "|")
  {
    if i == |PresetKeys| then None
    else if StartsWith(id, PresetKeys[i] + "|") then Some(PresetKeys[i])
    else DetectFrom(id, i + 1)
  }

  /**
    `detectPresetFromSemanticId(semanticId)`: every preset's data-concept
    separator is "|", so the hint for a key is `key + "|"`.
   */
  function DetectPreset(id: string): (r: Option<string>)
    ensures r.Some? ==> IsPresetKey(r.value) && StartsWith(id, r.value + "|")
    ensures r.None? <==> forall k :: IsPresetKey(k) ==> !StartsWith(id, k + "|")
  {
    DetectFrom(id, 0)
  }

  /** Two separator-free prefixes each followed by the separator at the start of one string are equal. */
  lemma PrefixBeforeBar(id: string, a: string, b: string)
    requires '|' !in a && '|' !in b
    requires StartsWith(id, a + "|") && StartsWith(id, b + "|")
    ensures a == b
  {
    if |a| < |b| {
      BarAt(id, a, b);
      assert false;
    } else if |b| < |a| {
      BarAt(id, b, a);
      assert false;
    } else {
      assert a == (a + "|")[..|a|] == id[..|a|] == (b + "|")[..|b|] == b;
    }
  }

  /** When the shorter prefix is followed by the separator, the longer one has it at that position. */
  lemma BarAt(id: string, a: string, b: string)
    requires |a| < |b| && StartsWith(id, a + "|") && StartsWith(id, b + "|")
    ensures b[|a|] == '|'
  {
    assert id[|a|] == (a + "|")[|a|];
    assert id[|a|] == (b + "|")[|a|];
  }

  /** Detection does not depend on the list order: at most one key can match. */
  lemma DetectPresetUnique(id: string, k: string)
    requires IsPresetKey(k) && StartsWith(id, k + "|")
    ensures DetectPreset(id) == Some(k)
  {
    var r := DetectPreset(id);
    KeyShape(KeyIndex(k));
    KeyShape(KeyIndex(r.value));
    PrefixBeforeBar(id, k, r.value);
  }

  /** `{ preset: key }`. */
  function PresetOnly(key: string): ConfigInput {
    ConfigInput(Present(key), Absent, Absent, Absent, None)
  }

  /**
    `resolveInspectionConfiguration({ inspectorConfiguration, overrides, semanticId })`:
    the overrides when given, else the inspector's own configuration, else
    the preset the identifier's prefix names.
   */
  function ResolveInspectionConfiguration(inspectorCfg: Option<Configuration>, overrides: Field<ConfigInput>, id: string): (r: Result<Configuration>)
    ensures overrides.Foreign? ==> r == Err(OverridesNotObject)
    ensures overrides.Present? ==> r == Normalize(overrides.value, SupportedStrategyNames)
    ensures overrides.Absent? && inspectorCfg.Some? ==> r == Ok(inspectorCfg.value)
    ensures overrides.Absent? && inspectorCfg.None? ==>
      (r.Ok? <==> exists k :: IsPresetKey(k) && StartsWith(id, k + "|"))
    ensures overrides.Absent? && inspectorCfg.None? && r.Ok? ==>
      (r.value.preset.Some? && StartsWith(id, r.value.preset.value + "|")
      && r.value == Configuration("|", "-", PresetCompartments, None, r.value.preset))
  {
    match overrides
    case Foreign => Err(OverridesNotObject)
    case Present(o) => Normalize(o, SupportedStrategyNames)
    case Absent =>
      if inspectorCfg.Some? then Ok(inspectorCfg.value)
      else match DetectPreset(id)
        case None => Err(UnresolvedConfiguration)
        case Some(k) =>
          NormalizePresetOnly(k);
          Normalize(PresetOnly(k), SupportedStrategyNames)
  }

  /**
    `new SemanticIDInspector(configuration)`: no configuration to fall back
    on when none is given; a value that is not an object destructures to
    nothing and normalises to the defaults.
   */
  function NewInspector(configuration: Field<ConfigInput>): (r: Result<Option<Configuration>>)
    ensures configuration.Absent? ==> r == Ok(None)
    ensures configuration.Foreign? ==> r == Ok(Some(DefaultConfiguration))
    ensures configuration.Present? ==> (r.Ok? <==> Normalize(configuration.value, SupportedStrategyNames).Ok?)
  {
    match configuration
    case Absent => Ok(None)
    case Foreign =>
      NormalizeEmpty();
      Ok(Some(DefaultConfiguration))
    case Present(input) =>
      var c :- Normalize(input, SupportedStrategyNames);
      Ok(Some(c))
  }

  /** `inspect(semanticId, configurationOverrides)`: the trimmed identifier, inspected under the resolved configuration. */
  function Inspect(inspectorCfg: Option<Configuration>, id: Field<string>, overrides: Field<ConfigInput>, load: Option<WordLists>): (r: Result<Report>)
    ensures !id.Present? ==> r == Err(InvalidSemanticId)
    ensures id.Present? && (forall i :: 0 <= i < |id.value| ==> IsJsWhitespace(id.value[i])) ==> r == Err(InvalidSemanticId)
    ensures r.Ok? ==> id.Present? && r.value.semanticId == Trim(id.value) && r.value.semanticId != []
  {
    if !id.Present? then Err(InvalidSemanticId)
    else
      var trimmed := Trim(id.value);
      TrimBlank(id.value);
      if |trimmed| == 0 then Err(InvalidSemanticId)
      else
        var cfg :- ResolveInspectionConfiguration(inspectorCfg, overrides, trimmed);
        InspectWithConfiguration(trimmed, cfg, load)
  }

  /**
    The inspector's dictionary and the generator's word pool are the same
    words unless a list is literally named "all": the inspector reads that
    key as every list together.
   */
  lemma InspectorPoolMatchesGenerator(lists: WordLists, languageCode: Option<string>)
    requires !HasLanguage(lists, "all")
    ensures DictionaryWords(lists, languageCode) == PassphraseWords(lists, languageCode)
  {
  }
}

=== FILE: normalization.dfy ===
/**
  Configuration normalisation, shared in substance by the generator's
  constructor and the inspector: type checks on the caller's object, the
  optional preset underneath it, the defaults underneath that, and a check of
  every compartment definition.
 */
module Normalization {
  import opened Values
  import opened Text
  import opened Types
  import opened Presets
  import Strategies

  /** The compartments a configuration without any falls back on. */
  const DefaultCompartments: seq<Compartment> := [
    Compartment("part1", 4, "visible characters"),
    Compartment("part2", 8, "visible characters"),
    Compartment("part3", 12, "visible characters")
  ]

  const DefaultConfiguration: Configuration := Configuration("|", "-", DefaultCompartments, None, None)

  /** The strategy names the inspector accepts: the keys of its validator table. */
  const SupportedStrategyNames: set<string> := {
    "all characters", "visible characters", "numbers", "alphanumeric", "hexadecimal", "base64", "passphrase"
  }

  /**
    The names the generator's constructor accepts as written: its strategy
    map is a plain object, so the inherited function-valued members pass too.
   */
  const GeneratorStrategyNamesAsWritten: set<string> := SupportedStrategyNames + InheritedFunctionNames

  lemma SupportedNamesAreStrategies(t: string)
    ensures t in SupportedStrategyNames <==> Strategies.IsSupportedStrategy(t)
  {
  }

  /** A name that does not trim to the empty string. */
  predicate HasText(s: string) {
    exists i :: 0 <= i < |s| && !IsJsWhitespace(s[i])
  }

  /** The three conditions every compartment definition must meet. */
  predicate IsValidCompartment(c: RawCompartment, accepted: set<string>) {
    c.length.Present? && c.length.value > 0
    && c.name.Present? && HasText(c.name.value)
    && c.generationStrategy.Present? && c.generationStrategy.value in accepted
  }

  /**
    The checks on one compartment, in the order the source makes them:
    length, then name, then strategy.
   */
  function CheckCompartment(c: RawCompartment, accepted: set<string>): (r: Result<Compartment>)
    ensures r.Ok? <==> IsValidCompartment(c, accepted)
    ensures r.Ok? ==> ToRaw(r.value) == c
    ensures !(c.length.Present? && c.length.value > 0) ==> r == Err(InvalidCompartmentLength)
    ensures c.length.Present? && c.length.value > 0 && !(c.name.Present? && HasText(c.name.value)) ==>
      r == Err(InvalidCompartmentName)
    ensures r.Err? ==> r.error in {InvalidCompartmentLength, InvalidCompartmentName, InvalidGenerationStrategy}
  {
    if !(c.length.Present? && c.length.value > 0) then Err(InvalidCompartmentLength)
    else if !c.name.Present? then Err(InvalidCompartmentName)
    else
      TrimBlank(c.name.value);
      if Trim(c.name.value) == [] then Err(InvalidCompartmentName)
      else if !(c.generationStrategy.Present? && c.generationStrategy.value in accepted) then Err(InvalidGenerationStrategy)
      else Ok(Compartment(c.name.value, c.length.value, c.generationStrategy.value))
  }

  /** The position of the first invalid definition, or `|cs|` when there is none. */
  function FirstInvalid(cs: seq<RawCompartment>, accepted: set<string>): (k: nat)
    ensures k <= |cs|
    ensures forall j :: 0 <= j < k ==> IsValidCompartment(cs[j], accepted)
    ensures k < |cs| ==> !IsValidCompartment(cs[k], accepted)
  {
    if |cs| == 0 then 0
    else if !IsValidCompartment(cs[0], accepted) then 0
    else 1 + FirstInvalid(cs[1..], accepted)
  }

  /** Every compartment in turn; the first one that fails decides the error. */
  function CheckCompartments(cs: seq<RawCompartment>, accepted: set<string>): (r: Result<seq<Compartment>>)
    ensures r.Ok? <==> forall i :: 0 <= i < |cs| ==> IsValidCompartment(cs[i], accepted)
    ensures r.Ok? ==> ToRawAll(r.value) == cs
    ensures r.Err? ==> (FirstInvalid(cs, accepted) < |cs|
      && r == Err(CheckCompartment(cs[FirstInvalid(cs, accepted)], accepted).error))
  {
    AllValidIffNoFirstInvalid(cs, accepted);
    if |cs| == 0 then Ok([])
    else
      var head := CheckCompartment(cs[0], accepted);
      if head.Err? then Err(head.error)
      else
        var tail := CheckCompartments(cs[1..], accepted);
        AllValidIffNoFirstInvalid(cs[1..], accepted);
        CheckCompartmentsStep(cs, accepted);
        if tail.Err? then Err(tail.error)
        else
          RawAllCons(head.value, tail.value, cs);
          Ok([head.value] + tail.value)
  }

  /** All definitions are valid exactly when none is found invalid. */
  lemma AllValidIffNoFirstInvalid(cs: seq<RawCompartment>, accepted: set<string>)
    ensures (forall i :: 0 <= i < |cs| ==> IsValidCompartment(cs[i], accepted)) <==> FirstInvalid(cs, accepted) == |cs|
  {
  }

  /** Past a valid first definition, the first invalid one is found in the rest. */
  lemma CheckCompartmentsStep(cs: seq<RawCompartment>, accepted: set<string>)
    requires |cs| > 0 && IsValidCompartment(cs[0], accepted)
    ensures FirstInvalid(cs, accepted) == 1 + FirstInvalid(cs[1..], accepted)
    ensures FirstInvalid(cs, accepted) < |cs| ==> cs[FirstInvalid(cs, accepted)] == cs[1..][FirstInvalid(cs[1..], accepted)]
  {
  }

  /** Checked definitions in front of checked definitions turn back into the raw list they came from. */
  lemma RawAllCons(c: Compartment, later: seq<Compartment>, raw: seq<RawCompartment>)
    requires |raw| > 0 && ToRaw(c) == raw[0] && ToRawAll(later) == raw[1..]
    ensures ToRawAll([c] + later) == raw
  {
    var all := ToRawAll([c] + later);
    assert |all| == |raw|;
    forall i | 0 <= i < |raw| ensures all[i] == raw[i] {
      if i > 0 {
        assert ([c] + later)[i] == later[i - 1];
        assert raw[i] == raw[1..][i - 1];
      }
    }
  }

  /** The caller's object without its `preset` key. */
  function Runtime(input: ConfigInput): ConfigInput {
    input.(preset := Absent)
  }

  /** A preset is applied only when the `preset` property is a non-empty string. */
  predicate RequestsPreset(input: ConfigInput) {
    input.preset.Present? && input.preset.value != ""
  }

  /** The compartment definitions normalisation goes on to check, once the preset and defaults are applied. */
  function EffectiveCompartments(input: ConfigInput): seq<RawCompartment> {
    if input.compartments.Present? then input.compartments.value
    else if RequestsPreset(input) then ToRawAll(PresetCompartments)
    else ToRawAll(DefaultCompartments)
  }

  /** None of the four properties holds a value of the wrong type. */
  predicate WellTyped(input: ConfigInput) {
    !input.preset.Foreign? && !input.dataConceptSeparator.Foreign?
    && !input.compartmentSeparator.Foreign? && !input.compartments.Foreign?
  }

  /**
    `normalizeConfiguration(configuration, { strategyResolver })`, the
    resolver accepting exactly the names in `accepted`; the generator's
    constructor performs the same steps inline.
   */
  function Normalize(input: ConfigInput, accepted: set<string>): (r: Result<Configuration>)
    ensures input.preset.Foreign? ==> r == Err(InvalidPreset)
    ensures !input.preset.Foreign? && input.dataConceptSeparator.Foreign? ==> r == Err(InvalidDataConceptSeparator)
    ensures !input.preset.Foreign? && !input.dataConceptSeparator.Foreign? && input.compartmentSeparator.Foreign? ==>
      r == Err(InvalidCompartmentSeparator)
    ensures !input.preset.Foreign? && !input.dataConceptSeparator.Foreign? && !input.compartmentSeparator.Foreign? ==>
      input.compartments.Foreign? ==> r == Err(InvalidCompartments)
    ensures WellTyped(input) && RequestsPreset(input) && !IsPresetKey(input.preset.value) ==>
      r == Err(UnknownPreset(input.preset.value))
    ensures WellTyped(input) && (RequestsPreset(input) ==> IsPresetKey(input.preset.value)) ==>
      CheckCompartments(EffectiveCompartments(input), accepted).Err? ==>
      r == Err(CheckCompartments(EffectiveCompartments(input), accepted).error)
    ensures r.Ok? ==> r.value.preset == (if input.preset.Present? then Some(input.preset.value) else None)
    ensures r.Ok? ==> r.value.languageCode == input.languageCode
    ensures r.Ok? && r.value.preset.Some? && r.value.preset.value != "" ==> IsPresetKey(r.value.preset.value)
    ensures r.Ok? && input.dataConceptSeparator.Present? ==> r.value.dataConceptSeparator == input.dataConceptSeparator.value
    ensures r.Ok? && input.compartmentSeparator.Present? ==> r.value.compartmentSeparator == input.compartmentSeparator.value
    ensures r.Ok? && !input.dataConceptSeparator.Present? ==> r.value.dataConceptSeparator == "|"
    ensures r.Ok? && !input.compartmentSeparator.Present? ==> r.value.compartmentSeparator == "-"
    ensures r.Ok? ==> ToRawAll(r.value.compartments) == EffectiveCompartments(input)
    ensures r.Ok? ==> forall i :: 0 <= i < |r.value.compartments| ==>
      IsValidCompartment(ToRaw(r.value.compartments[i]), accepted)
  {
    if input.preset.Foreign? then Err(InvalidPreset)
    else if input.dataConceptSeparator.Foreign? then Err(InvalidDataConceptSeparator)
    else if input.compartmentSeparator.Foreign? then Err(InvalidCompartmentSeparator)
    else if input.compartments.Foreign? then Err(InvalidCompartments)
    else
      var merged :- if RequestsPreset(input) then ResolvePresetConfiguration(input.preset, Runtime(input)) else Ok(Runtime(input));
      Complete(merged, input.preset, accepted)
  }

  /**
    The steps after the merge: the defaults under the merged object, a check
    of every compartment definition, and the caller's `preset` recorded.
   */
  function Complete(merged: ConfigInput, preset: Field<string>, accepted: set<string>): Result<Configuration> {
    var raws := if merged.compartments.Present? then merged.compartments.value else ToRawAll(DefaultCompartments);
    var compartments :- CheckCompartments(raws, accepted);
    Ok(Configuration(
      if merged.dataConceptSeparator.Present? then merged.dataConceptSeparator.value else "|",
      if merged.compartmentSeparator.Present? then merged.compartmentSeparator.value else "-",
      compartments,
      merged.languageCode,
      if preset.Present? then Some(preset.value) else None))
  }

  /**
    `normalizeConfiguration` as written, where the preset lookup also answers
    for inherited names such as "constructor". The type checks come first and
    are those of `Normalize`; an inherited preset with a `compartments` array
    then normalises as if no preset were given but records the name, and one
    without compartments throws a `TypeError`.
   */
  function NormalizeAsWritten(input: ConfigInput, accepted: set<string>): (r: Result<Configuration>)
    ensures !(RequestsPreset(input) && IsInheritedPresetName(input.preset.value)) ==> r == Normalize(input, accepted)
    ensures !WellTyped(input) ==> r == Normalize(input, accepted)
    ensures WellTyped(input) && RequestsPreset(input) && IsInheritedPresetName(input.preset.value) ==>
      (r.Ok? <==> input.compartments.Present? && Normalize(Runtime(input), accepted).Ok?)
    ensures WellTyped(input) && RequestsPreset(input) && IsInheritedPresetName(input.preset.value) && r.Ok? ==>
      r.value == Normalize(Runtime(input), accepted).value.(preset := Some(input.preset.value))
    ensures WellTyped(input) && RequestsPreset(input) && IsInheritedPresetName(input.preset.value) ==>
      input.compartments.Absent? ==> r == Err(TypeError)
  {
    if !WellTyped(input) then Normalize(input, accepted)
    else
      var merged :- if RequestsPreset(input) then ResolvePresetConfigurationAsWritten(input.preset, Runtime(input)) else Ok(Runtime(input));
      Complete(merged, input.preset, accepted)
  }

  /** Normalisation fails exactly on a mistyped property, an unknown preset or an invalid compartment. */
  lemma NormalizeOkIff(input: ConfigInput, accepted: set<string>)
    ensures Normalize(input, accepted).Ok? <==>
      WellTyped(input)
      && (RequestsPreset(input) ==> IsPresetKey(input.preset.value))
      && forall i :: 0 <= i < |EffectiveCompartments(input)| ==> IsValidCompartment(EffectiveCompartments(input)[i], accepted)
  {
    var raws := EffectiveCompartments(input);
    if WellTyped(input) {
      if RequestsPreset(input) {
        var merged := ResolvePresetConfiguration(input.preset, Runtime(input));
        if IsPresetKey(input.preset.value) {
          assert merged.Ok? && merged.value.compartments == Present(raws);
        } else {
          assert merged.Err?;
        }
      } else {
        assert Runtime(input).compartments.Present? ==> Runtime(input).compartments.value == raws;
        assert Runtime(input).compartments.Absent? ==> raws == ToRawAll(DefaultCompartments);
      }
    }
  }

  /** The object a caller would write to get `c` back: every property spelled out. */
  function ToInput(c: Configuration): ConfigInput {
    ConfigInput(
      if c.preset.Some? then Present(c.preset.value) else Absent,
      Present(c.dataConceptSeparator),
      Present(c.compartmentSeparator),
      Present(ToRawAll(c.compartments)),
      c.languageCode)
  }

  /** Normalising a normalised configuration changes nothing. */
  lemma NormalizeIdempotent(input: ConfigInput, accepted: set<string>)
    requires Normalize(input, accepted).Ok?
    ensures Normalize(ToInput(Normalize(input, accepted).value), accepted) == Normalize(input, accepted)
  {
    var c := Normalize(input, accepted).value;
    CheckValidRoundTrip(c.compartments, accepted);
  }

  lemma ToRawAllInjective(a: seq<Compartment>, b: seq<Compartment>)
    requires ToRawAll(a) == ToRawAll(b)
    ensures a == b
  {
    assert |a| == |b|;
    forall i | 0 <= i < |a| ensures a[i] == b[i] {
      assert ToRaw(a[i]) == ToRawAll(a)[i] == ToRawAll(b)[i] == ToRaw(b[i]);
    }
  }

  /** The empty object normalises to the default configuration. */
  lemma NormalizeEmpty()
    ensures Normalize(EmptyInput, SupportedStrategyNames) == Ok(DefaultConfiguration)
  {
    DefaultCompartmentsChecked();
    assert !RequestsPreset(EmptyInput) && Runtime(EmptyInput).compartments.Absent?;
  }

  /** The default compartments pass the compartment checks unchanged. */
  lemma DefaultCompartmentsChecked()
    ensures CheckCompartments(ToRawAll(DefaultCompartments), SupportedStrategyNames) == Ok(DefaultCompartments)
  {
    forall i | 0 <= i < |DefaultCompartments| ensures IsValidCompartment(ToRaw(DefaultCompartments[i]), SupportedStrategyNames) {
      assert DefaultCompartments[i].name[0] == 'p';
    }
    CheckValidRoundTrip(DefaultCompartments, SupportedStrategyNames);
  }

  /** Checking the definitions of already valid compartments gives those compartments back. */
  lemma CheckValidRoundTrip(cs: seq<Compartment>, accepted: set<string>)
    requires forall i :: 0 <= i < |cs| ==> IsValidCompartment(ToRaw(cs[i]), accepted)
    ensures CheckCompartments(ToRawAll(cs), accepted) == Ok(cs)
  {
    var checked := CheckCompartments(ToRawAll(cs), accepted);
    ToRawAllInjective(checked.value, cs);
  }

  /** `{ preset: k }` for a known key gives that preset's separators and compartments, and remembers the key. */
  lemma NormalizePresetOnly(k: string)
    requires IsPresetKey(k)
    ensures Normalize(ConfigInput(Present(k), Absent, Absent, Absent, None), SupportedStrategyNames)
      == Ok(Configuration("|", "-", PresetCompartments, None, Some(k)))
  {
    KeyNonEmpty(k);
    PresetCompartmentsChecked();
    var input := ConfigInput(Present(k), Absent, Absent, Absent, None);
    assert RequestsPreset(input);
    assert ResolvePresetConfiguration(Present(k), Runtime(input)) == Ok(Presets.ToInput(PresetBase));
  }

  /** The preset compartments pass the compartment checks unchanged. */
  lemma PresetCompartmentsChecked()
    ensures CheckCompartments(ToRawAll(PresetCompartments), SupportedStrategyNames) == Ok(PresetCompartments)
  {
    forall i | 0 <= i < |PresetCompartments| ensures IsValidCompartment(ToRaw(PresetCompartments[i]), SupportedStrategyNames) {
      assert !IsJsWhitespace(PresetCompartments[i].name[0]);
    }
    CheckValidRoundTrip(PresetCompartments, SupportedStrategyNames);
  }

  lemma KeyNonEmpty(k: string)
    requires IsPresetKey(k)
    ensures k != ""
  {
    KeyShape(KeyIndex(k));
  }

  /** An explicit empty compartment list replaces the defaults instead of falling back on them. */
  lemma EmptyCompartmentsKept(input: ConfigInput, accepted: set<string>)
    requires input.compartments == Present([])
    requires WellTyped(input) && !RequestsPreset(input)
    ensures Normalize(input, accepted).Ok? && Normalize(input, accepted).value.compartments == []
  {
    NormalizeOkIff(input, accepted);
  }

  /** `{ preset: "constructor", compartments }` with the default compartment definitions spelled out. */
  function ConstructorPresetInput(): ConfigInput {
    ConfigInput(Present("constructor"), Absent, Absent, Present(ToRawAll(DefaultCompartments)), None)
  }

  /** "constructor" is answered by `Object.prototype`, not by the preset table. */
  lemma ConstructorInherited()
    ensures IsInheritedPresetName("constructor")
  {
    ConstructorNotKey();
    assert "constructor" in InheritedPropertyNames;
  }

  /** Without its preset, the example normalises to the default configuration. */
  lemma ConstructorPresetRuntime()
    ensures Normalize(Runtime(ConstructorPresetInput()), SupportedStrategyNames) == Ok(DefaultConfiguration)
  {
    DefaultCompartmentsChecked();
    assert !RequestsPreset(Runtime(ConstructorPresetInput()));
  }

  /**
    As written, the preset name "constructor" is accepted when compartments
    are given and yields the defaults with the name recorded; the own-key
    lookup rejects it as unknown.
   */
  lemma InheritedPresetAcceptedAsWritten()
    ensures NormalizeAsWritten(ConstructorPresetInput(), SupportedStrategyNames)
      == Ok(Configuration("|", "-", DefaultCompartments, None, Some("constructor")))
    ensures Normalize(ConstructorPresetInput(), SupportedStrategyNames) == Err(UnknownPreset("constructor"))
  {
    ConstructorInherited();
    ConstructorPresetRuntime();
    assert WellTyped(ConstructorPresetInput()) && RequestsPreset(ConstructorPresetInput());
  }

  /** As written, `{ preset: "constructor" }` alone throws a `TypeError` reading the `null` preset's compartments. */
  lemma InheritedPresetAloneAsWritten()
    ensures NormalizeAsWritten(ConfigInput(Present("constructor"), Absent, Absent, Absent, None), SupportedStrategyNames) == Err(TypeError)
    ensures Normalize(ConfigInput(Present("constructor"), Absent, Absent, Absent, None), SupportedStrategyNames)
      == Err(UnknownPreset("constructor"))
  {
    ConstructorInherited();
    assert RequestsPreset(ConfigInput(Present("constructor"), Absent, Absent, Absent, None));
  }

  /** A configuration with one compartment whose strategy is `tag`. */
  function OneCompartment(tag: string): ConfigInput {
    ConfigInput(Absent, Absent, Absent, Present([RawCompartment(Present("id"), Present(4), Present(tag))]), None)
  }

  /**
    As written, the generator's constructor accepts "constructor" as a
    strategy name; checking against the supported names rejects it.
   */
  lemma GeneratorAcceptsInheritedNameAsWritten()
    ensures Normalize(OneCompartment("constructor"), GeneratorStrategyNamesAsWritten).Ok?
    ensures Normalize(OneCompartment("constructor"), SupportedStrategyNames) == Err(InvalidGenerationStrategy)
  {
    InheritedNameAccepted();
    InheritedNameRejected();
  }

  /** The one definition of the example. */
  function InheritedNameRaw(): RawCompartment {
    RawCompartment(Present("id"), Present(4), Present("constructor"))
  }

  /** Its length and name pass, so only the strategy name decides. */
  lemma InheritedNameChecked(accepted: set<string>)
    ensures CheckCompartment(InheritedNameRaw(), accepted)
      == if "constructor" in accepted then Ok(Compartment("id", 4, "constructor")) else Err(InvalidGenerationStrategy)
  {
    var name := "id";
    assert !IsJsWhitespace(name[0]);
    TrimBlank(name);
    assert Trim(name) != [];
  }

  /** The example configuration's definitions are checked as given. */
  lemma InheritedNameEffective()
    ensures EffectiveCompartments(OneCompartment("constructor")) == [InheritedNameRaw()]
  {
  }

  /** The example configuration checked against a set of names. */
  lemma InheritedNameCompartment(accepted: set<string>)
    ensures CheckCompartments([InheritedNameRaw()], accepted).Ok? <==> "constructor" in accepted
    ensures "constructor" !in accepted ==> CheckCompartments([InheritedNameRaw()], accepted) == Err(InvalidGenerationStrategy)
  {
    var cs := [InheritedNameRaw()];
    InheritedNameChecked(accepted);
    InheritedNameValid(accepted);
    assert cs[0] == InheritedNameRaw();
    if "constructor" !in accepted {
      assert FirstInvalid(cs, accepted) == 0;
    }
  }

  /** The example definition is valid exactly when its strategy name is accepted. */
  lemma InheritedNameValid(accepted: set<string>)
    ensures IsValidCompartment(InheritedNameRaw(), accepted) <==> "constructor" in accepted
  {
    assert HasText("id") by { assert !IsJsWhitespace("id"[0]); }
  }

  lemma InheritedNameAccepted()
    ensures Normalize(OneCompartment("constructor"), GeneratorStrategyNamesAsWritten).Ok?
  {
    var input := OneCompartment("constructor");
    assert "constructor" in GeneratorStrategyNamesAsWritten;
    InheritedNameEffective();
    InheritedNameCompartment(GeneratorStrategyNamesAsWritten);
    assert WellTyped(input) && !RequestsPreset(input);
    NormalizeOkIff(input, GeneratorStrategyNamesAsWritten);
  }

  lemma InheritedNameRejected()
    ensures Normalize(OneCompartment("constructor"), SupportedStrategyNames) == Err(InvalidGenerationStrategy)
  {
    assert "constructor" !in SupportedStrategyNames;
    InheritedNameEffective();
    InheritedNameCompartment(SupportedStrategyNames);
  }
}

=== FILE: presets.dfy ===
/**
  The domain preset table: thirty named presets sharing one configuration,
  each with schema.org metadata, and the override merge on top of a preset.
 */
module Presets {
  import opened Values
  import opened Types

  /** One entry of the preset definitions list. */
  datatype PresetDefinition = PresetDefinition(key: string, schemaName: string, schemaClass: string, description: string)

  /** The metadata record `getPresetMetadata` returns. */
  datatype PresetMetadata = PresetMetadata(key: string, schemaName: string, presetLabel: string, description: string, schemaClass: string)

  /** A preset's configuration. */
  datatype PresetConfig = PresetConfig(dataConceptSeparator: string, compartmentSeparator: string, compartments: seq<Compartment>)

  /** The compartments every preset uses. */
  const PresetCompartments: seq<Compartment> := [
    Compartment("semantic_prefix", 4, "visible characters"),
    Compartment("numeric_core", 8, "numbers"),
    Compartment("semantic_suffix", 24, "hexadecimal")
  ]

  const PresetBase: PresetConfig := PresetConfig("|", "-", PresetCompartments)

  /** The preset keys, in declaration order. */
  const PresetKeys: seq<string> := [
    "person",
    "individual_customer",
    "corporate_customer",
    "employee",
    "supplier",
    "partner",
    "organization",
    "department",
    "role",
    "product",
    "product_category",
    "device",
    "asset",
    "inventory_item",
    "contract",
    "order",
    "purchase_order",
    "invoice",
    "shipment",
    "payment_transaction",
    "financial_account",
    "budget",
    "project",
    "task",
    "support_case",
    "document",
    "policy_document",
    "location",
    "event",
    "dataset"
  ]

  /** The schema.org name, class and description listed beside a key. */
  datatype PresetDetails = PresetDetails(schemaName: string, schemaClass: string, description: string)

  /** The details listed beside the key at position `i`. */
  function DetailsAt(i: nat): PresetDetails
    requires i < |PresetKeys|
  {
    match i
    case 0 => PresetDetails("Person", "schema:Person", "Unique identifier for an individual person record.")
    case 1 => PresetDetails("IndividualCustomer", "schema:Person", "Semantic identifier for a customer who is a natural person.")
    case 2 => PresetDetails("CorporateCustomer", "schema:Organization", "Semantic identifier for a customer that is a legal entity.")
    case 3 => PresetDetails("Employee", "schema:Person", "Tracks employees across HR and workforce systems.")
    case 4 => PresetDetails("Supplier", "schema:Organization", "Identifiers for vendors or suppliers fulfilling goods and services.")
    case 5 => PresetDetails("Partner", "schema:Organization", "Identifiers for strategic or channel partners.")
    case 6 => PresetDetails("Organization", "schema:Organization", "Generic organization identifiers covering any legal entity.")
    case 7 => PresetDetails("Department", "schema:Organization", "Identifiers for internal cost centers, teams, or departments.")
    case 8 => PresetDetails("Role", "schema:Role", "Identifiers for functional or security roles assigned to people.")
    case 9 => PresetDetails("Product", "schema:Product", "Product catalog identifiers spanning physical or digital goods.")
    case 10 => PresetDetails("ProductCategory", "schema:CategoryCodeSet", "Identifiers for product category taxonomies.")
    case 11 => PresetDetails("Device", "schema:Product", "Identifiers for physical or IoT devices.")
    case 12 => PresetDetails("Asset", "schema:Product", "Identifiers for tracked assets such as equipment or licenses.")
    case 13 => PresetDetails("InventoryItem", "schema:Product", "Identifiers for inventory instances across warehouses.")
    case 14 => PresetDetails("Contract", "schema:Contract", "Identifiers for legal agreements and contracts.")
    case 15 => PresetDetails("Order", "schema:Order", "Identifiers for customer or internal orders.")
    case 16 => PresetDetails("PurchaseOrder", "schema:Order", "Identifiers for procurement purchase orders.")
    case 17 => PresetDetails("Invoice", "schema:Invoice", "Accounts receivable or payable invoice identifiers.")
    case 18 => PresetDetails("Shipment", "schema:ParcelDelivery", "Logistics shipment identifiers for parcels or freight.")
    case 19 => PresetDetails("PaymentTransaction", "schema:PaymentService", "Identifiers for settlement or payment transactions.")
    case 20 => PresetDetails("FinancialAccount", "schema:FinancialProduct", "Identifiers for bank, wallet, or ledger accounts.")
    case 21 => PresetDetails("Budget", "schema:FinancialProduct", "Identifiers for budget envelopes or funding allocations.")
    case 22 => PresetDetails("Project", "schema:Project", "Identifiers for initiatives or projects.")
    case 23 => PresetDetails("Task", "schema:Action", "Identifiers for tasks or work items.")
    case 24 => PresetDetails("SupportCase", "schema:Action", "Identifiers for customer or internal support cases.")
    case 25 => PresetDetails("Document", "schema:CreativeWork", "Identifiers for documents, records, or files.")
    case 26 => PresetDetails("PolicyDocument", "schema:CreativeWork", "Identifiers for policies, standards, or compliance docs.")
    case 27 => PresetDetails("Location", "schema:Place", "Identifiers for physical or logical locations.")
    case 28 => PresetDetails("Event", "schema:Event", "Identifiers for calendar, marketing, or operational events.")
    case _ => PresetDetails("Dataset", "schema:Dataset", "Identifiers for analytical or operational datasets.")
  }

  /** The definition at position `i` of the preset list. */
  function Definition(i: nat): PresetDefinition
    requires i < |PresetKeys|
  {
    var t := DetailsAt(i);
    PresetDefinition(PresetKeys[i], t.schemaName, t.schemaClass, t.description)
  }

  /** Whether `name` is an own key of the preset definitions. */
  predicate IsPresetKey(name: string) {
    name in PresetKeys
  }

  /** The first position at or after `i` whose key is `name`. */
  function FindFrom(name: string, i: nat): (r: Option<nat>)
    decreases |PresetKeys| - i
    ensures r.Some? ==> i <= r.value < |PresetKeys| && PresetKeys[r.value] == name
    ensures r.None? ==> forall j :: i <= j < |PresetKeys| ==> PresetKeys[j] != name
  {
    if i >= |PresetKeys| then None
    else if PresetKeys[i] == name then Some(i)
    else FindFrom(name, i + 1)
  }

  /** The position of a key in the list. */
  function KeyIndex(name: string): (i: nat)
    requires IsPresetKey(name)
    ensures i < |PresetKeys| && PresetKeys[i] == name
  {
    FindFrom(name, 0).value
  }

  /** `getPresetDefinition(name)` with an own-key lookup. */
  function GetPresetDefinition(name: Field<string>): (r: Result<PresetDefinition>)
    ensures r.Ok? <==> name.Present? && IsPresetKey(name.value)
    ensures !name.Present? ==> r == Err(PresetNameNotString)
    ensures name.Present? && !IsPresetKey(name.value) ==> r == Err(UnknownPreset(name.value))
    ensures r.Ok? ==> r.value.key == name.value && r.value == Definition(KeyIndex(name.value))
  {
    if !name.Present? then Err(PresetNameNotString)
    else match FindFrom(name.value, 0)
      case Some(i) => Ok(Definition(i))
      case None => Err(UnknownPreset(name.value))
  }

  /** What the definitions object yields for a name, as written: an own entry or an inherited member. */
  datatype PresetEntry = OwnEntry(definition: PresetDefinition) | InheritedEntry

  /**
    `getPresetDefinition(name)` as written: `DOMAIN_PRESETS[name]` is truthy
    for the inherited names too, so those are not reported as unknown.
   */
  function GetPresetDefinitionAsWritten(name: Field<string>): (r: Result<PresetEntry>)
    ensures r.Ok? && r.value.InheritedEntry? <==>
      name.Present? && !IsPresetKey(name.value) && name.value in InheritedPropertyNames
    ensures r.Ok? && r.value.OwnEntry? ==> Ok(r.value.definition) == GetPresetDefinition(name)
  {
    if !name.Present? then Err(PresetNameNotString)
    else match FindFrom(name.value, 0)
      case Some(i) => Ok(OwnEntry(Definition(i)))
      case None =>
        if name.value in InheritedPropertyNames then Ok(InheritedEntry) else Err(UnknownPreset(name.value))
  }

  /** `getDomainPreset(name)` as written: an inherited entry has no configuration, so the result is `null`. */
  function GetDomainPresetAsWritten(name: Field<string>): (r: Result<Option<PresetConfig>>)
    ensures r.Ok? && r.value.None? <==> GetPresetDefinitionAsWritten(name) == Ok(InheritedEntry)
  {
    match GetPresetDefinitionAsWritten(name)
    case Ok(OwnEntry(_)) => Ok(Some(PresetBase))
    case Ok(InheritedEntry) => Ok(None)
    case Err(e) => Err(e)
  }

  /**
    `getDomainPreset(name)`: a fresh copy of the preset's configuration once
    the definition lookup has accepted the name.
   */
  function GetDomainPreset(name: Field<string>): (r: Result<PresetConfig>)
    ensures r.Ok? <==> name.Present? && IsPresetKey(name.value)
    ensures !name.Present? ==> r == Err(PresetNameNotString)
    ensures name.Present? && !IsPresetKey(name.value) ==> r == Err(UnknownPreset(name.value))
    ensures r.Ok? ==> (r.value.dataConceptSeparator == "|" && r.value.compartmentSeparator == "-"
      && r.value.compartments == PresetCompartments)
  {
    if !name.Present? then Err(PresetNameNotString)
    else if !IsPresetKey(name.value) then Err(UnknownPreset(name.value))
    else Ok(PresetBase)
  }

  /** The configuration lookup fails exactly when, and as, the definition lookup fails. */
  lemma DomainPresetFollowsDefinition(name: Field<string>)
    ensures GetDomainPreset(name).Ok? <==> GetPresetDefinition(name).Ok?
    ensures GetDomainPreset(name).Err? ==> GetDomainPreset(name).error == GetPresetDefinition(name).error
  {
  }

  /** "constructor" is not a key. */
  lemma ConstructorNotKey()
    ensures !IsPresetKey("constructor")
  {
    forall i | 0 <= i < |PresetKeys| ensures PresetKeys[i] != "constructor" {
    }
  }

  /** As written, "constructor" yields `null` instead of the unknown-preset error the own-key lookup gives. */
  lemma InheritedPresetNameAsWritten()
    ensures GetDomainPresetAsWritten(Present("constructor")) == Ok(None)
    ensures GetDomainPreset(Present("constructor")) == Err(UnknownPreset("constructor"))
  {
    ConstructorNotKey();
  }

  /** `getPresetMetadata(name)`. */
  function GetPresetMetadata(name: Field<string>): (r: Result<PresetMetadata>)
    ensures r.Ok? <==> name.Present? && IsPresetKey(name.value)
    ensures !name.Present? ==> r == Err(PresetNameNotString)
    ensures name.Present? && !IsPresetKey(name.value) ==> r == Err(UnknownPreset(name.value))
    ensures r.Ok? ==> (r.value.key == name.value && r.value.presetLabel == r.value.schemaName
      && PresetDefinition(r.value.key, r.value.schemaName, r.value.schemaClass, r.value.description)
         == Definition(KeyIndex(name.value)))
  {
    var d :- GetPresetDefinition(name);
    Ok(PresetMetadata(d.key, d.schemaName, d.schemaName, d.description, d.schemaClass))
  }

  /**
    `getPresetMetadata(name)` as written: an inherited entry has no
    `metadata`, and spreading `undefined` gives the empty object, here `None`.
   */
  function GetPresetMetadataAsWritten(name: Field<string>): (r: Result<Option<PresetMetadata>>)
    ensures r.Ok? && r.value.None? <==> GetPresetDefinitionAsWritten(name) == Ok(InheritedEntry)
    ensures r.Ok? && r.value.Some? ==> Ok(r.value.value) == GetPresetMetadata(name)
    ensures r.Err? ==> GetPresetMetadata(name).Err? && r.error == GetPresetMetadata(name).error
  {
    match GetPresetDefinitionAsWritten(name)
    case Ok(OwnEntry(d)) => Ok(Some(PresetMetadata(d.key, d.schemaName, d.schemaName, d.description, d.schemaClass)))
    case Ok(InheritedEntry) => Ok(None)
    case Err(e) => Err(e)
  }

  /** As written, "constructor" has empty metadata instead of the unknown-preset error. */
  lemma InheritedMetadataAsWritten()
    ensures GetPresetMetadataAsWritten(Present("constructor")) == Ok(None)
    ensures GetPresetMetadata(Present("constructor")) == Err(UnknownPreset("constructor"))
  {
    ConstructorNotKey();
  }

  /** `listDomainPresets()`: the keys in declaration order. */
  function ListDomainPresets(): (r: seq<string>)
    ensures |r| == |PresetKeys| == 30
    ensures forall i :: 0 <= i < |r| ==> r[i] == Definition(i).key
    ensures forall k :: IsPresetKey(k) <==> k in r
  {
    var keys := seq(|PresetKeys|, i requires 0 <= i < |PresetKeys| => Definition(i).key);
    assert keys == PresetKeys;
    keys
  }

  /** No key is empty or contains the data-concept separator. */
  lemma KeyShape(i: int)
    requires 0 <= i < |PresetKeys|
    ensures |PresetKeys[i]| > 0 && '|' !in PresetKeys[i]
  {
    if i < 10 {
      KeyShapeLow(i);
    } else if i < 20 {
      KeyShapeMid(i);
    } else {
      KeyShapeHigh(i);
    }
  }

  // `KeyShape` block by block: the solver checks ten literal keys at a time.
  lemma KeyShapeLow(i: int)
    requires 0 <= i < 10
    ensures |PresetKeys[i]| > 0 && '|' !in PresetKeys[i]
  {
  }

  lemma KeyShapeMid(i: int)
    requires 10 <= i < 20
    ensures |PresetKeys[i]| > 0 && '|' !in PresetKeys[i]
  {
  }

  lemma KeyShapeHigh(i: int)
    requires 20 <= i < 30
    ensures |PresetKeys[i]| > 0 && '|' !in PresetKeys[i]
  {
  }

  /** The listed keys are pairwise distinct, so a key names one definition. */
  lemma KeysDistinct(i: int, j: int)
    requires 0 <= i < j < |PresetKeys|
    ensures PresetKeys[i] != PresetKeys[j]
  {
    if i < 10 {
      KeysDistinctLow(i, j);
    } else {
      KeysDistinctHigh(i, j);
    }
  }

  // `KeysDistinct` split by the first position.
  lemma KeysDistinctLow(i: int, j: int)
    requires 0 <= i < 10 && i < j < |PresetKeys|
    ensures PresetKeys[i] != PresetKeys[j]
  {
  }

  lemma KeysDistinctHigh(i: int, j: int)
    requires 10 <= i < j < |PresetKeys|
    ensures PresetKeys[i] != PresetKeys[j]
  {
  }

  /** The position of a key is the only position holding it. */
  lemma KeyIndexUnique(i: int)
    requires 0 <= i < |PresetKeys|
    ensures KeyIndex(PresetKeys[i]) == i
  {
    var j := KeyIndex(PresetKeys[i]);
    if j < i {
      KeysDistinct(j, i);
    } else if i < j {
      KeysDistinct(i, j);
    }
  }

  /** The configuration object with the given fields set, as a caller would write it. */
  function ToInput(c: PresetConfig): ConfigInput {
    ConfigInput(Absent, Present(c.dataConceptSeparator), Present(c.compartmentSeparator), Present(ToRawAll(c.compartments)), None)
  }

  /**
    `resolvePresetConfiguration(name, overrides)`: the preset's configuration
    overlaid field by field with the overrides, the compartments being
    `overrides.compartments ?? preset.compartments`. A truthy non-array
    `compartments` override cannot be copied and throws.
   */
  function ResolvePresetConfiguration(name: Field<string>, overrides: ConfigInput): (r: Result<ConfigInput>)
    ensures r.Err? <==> !(name.Present? && IsPresetKey(name.value)) || overrides.compartments.Foreign?
    ensures r.Ok? ==> (r.value.compartments.Present? && r.value.languageCode == overrides.languageCode
      && r.value.preset == overrides.preset)
    ensures r.Ok? && !overrides.dataConceptSeparator.Absent? ==> r.value.dataConceptSeparator == overrides.dataConceptSeparator
    ensures r.Ok? && !overrides.compartmentSeparator.Absent? ==> r.value.compartmentSeparator == overrides.compartmentSeparator
    ensures r.Ok? && overrides.compartments.Present? ==> r.value.compartments == overrides.compartments
    ensures r.Ok? && overrides.dataConceptSeparator.Absent? ==> r.value.dataConceptSeparator == Present("|")
    ensures r.Ok? && overrides.compartmentSeparator.Absent? ==> r.value.compartmentSeparator == Present("-")
    ensures r.Ok? && overrides.compartments.Absent? ==> r.value.compartments == Present(ToRawAll(PresetCompartments))
  {
    var base :- GetDomainPreset(name);
    var compartments :- match overrides.compartments
      case Present(cs) => Ok(cs)
      case Absent => Ok(ToRawAll(base.compartments))
      case Foreign => Err(TypeError);
    Ok(ConfigInput(
      overrides.preset,
      if overrides.dataConceptSeparator.Absent? then Present(base.dataConceptSeparator) else overrides.dataConceptSeparator,
      if overrides.compartmentSeparator.Absent? then Present(base.compartmentSeparator) else overrides.compartmentSeparator,
      Present(compartments),
      overrides.languageCode))
  }

  /** A name the definitions object answers only through `Object.prototype`. */
  predicate IsInheritedPresetName(name: string) {
    !IsPresetKey(name) && name in InheritedPropertyNames
  }

  /**
    `resolvePresetConfiguration(name, overrides)` as written: for an inherited
    name the base preset is `null`, so a `compartments` override is taken as
    given and its absence makes `basePreset.compartments` throw a `TypeError`.
   */
  function ResolvePresetConfigurationAsWritten(name: Field<string>, overrides: ConfigInput): (r: Result<ConfigInput>)
    ensures !(name.Present? && IsInheritedPresetName(name.value)) ==> r == ResolvePresetConfiguration(name, overrides)
    ensures name.Present? && IsInheritedPresetName(name.value) ==> (r.Ok? <==> overrides.compartments.Present?)
    ensures name.Present? && IsInheritedPresetName(name.value) && r.Ok? ==> r.value == overrides
    ensures name.Present? && IsInheritedPresetName(name.value) && r.Err? ==> r.error == TypeError
  {
    match GetDomainPresetAsWritten(name)
    case Ok(None) =>
      if overrides.compartments.Present? then Ok(overrides) else Err(TypeError)
    case _ => ResolvePresetConfiguration(name, overrides)
  }

  /** As written, "constructor" with a `compartments` override resolves to the overrides; the own-key lookup rejects it. */
  lemma InheritedPresetResolvedAsWritten(overrides: ConfigInput)
    ensures overrides.compartments.Present? ==> ResolvePresetConfigurationAsWritten(Present("constructor"), overrides) == Ok(overrides)
    ensures overrides.compartments.Absent? ==> ResolvePresetConfigurationAsWritten(Present("constructor"), overrides) == Err(TypeError)
    ensures ResolvePresetConfiguration(Present("constructor"), overrides) == Err(UnknownPreset("constructor"))
  {
    ConstructorNotKey();
    assert "constructor" in InheritedPropertyNames;
  }

  /** With no overrides, resolution yields the preset's own configuration. */
  lemma ResolveWithoutOverrides(k: string)
    requires IsPresetKey(k)
    ensures ResolvePresetConfiguration(Present(k), EmptyInput) == Ok(ToInput(PresetBase))
  {
  }
}

=== FILE: roundtrip.dfy ===
/**
  Generator and inspector together: under which configurations an
  identifier the generator produces is one the inspector accepts, and for
  each condition an input that breaks the round trip once it is dropped.
 */
module RoundTrip {
  import opened Values
  import opened Text
  import opened Types
  import opened Draws
  import opened Encodings
  import opened WordLists
  import opened Strategies
  import opened Segmentation
  import opened Presets
  import opened Normalization
  import opened Validators
  import opened Inspector
  import opened Generator

  /** A hexadecimal compartment's digits are never mistaken for separators. */
  predicate HexSafe(cfg: Configuration, c: Compartment)
    requires |cfg.dataConceptSeparator| == 1 && |cfg.compartmentSeparator| == 1
  {
    StrategyOf(c.strategy) == Some(Hexadecimal) ==>
      !IsLowerHexDigit(cfg.dataConceptSeparator[0]) && !IsLowerHexDigit(cfg.compartmentSeparator[0])
  }

  /**
    The configurations whose identifiers read back: one-character
    separators, no passphrase compartment, hexadecimal compartments only
    with non-digit separators, and a preset the table knows.
   */
  predicate RoundTrips(cfg: Configuration) {
    Generatable(cfg)
    && |cfg.dataConceptSeparator| == 1 && |cfg.compartmentSeparator| == 1
    && (forall i :: 0 <= i < |cfg.compartments| ==>
      StrategyOf(cfg.compartments[i].strategy) != Some(Passphrase) && HexSafe(cfg, cfg.compartments[i]))
    && (cfg.preset.Some? && cfg.preset.value != "" ==> IsPresetKey(cfg.preset.value))
  }

  /** A generated segment holds neither separator character. */
  lemma SegmentClean(seg: string, c: Compartment, cfg: Configuration)
    requires |cfg.dataConceptSeparator| == 1 && |cfg.compartmentSeparator| == 1
    requires StrategyOf(c.strategy).Some? && Conforms(seg, c, cfg) && HexSafe(cfg, c)
    ensures forall j :: 0 <= j < |seg| ==> !IsSeparatorChar(seg[j], cfg)
  {
    forall j | 0 <= j < |seg| ensures !IsSeparatorChar(seg[j], cfg) {
      if StrategyOf(c.strategy) == Some(Hexadecimal) {
        assert IsLowerHexDigit(seg[j]);
        assert [seg[j]][0] == seg[j];
      }
    }
  }

  /** A generated segment passes every check on its compartment. */
  lemma SegmentValid(seg: string, c: Compartment, cfg: Configuration, k: nat, load: Option<WordLists>)
    requires |cfg.dataConceptSeparator| == 1 && |cfg.compartmentSeparator| == 1
    requires StrategyOf(c.strategy).Some? && StrategyOf(c.strategy) != Some(Passphrase) && c.length > 0
    requires Conforms(seg, c, cfg) && HexSafe(cfg, c)
    ensures ValidateCompartmentValue(seg, c, cfg, k, false, load).Ok?
    ensures ValidateCompartmentValue(seg, c, cfg, k, false, load).value.isValid
  {
    var st := StrategyOf(c.strategy).value;
    SegmentClean(seg, c, cfg);
    NoForbiddenSingle(seg, cfg);
    forall j | 0 <= j < |seg| ensures Accepts(st, seg[j]) {
      GeneratedCharsAccepted(st, seg[j]);
    }
    assert Conforming(st, seg);
  }

  /** The first occurrence of a character absent from `concept` is right after it. */
  lemma FirstSeparator(concept: string, d: char, rest: string)
    requires d !in concept
    ensures IndexOf(concept + [d] + rest, [d]) == Some(|concept|)
  {
    var id := concept + [d] + rest;
    OccursAtSingle(id, d, |concept|);
    forall j | 0 <= j < |concept| ensures !OccursAt(id, [d], j) {
      OccursAtSingle(id, d, j);
      assert id[j] == concept[j];
    }
  }

  /** Joining at least one non-empty piece gives a non-empty text. */
  lemma JoinNonEmpty(segs: seq<string>, sep: string)
    requires |segs| >= 1 && |segs[0]| > 0
    ensures |Join(segs, sep)| > 0
  {
    JoinLength(segs, sep);
    assert SumLengths(segs) == |segs[0]| + SumLengths(segs[1..]);
  }

  /** The compartment values the inspector reads from a generated identifier are the generated segments. */
  lemma ValuesOfGenerated(cfg: Configuration, concept: string, segs: seq<string>)
    requires RoundTrips(cfg) && cfg.dataConceptSeparator[0] !in concept
    requires SegmentsConform(segs, cfg.compartments, cfg)
    ensures var id := Assemble(concept, cfg, segs);
      IndexOf(id, cfg.dataConceptSeparator) == Some(|concept|)
      && ConceptName(id, cfg.dataConceptSeparator) == concept
      && CompartmentValues(id, cfg) == segs
  {
    var d := cfg.dataConceptSeparator[0];
    var c := cfg.compartmentSeparator[0];
    assert cfg.dataConceptSeparator == [d] && cfg.compartmentSeparator == [c];
    var joined := Join(segs, [c]);
    var id := Assemble(concept, cfg, segs);
    assert id == concept + [d] + joined;
    FirstSeparator(concept, d, joined);
    var name := ConceptName(id, [d]);
    assert name == id[..|concept|] == concept;
    assert CompartmentSegment(id, [d]) == joined;
    if |segs| > 0 {
      forall i | 0 <= i < |segs| ensures c !in segs[i] {
        SegmentClean(segs[i], cfg.compartments[i], cfg);
        forall j | 0 <= j < |segs[i]| ensures segs[i][j] != c {
          assert !IsSeparatorChar(segs[i][j], cfg);
        }
      }
      JoinNonEmpty(segs, [c]);
      SplitJoin(segs, c);
    }
  }

  /**
    Round trip: under a configuration that `RoundTrips`, an identifier the
    generator produces for a concept name without the data-concept separator
    is reported valid, with that concept name and the generated segments as
    its compartment values, whatever the word lists.
   */
  lemma GeneratedIdInspectsValid(cfg: Configuration, concept: string, load: Option<WordLists>, draws: seq<Word32>,
                                 inspectLoad: Option<WordLists>)
    requires RoundTrips(cfg) && cfg.dataConceptSeparator[0] !in concept
    requires GenerateSemanticId(cfg, Present(concept), load, draws).Done?
    ensures var r := InspectWithConfiguration(GenerateSemanticId(cfg, Present(concept), load, draws).value, cfg, inspectLoad);
      r.Ok? && r.value.isValid && r.value.dataConceptName == concept
  {
    var id := GenerateSemanticId(cfg, Present(concept), load, draws).value;
    var segs :| SegmentsConform(segs, cfg.compartments, cfg) && id == Assemble(concept, cfg, segs);
    AssembledInspectsValid(cfg, concept, segs, inspectLoad);
  }

  /** An identifier assembled from conforming segments inspects as valid, with the concept name it was built from. */
  lemma AssembledInspectsValid(cfg: Configuration, concept: string, segs: seq<string>, inspectLoad: Option<WordLists>)
    requires RoundTrips(cfg) && concept != "" && cfg.dataConceptSeparator[0] !in concept
    requires SegmentsConform(segs, cfg.compartments, cfg)
    ensures var r := InspectWithConfiguration(Assemble(concept, cfg, segs), cfg, inspectLoad);
      r.Ok? && r.value.isValid && r.value.dataConceptName == concept
  {
    var id := Assemble(concept, cfg, segs);
    ValuesOfGenerated(cfg, concept, segs);
    ReportsAllValid(cfg, segs, inspectLoad);
    assert StructuralIssues(id, cfg) == [] by {
      AssembledStructure(cfg, concept, segs);
    }
    InspectValidFrom(id, cfg, inspectLoad);
  }

  /** The structure of an assembled identifier reads back: its concept name, its separator and one value per compartment. */
  lemma AssembledStructure(cfg: Configuration, concept: string, segs: seq<string>)
    requires RoundTrips(cfg) && cfg.dataConceptSeparator[0] !in concept
    requires SegmentsConform(segs, cfg.compartments, cfg)
    ensures ConceptName(Assemble(concept, cfg, segs), cfg.dataConceptSeparator) == concept
    ensures IndexOf(Assemble(concept, cfg, segs), cfg.dataConceptSeparator).Some?
    ensures |CompartmentValues(Assemble(concept, cfg, segs), cfg)| == |cfg.compartments|
  {
    ValuesOfGenerated(cfg, concept, segs);
  }

  /** Conforming segments give a report for every compartment, each valid. */
  lemma ReportsAllValid(cfg: Configuration, segs: seq<string>, load: Option<WordLists>)
    requires RoundTrips(cfg) && SegmentsConform(segs, cfg.compartments, cfg)
    ensures Reports(cfg, segs, load).Ok?
    ensures forall k :: 0 <= k < |Reports(cfg, segs, load).value| ==> Reports(cfg, segs, load).value[k].isValid
  {
    forall k | 0 <= k < |cfg.compartments|
      ensures CompartmentOutcome(cfg, segs, load, k).Ok? && CompartmentOutcome(cfg, segs, load, k).value.isValid
    {
      SegmentValid(segs[k], cfg.compartments[k], cfg, k, load);
    }
    var reports := Reports(cfg, segs, load);
    assert reports.Ok?;
    forall k | 0 <= k < |reports.value| ensures reports.value[k].isValid {
      assert CompartmentOutcome(cfg, segs, load, k) == Ok(reports.value[k]);
    }
  }

  /** With no structural issue, a known preset and every compartment report valid, the inspection is valid. */
  lemma InspectValidFrom(id: string, cfg: Configuration, load: Option<WordLists>)
    requires StructuralIssues(id, cfg) == []
    requires cfg.preset.Some? && cfg.preset.value != "" ==> IsPresetKey(cfg.preset.value)
    requires Reports(cfg, CompartmentValues(id, cfg), load).Ok?
    requires forall k :: 0 <= k < |Reports(cfg, CompartmentValues(id, cfg), load).value| ==>
      Reports(cfg, CompartmentValues(id, cfg), load).value[k].isValid
    ensures InspectWithConfiguration(id, cfg, load).Ok? && InspectWithConfiguration(id, cfg, load).value.isValid
  {
    assert MetadataFor(cfg).Ok?;
  }

  /** Every preset's configuration, and the default one, meet the round-trip conditions. */
  lemma PresetsRoundTrip(k: string)
    requires IsPresetKey(k)
    ensures RoundTrips(Configuration("|", "-", PresetCompartments, None, Some(k)))
    ensures RoundTrips(DefaultConfiguration)
  {
  }

  /** Without overrides, an inspector with its own configuration inspects the trimmed identifier under it. */
  lemma InspectTrimmed(cfg: Configuration, id: string, load: Option<WordLists>)
    requires Trim(id) != []
    ensures Inspect(Some(cfg), Present(id), Absent, load) == InspectWithConfiguration(Trim(id), cfg, load)
  {
  }

  /** An identifier with no surrounding whitespace is inspected exactly as given, under the inspector's own configuration. */
  lemma InspectUntrimmed(cfg: Configuration, id: string, load: Option<WordLists>)
    requires id != [] && !IsJsWhitespace(id[0]) && !IsJsWhitespace(id[|id| - 1])
    ensures Inspect(Some(cfg), Present(id), Absent, load) == InspectWithConfiguration(id, cfg, load)
  {
    TrimIdentity(id);
    InspectTrimmed(cfg, id, load);
  }

  // ---------------------------------------------------------------------
  // Why each round-trip condition is there
  // ---------------------------------------------------------------------

  /** One visible-characters compartment of length 1 after the default separators. */
  function OneVisible(): Configuration {
    Configuration("|", "-", [Compartment("part", 1, "visible characters")], None, None)
  }

  /** The draw 0 gives a space, which the visible-characters sampler keeps. */
  lemma SpaceSampled()
    ensures Generate(VisibleCharacters, 1, OneVisible(), None, [0]) == Done(" ", [])
  {
    var cfg := OneVisible();
    var one: seq<Word32> := [0];
    assert one[1..] == [];
    assert Pick(VisibleSampler, 0) == ' ';
    assert Keeps(VisibleSampler, cfg, ' ') by {
      assert [' '] != "|" && [' '] != "-";
    }
    assert Sample(VisibleSampler, cfg, 1, [], " ") == Done(" ", []);
    assert one[0] == 0;
    assert [] + [' '] == " ";
    assert Sample(VisibleSampler, cfg, 1, one, []) == Sample(VisibleSampler, cfg, 1, one[1..], " ");
    assert SampledString(VisibleSampler, 1, cfg, one) == Done(" ", []);
  }

  /** So the single compartment's segment is that space. */
  lemma SpaceSegment()
    ensures GenerateSegments(OneVisible().compartments, OneVisible(), None, [0]) == Done([" "], [])
  {
    var cfg := OneVisible();
    var comps := cfg.compartments;
    var one: seq<Word32> := [0];
    assert StrategyOf(comps[0].strategy) == Some(VisibleCharacters);
    SpaceSampled();
    assert comps[1..] == [];
    assert GenerateSegments(comps[1..], cfg, None, []) == Done([], []);
    assert [" "] + [] == [" "];
  }

  /** So the generator ends the identifier with a space. */
  lemma SpaceGenerated()
    ensures GenerateSemanticId(OneVisible(), Present("c"), None, [0]) == Done("c| ", [])
  {
    SpaceSegment();
    assert Join([" "], "-") == " ";
    assert Assemble("c", OneVisible(), [" "]) == "c| ";
  }

  /** `trim` drops the generated space. */
  lemma SpaceTrimmed()
    ensures Trim("c| ") == "c|"
  {
    var s := "c| ";
    assert |s| == 3 && s[0] == 'c' && s[2] == ' ';
    assert !IsJsWhitespace('c');
    assert TrimStart(s) == s;
    var t := s[..2];
    assert t == "c|" && |t| == 2 && t[1] == '|';
    assert !IsJsWhitespace('|');
    assert TrimEnd(t) == t;
    assert TrimEnd(s) == TrimEnd(t);
  }

  /** "c|" has the concept "c" and no compartment value. */
  lemma NoValueStructure()
    ensures CompartmentValues("c|", OneVisible()) == []
    ensures StructuralIssues("c|", OneVisible()) == [TooFewCompartments(1, 0)]
  {
    var cfg := OneVisible();
    assert IndexOf("c|", "|") == Some(1) by {
      assert "c|" == "c" + ['|'] + "";
      FirstSeparator("c", '|', "");
    }
    assert ConceptName("c|", "|") == "c";
    assert CompartmentSegment("c|", "|") == [];
  }

  /** The missing value's check does not throw. */
  lemma NoValueReports()
    ensures Reports(OneVisible(), [], None).Ok?
  {
    assert CompartmentOutcome(OneVisible(), [], None, 0).Ok?;
  }

  /** What is left has no compartment value after the separator. */
  lemma NoValueAfterSeparator()
    ensures var r := InspectWithConfiguration("c|", OneVisible(), None);
      r.Ok? && !r.value.isValid && r.value.issues == [TooFewCompartments(1, 0)]
  {
    NoValueStructure();
    NoValueReports();
  }

  /**
    `inspect` trims the identifier first, so a generated identifier that ends
    with a space loses its last compartment value and is reported invalid:
    the round trip holds for `inspectWithConfiguration`, not for `inspect`.
   */
  lemma TrailingSpaceLost()
    ensures GenerateSemanticId(OneVisible(), Present("c"), None, [0]) == Done("c| ", [])
    ensures var r := Inspect(Some(OneVisible()), Present("c| "), Absent, None);
      r.Ok? && !r.value.isValid && r.value.issues == [TooFewCompartments(1, 0)]
  {
    SpaceGenerated();
    SpaceTrimmed();
    InspectTrimmed(OneVisible(), "c| ", None);
    NoValueAfterSeparator();
  }

  /**
    A concept name holding the data-concept separator is cut at its first
    occurrence: "a|b" generated with one visible compartment reads back as
    the concept "a".
   */
  lemma SeparatorInConceptMisread(seg: string)
    requires SegmentsConform([seg], OneVisible().compartments, OneVisible())
    ensures var id := Assemble("a|b", OneVisible(), [seg]);
      InspectWithConfiguration(id, OneVisible(), None).Ok?
      && InspectWithConfiguration(id, OneVisible(), None).value.dataConceptName == "a"
      && !InspectWithConfiguration(id, OneVisible(), None).value.isValid
  {
    var cfg := OneVisible();
    var id := Assemble("a|b", cfg, [seg]);
    MisreadStructure(seg);
    var segment := "b|" + seg;
    MisreadValueRejected(segment);
    var r := InspectWithConfiguration(id, cfg, None);
    assert r.Ok?;
    assert r.value.compartments[0].value == segment;
    assert !r.value.compartments[0].isValid by {
      assert CompartmentOutcome(cfg, [segment], None, 0) == Ok(Reports(cfg, [segment], None).value[0]);
    }
  }

  /** How the identifier built from "a|b" splits: concept "a", one value "b|" and the segment. */
  lemma MisreadStructure(seg: string)
    requires SegmentsConform([seg], OneVisible().compartments, OneVisible())
    ensures var id := Assemble("a|b", OneVisible(), [seg]);
      ConceptName(id, "|") == "a" && CompartmentValues(id, OneVisible()) == ["b|" + seg]
      && StructuralIssues(id, OneVisible()) == []
  {
    var cfg := OneVisible();
    var id := Assemble("a|b", cfg, [seg]);
    assert Join([seg], "-") == seg;
    assert id == "a" + ['|'] + ("b|" + seg);
    FirstSeparator("a", '|', "b|" + seg);
    assert ConceptName(id, "|") == "a";
    var segment := CompartmentSegment(id, "|");
    assert segment == "b|" + seg;
    assert seg[0] != '-' by {
      assert !IsSeparatorChar(seg[0], cfg);
      assert [seg[0]] != "-";
    }
    assert segment == "b|" + [seg[0]];
    assert '-' !in segment;
    assert Join([segment], "-") == segment;
    SplitJoin([segment], '-');
  }

  /** A value holding the data-concept separator gets a report, and the report is not valid. */
  lemma MisreadValueRejected(value: string)
    requires |value| >= 2 && value[1] == '|'
    ensures Reports(OneVisible(), [value], None).Ok?
    ensures !Reports(OneVisible(), [value], None).value[0].isValid
  {
    var cfg := OneVisible();
    assert |value| != 1;
    var o := CompartmentOutcome(cfg, [value], None, 0);
    assert o.Ok? && !o.value.isValid;
  }

  /** The word lists of the truncation example: one three-letter word. */
  function OneWord(): WordLists {
    [LanguageList("eng", ["abc"])]
  }

  /** A passphrase compartment of length 2 over the word "abc". */
  function TwoLetterPassphrase(): Configuration {
    Configuration("|", "-", [Compartment("words", 2, "passphrase")], None, None)
  }

  /**
    The passphrase strategy cuts a word that does not fit to the
    compartment's length: from "abc" it produces "ab".
   */
  lemma PassphraseTruncates()
    ensures PassphraseString(2, TwoLetterPassphrase(), Some(OneWord()), Containment, [0]) == Done("ab", [])
  {
    assert AllWords(OneWord()) == ["abc"];
    assert PassphraseWords(OneWord(), None) == ["abc"];
    TruncatingFill();
  }

  /** One draw appends the first two letters of "abc" and fills the compartment. */
  lemma TruncatingFill()
    ensures PassphraseFill(2, ["abc"], Containment, TwoLetterPassphrase(), [0], "") == Done("ab", [])
  {
    var cfg := TwoLetterPassphrase();
    WordAbcKept();
    assert TakeKept(cfg, "", "abc", 2) == "ab";
    assert AppendWord(Containment, cfg, "", "abc", 2) == "ab";
    var one: seq<Word32> := [0];
    assert one[1..] == [];
  }

  /** "abc" holds no separator, so every letter is kept. */
  lemma WordAbcKept()
    ensures Kept(TwoLetterPassphrase(), "abc") == "abc"
  {
    var cfg := TwoLetterPassphrase();
    assert "abc"[1..] == "bc" && "bc"[1..] == "c" && "c"[1..] == "";
  }

  /**
    The inspector then finds no word spelling "ab": a generated passphrase
    compartment can fail its own check, which is why `RoundTrips` leaves the
    passphrase strategy out.
   */
  lemma TruncatedPassphraseRejected()
    ensures ValidatePassphrase("ab", TwoLetterPassphrase(), Some(OneWord())) == Ok([NotInWordLists])
  {
    var v := "ab";
    assert ClassIssues(Passphrase, v) == [] by {
      assert IsLetter(v[0]) && IsLetter(v[1]);
      assert Conforming(Passphrase, v);
    }
    assert ToLowerAscii(v) == v by {
      assert LowerChar('a') == 'a' && LowerChar('b') == 'b';
    }
    OneWordDictionary();
    NoOneWordSegmentation();
  }

  /** "ab" is not spelled by copies of "abc". */
  lemma NoOneWordSegmentation()
    ensures !exists ws :: IsSegmentation(ws, {"abc"}, "ab")
  {
    forall ws | IsSegmentation(ws, {"abc"}, "ab") ensures false {
      ConcatOfOneWord(ws, "abc");
    }
  }

  /** The dictionary of the example lists holds the one word. */
  lemma OneWordDictionary()
    ensures DictionaryFor(OneWord(), None) == {"abc"}
  {
    var words: seq<string> := ["abc"];
    assert DictionaryWords(OneWord(), None) == words;
    assert ToLowerAscii("abc") == "abc" by {
      assert LowerChar('a') == 'a' && LowerChar('b') == 'b' && LowerChar('c') == 'c';
    }
    var built := set i | 0 <= i < |words| :: ToLowerAscii(words[i]);
    assert "abc" in built by { assert ToLowerAscii(words[0]) == "abc"; }
    assert forall x :: x in built ==> x == "abc";
    assert built == {"abc"};
  }

  /** A concatenation of copies of one word is a whole multiple of its length. */
  lemma {:induction false} ConcatOfOneWord(ws: seq<string>, w: string)
    requires forall k :: 0 <= k < |ws| ==> ws[k] == w
    ensures |Concat(ws)| == |ws| * |w|
  {
    if |ws| > 0 {
      ConcatOfOneWord(ws[..|ws| - 1], w);
    }
  }

  /**
    As written, the largest draw lifts the visible-characters interval to
    0x7F (DEL), which the visible-characters validator rejects.
   */
  lemma OvershootFailsVisibleCheck()
    ensures IntervalAsWritten(0x20, 0x7E, MaxWord32 as Word32) == 0x7F
    ensures ClassIssues(VisibleCharacters, [0x7F as char]) == [OutsideVisibleAscii]
  {
    IntervalAsWrittenOvershoots(0x20, 0x7E);
  }

  // ---------------------------------------------------------------------
  // Why the separators must be single characters that no hex digit equals,
  // and why the preset must be known
  // ---------------------------------------------------------------------

  /** One two-digit hexadecimal compartment, with the hex digit `a` as compartment separator. */
  function HexSeparatorConfiguration(): Configuration {
    Configuration("|", "a", [Compartment("h", 2, "hexadecimal")], None, None)
  }

  /** One two-character alphanumeric compartment, with the two-character compartment separator `ab`. */
  function LongSeparatorConfiguration(): Configuration {
    Configuration("|", "ab", [Compartment("x", 2, "alphanumeric")], None, None)
  }

  /** A single compartment whose strategy uses up the draws generates that one segment. */
  lemma GenerateSingle(c: Compartment, cfg: Configuration, draws: seq<Word32>, seg: string)
    requires StrategyOf(c.strategy).Some? && c.length > 0
    requires Generate(StrategyOf(c.strategy).value, c.length, cfg, None, draws) == Done(seg, [])
    ensures GenerateSegments([c], cfg, None, draws) == Done([seg], [])
  {
    var comps := [c];
    assert comps[0] == c && comps[1..] == [];
    assert GenerateSegments([], cfg, None, []) == Done([], []);
    assert [seg] + [] == [seg];
  }

  /** The hexadecimal strategy turns the byte 0xA0 into "a0". */
  lemma HexSegmentExample()
    ensures HexString(2, [0xA0]) == Done("a0", [])
  {
    var d: seq<Word32> := [0xA0];
    assert d[1..] == [];
    assert HexByte(ByteOf(d[0])) == "a0";
    assert HexFill(2, [], "a0") == Done("a0", []);
    assert HexFill(2, d, []) == HexFill(2, [], [] + "a0");
  }

  /** The generator emits "c|a0" for the hexadecimal configuration and the draw 0xA0. */
  lemma HexSeparatorGenerated()
    ensures GenerateSemanticId(HexSeparatorConfiguration(), Present("c"), None, [0xA0]) == Done("c|a0", [])
  {
    var cfg := HexSeparatorConfiguration();
    HexSegmentExample();
    assert Generate(Hexadecimal, 2, cfg, None, [0xA0]) == Done("a0", []);
    assert StrategyOf(cfg.compartments[0].strategy) == Some(Hexadecimal);
    GenerateSingle(cfg.compartments[0], cfg, [0xA0], "a0");
    assert cfg.compartments == [cfg.compartments[0]];
    assert Assemble("c", cfg, ["a0"]) == "c|a0";
  }

  /** The inspector cuts "c|a0" at the digit `a`: two values where one compartment is expected. */
  lemma HexSeparatorValues()
    ensures CompartmentValues("c|a0", HexSeparatorConfiguration()) == ["", "0"]
  {
    HexSeparatorSegment();
    HexSegmentSplit();
  }

  /** The compartment part of "c|a0" is "a0". */
  lemma HexSeparatorSegment()
    ensures CompartmentSegment("c|a0", "|") == "a0"
  {
    var id := "c|a0";
    assert id[0..1] == "c" && id[1..2] == "|";
    assert IndexFrom(id, "|", 0) == IndexFrom(id, "|", 1);
    assert IndexFrom(id, "|", 1) == Some(1);
  }

  /** Splitting "a0" at "a" gives an empty value and then "0". */
  lemma HexSegmentSplit()
    ensures Split("a0", "a") == ["", "0"]
  {
    assert IndexOf("a0", "a") == Some(0);
    assert "0"[0..1] == "0";
    assert IndexFrom("0", "a", 1) == None;
    assert IndexFrom("0", "a", 0) == IndexFrom("0", "a", 1);
    assert IndexOf("0", "a") == None;
    assert Split("a0", "a") == [""] + Split("0", "a");
  }

  /** The one compartment's check of its value does not throw. */
  lemma HexSeparatorReports()
    ensures Reports(HexSeparatorConfiguration(), ["", "0"], None).Ok?
  {
    assert CompartmentOutcome(HexSeparatorConfiguration(), ["", "0"], None, 0).Ok?;
  }

  /**
    `HexSafe` is needed: with a hex digit as separator, a generated
    identifier is reported invalid.
   */
  lemma HexSeparatorBreaksRoundTrip()
    ensures GenerateSemanticId(HexSeparatorConfiguration(), Present("c"), None, [0xA0]) == Done("c|a0", [])
    ensures InspectWithConfiguration("c|a0", HexSeparatorConfiguration(), None).Ok?
    ensures !InspectWithConfiguration("c|a0", HexSeparatorConfiguration(), None).value.isValid
  {
    var cfg := HexSeparatorConfiguration();
    HexSeparatorGenerated();
    HexSeparatorValues();
    HexSeparatorReports();
  }

  /** The alphanumeric strategy draws `a` then `b`: neither equals the two-character separator. */
  lemma LongSeparatorSegment()
    ensures Generate(Alphanumeric, 2, LongSeparatorConfiguration(), None, [26, 27]) == Done("ab", [])
  {
    var cfg := LongSeparatorConfiguration();
    var d: seq<Word32> := [26, 27];
    assert d[1..] == [27] && d[1..][1..] == [];
    assert Pick(TableSampler(62), 26) == 'a' && Pick(TableSampler(62), 27) == 'b';
    assert Keeps(TableSampler(62), cfg, 'a') && Keeps(TableSampler(62), cfg, 'b');
    assert "a" + "b" == "ab" && [] + "a" == "a";
    assert Sample(TableSampler(62), cfg, 2, [], "ab") == Done("ab", []);
    assert Sample(TableSampler(62), cfg, 2, [27], "a") == Sample(TableSampler(62), cfg, 2, [], "a" + "b");
    assert Sample(TableSampler(62), cfg, 2, d, []) == Sample(TableSampler(62), cfg, 2, [27], [] + "a");
    assert SampledString(TableSampler(62), 2, cfg, d) == Done("ab", []);
  }

  /** The generator emits "c|ab" for the two-character separator and the draws 26, 27. */
  lemma LongSeparatorGenerated()
    ensures GenerateSemanticId(LongSeparatorConfiguration(), Present("c"), None, [26, 27]) == Done("c|ab", [])
  {
    var cfg := LongSeparatorConfiguration();
    LongSeparatorSegment();
    assert StrategyOf(cfg.compartments[0].strategy) == Some(Alphanumeric);
    GenerateSingle(cfg.compartments[0], cfg, [26, 27], "ab");
    assert cfg.compartments == [cfg.compartments[0]];
    assert Assemble("c", cfg, ["ab"]) == "c|ab";
  }

  /** The inspector cuts "c|ab" at `ab`: two empty values. */
  lemma LongSeparatorValues()
    ensures CompartmentValues("c|ab", LongSeparatorConfiguration()) == ["", ""]
  {
    var id := "c|ab";
    assert id[0..1] == "c" && id[1..2] == "|";
    assert IndexFrom(id, "|", 0) == IndexFrom(id, "|", 1);
    assert IndexFrom(id, "|", 1) == Some(1);
    assert CompartmentSegment(id, "|") == "ab";
    assert IndexOf("ab", "ab") == Some(0);
    assert IndexOf("", "ab") == None;
    assert Split("ab", "ab") == [""] + Split("", "ab");
  }

  /** The one compartment's check of its value does not throw. */
  lemma LongSeparatorReports()
    ensures Reports(LongSeparatorConfiguration(), ["", ""], None).Ok?
  {
    assert CompartmentOutcome(LongSeparatorConfiguration(), ["", ""], None, 0).Ok?;
  }

  /**
    One-character separators are needed: the strategies filter characters
    one at a time, so a segment can spell a longer separator, and the
    identifier is then reported invalid.
   */
  lemma LongSeparatorBreaksRoundTrip()
    ensures GenerateSemanticId(LongSeparatorConfiguration(), Present("c"), None, [26, 27]) == Done("c|ab", [])
    ensures InspectWithConfiguration("c|ab", LongSeparatorConfiguration(), None).Ok?
    ensures !InspectWithConfiguration("c|ab", LongSeparatorConfiguration(), None).value.isValid
  {
    var cfg := LongSeparatorConfiguration();
    LongSeparatorGenerated();
    LongSeparatorValues();
    LongSeparatorReports();
  }

  /** A known preset is needed: with an unknown one, inspecting any identifier throws. */
  lemma UnknownPresetFailsInspection(id: string, cfg: Configuration, load: Option<WordLists>)
    requires cfg.preset.Some? && cfg.preset.value != "" && !IsPresetKey(cfg.preset.value)
    ensures InspectWithConfiguration(id, cfg, load).Err?
  {
    assert MetadataFor(cfg).Err?;
  }
}

=== FILE: schema.dfy ===
/**
  The schema exporter: the JSON-LD description of a preset, the values the
  OWL document interpolates, `expandSchemaType`, and `escapeXml` with the
  predefined entities of section 4.6 of XML 1.0.
 */
module Schema {
  import opened Values
  import opened Text
  import opened Types
  import opened Presets

  const SchemaOrg: string := "https://schema.org/"
  const SchemaBaseIri: string := "https://semantic-id-generator.dev/schema"
  const EntityBaseIri: string := "https://semantic-id-generator.dev/entity"

  // ---------------------------------------------------------------------
  // expandSchemaType
  // ---------------------------------------------------------------------

  /**
    `expandSchemaType(schemaType)`: the empty type becomes schema.org's
    `Thing`, a compact `schema:` name is expanded (the first occurrence is
    the prefix itself), anything else is kept.
   */
  function ExpandSchemaType(t: string): (r: string)
    ensures t == "" ==> r == SchemaOrg + "Thing"
    ensures StartsWith(t, "schema:") ==> r == SchemaOrg + t[7..]
    ensures t != "" && !StartsWith(t, "schema:") ==> r == t
  {
    if t == "" then SchemaOrg + "Thing"
    else if StartsWith(t, "schema:") then SchemaOrg + t[7..]
    else t
  }

  /** An expanded type is never compact again, so expanding twice changes nothing. */
  lemma ExpandIdempotent(t: string)
    ensures ExpandSchemaType(ExpandSchemaType(t)) == ExpandSchemaType(t)
  {
    var r := ExpandSchemaType(t);
    if t == "" || StartsWith(t, "schema:") {
      assert r[..7] == "https:/";
      assert !StartsWith(r, "schema:");
    }
  }

  /** Compacting with the `schema:` prefix and expanding gives the schema.org IRI of the same local name. */
  lemma ExpandCompact(local: string)
    ensures ExpandSchemaType("schema:" + local) == SchemaOrg + local
  {
    var t := "schema:" + local;
    assert t[..7] == "schema:" && t[7..] == local;
  }

  // ---------------------------------------------------------------------
  // escapeXml
  // ---------------------------------------------------------------------

  /** `s.replace(/c/g, r)` for a one-character pattern. */
  function ReplaceAll(s: string, c: char, r: string): (t: string)
    ensures c !in s ==> t == s
  {
    if |s| == 0 then []
    else (if s[0] == c then r else [s[0]]) + ReplaceAll(s[1..], c, r)
  }

  lemma {:induction false} ReplaceAllAppend(a: string, b: string, c: char, r: string)
    ensures ReplaceAll(a + b, c, r) == ReplaceAll(a, c, r) + ReplaceAll(b, c, r)
  {
    if |a| > 0 {
      assert (a + b)[1..] == a[1..] + b;
      ReplaceAllAppend(a[1..], b, c, r);
    } else {
      assert a + b == b;
    }
  }

  /** `escapeXml(input)` as written: `&` first, then `<`, `>`, `"` and `'`. */
  function EscapeXml(s: string): string {
    ReplaceAll(ReplaceAll(ReplaceAll(ReplaceAll(ReplaceAll(s, '&', "&amp;"), '<', "&lt;"), '>', "&gt;"), '"', "&quot;"), '\'', "&apos;")
  }

  /** The characters XML reserves, and their predefined entities. */
  predicate IsReserved(c: char) {
    c == '&' || c == '<' || c == '>' || c == '"' || c == '\''
  }

  function EntityFor(c: char): (r: string)
    ensures IsReserved(c) ==> |r| >= 4 && r[0] == '&' && r[|r| - 1] == ';'
    ensures !IsReserved(c) ==> r == [c]
  {
    if c == '&' then "&amp;"
    else if c == '<' then "&lt;"
    else if c == '>' then "&gt;"
    else if c == '"' then "&quot;"
    else if c == '\'' then "&apos;"
    else [c]
  }

  /** The reference definition: each character replaced by its entity, independently. */
  function EscapeEach(s: string): string {
    if |s| == 0 then [] else EntityFor(s[0]) + EscapeEach(s[1..])
  }

  lemma EscapeXmlAppend(a: string, b: string)
    ensures EscapeXml(a + b) == EscapeXml(a) + EscapeXml(b)
  {
    var a1, b1 := ReplaceAll(a, '&', "&amp;"), ReplaceAll(b, '&', "&amp;");
    ReplaceAllAppend(a, b, '&', "&amp;");
    var a2, b2 := ReplaceAll(a1, '<', "&lt;"), ReplaceAll(b1, '<', "&lt;");
    ReplaceAllAppend(a1, b1, '<', "&lt;");
    var a3, b3 := ReplaceAll(a2, '>', "&gt;"), ReplaceAll(b2, '>', "&gt;");
    ReplaceAllAppend(a2, b2, '>', "&gt;");
    var a4, b4 := ReplaceAll(a3, '"', "&quot;"), ReplaceAll(b3, '"', "&quot;");
    ReplaceAllAppend(a3, b3, '"', "&quot;");
    ReplaceAllAppend(a4, b4, '\'', "&apos;");
  }

  lemma ReplaceOne(x: char, c: char, r: string)
    ensures ReplaceAll([x], c, r) == if x == c then r else [x]
  {
    assert [x][1..] == [];
  }

  /** The last four replacements leave the entity of `&` alone. */
  lemma AmpersandEntityKept()
    ensures ReplaceAll(ReplaceAll(ReplaceAll(ReplaceAll("&amp;", '<', "&lt;"), '>', "&gt;"), '"', "&quot;"), '\'', "&apos;") == "&amp;"
  {
    var e := "&amp;";
    assert '<' !in e && '>' !in e && '"' !in e && '\'' !in e;
  }

  /** No later pattern occurs in an earlier entity, so one character escapes to its own entity. */
  lemma EscapeXmlChar(c: char)
    ensures EscapeXml([c]) == EntityFor(c)
  {
    ReplaceOne(c, '&', "&amp;");
    if c == '&' {
      AmpersandEntityKept();
    } else {
      ReplaceOne(c, '<', "&lt;");
      if c == '<' {
        var e := "&lt;";
        assert '>' !in e && '"' !in e && '\'' !in e;
      } else {
        ReplaceOne(c, '>', "&gt;");
        if c == '>' {
          var e := "&gt;";
          assert '"' !in e && '\'' !in e;
        } else {
          ReplaceOne(c, '"', "&quot;");
          if c == '"' {
            var e := "&quot;";
            assert '\'' !in e;
          } else {
            ReplaceOne(c, '\'', "&apos;");
          }
        }
      }
    }
  }

  /** The chain of replacements escapes each character on its own: `&` is replaced before any entity is introduced. */
  lemma {:induction false} EscapeXmlIsEscapeEach(s: string)
    ensures EscapeXml(s) == EscapeEach(s)
  {
    if |s| > 0 {
      assert s == [s[0]] + s[1..];
      EscapeXmlAppend([s[0]], s[1..]);
      EscapeXmlChar(s[0]);
      EscapeXmlIsEscapeEach(s[1..]);
    }
  }

  /** Reading entities back: the inverse of `EscapeEach`. */
  function Unescape(t: string): string
    decreases |t|
  {
    if |t| == 0 then []
    else if StartsWith(t, "&amp;") then ['&'] + Unescape(t[5..])
    else if StartsWith(t, "&lt;") then ['<'] + Unescape(t[4..])
    else if StartsWith(t, "&gt;") then ['>'] + Unescape(t[4..])
    else if StartsWith(t, "&quot;") then ['"'] + Unescape(t[6..])
    else if StartsWith(t, "&apos;") then ['\''] + Unescape(t[6..])
    else [t[0]] + Unescape(t[1..])
  }

  lemma UnescapeStep(c: char, rest: string)
    ensures Unescape(EntityFor(c) + rest) == [c] + Unescape(rest)
  {
    var t := EntityFor(c) + rest;
    var e := EntityFor(c);
    assert t[..|e|] == e && t[|e|..] == rest;
    if !IsReserved(c) {
      assert t[0] == c && t[1..] == rest;
      assert !StartsWith(t, "&amp;") && !StartsWith(t, "&lt;") && !StartsWith(t, "&gt;");
      assert !StartsWith(t, "&quot;") && !StartsWith(t, "&apos;");
    } else if c == '<' {
      assert !StartsWith(t, "&amp;") by { assert t[1] == 'l'; }
    } else if c == '>' {
      assert !StartsWith(t, "&amp;") by { assert t[1] == 'g'; }
      assert !StartsWith(t, "&lt;") by { assert t[1] == 'g'; }
    } else if c == '"' {
      assert !StartsWith(t, "&amp;") && !StartsWith(t, "&lt;") && !StartsWith(t, "&gt;") by { assert t[1] == 'q'; }
    } else if c == '\'' {
      assert t[1] == 'a' && t[2] == 'p';
      assert !StartsWith(t, "&amp;") by { assert "&amp;"[2] == 'm'; }
      assert !StartsWith(t, "&lt;") && !StartsWith(t, "&gt;") && !StartsWith(t, "&quot;");
    }
  }

  /** Escaping round-trips: reading the entities back gives the input. */
  lemma {:induction false} UnescapeEscape(s: string)
    ensures Unescape(EscapeXml(s)) == s
  {
    EscapeXmlIsEscapeEach(s);
    UnescapeEach(s);
  }

  lemma {:induction false} UnescapeEach(s: string)
    ensures Unescape(EscapeEach(s)) == s
  {
    if |s| > 0 {
      UnescapeStep(s[0], EscapeEach(s[1..]));
      UnescapeEach(s[1..]);
      assert s == [s[0]] + s[1..];
    }
  }

  lemma {:induction false} EscapeEachLength(s: string)
    ensures |EscapeEach(s)| >= |s|
    ensures |EscapeEach(s)| == |s| <==> forall i :: 0 <= i < |s| ==> !IsReserved(s[i])
  {
    if |s| > 0 {
      EscapeEachLength(s[1..]);
      assert forall i :: 1 <= i < |s| ==> s[i] == s[1..][i - 1];
    }
  }

  lemma {:induction false} EscapeEachClean(s: string)
    ensures forall i :: 0 <= i < |EscapeEach(s)| ==> var c := EscapeEach(s)[i]; c != '<' && c != '>' && c != '"' && c != '\''
  {
    if |s| > 0 {
      EscapeEachClean(s[1..]);
      var e := EntityFor(s[0]);
      var t := EscapeEach(s);
      assert t == e + EscapeEach(s[1..]);
      forall i | 0 <= i < |e| ensures t[i] != '<' && t[i] != '>' && t[i] != '"' && t[i] != '\'' {
        assert t[i] == e[i];
      }
      assert forall i :: |e| <= i < |t| ==> t[i] == EscapeEach(s[1..])[i - |e|];
    }
  }

  /**
    The escaped text holds none of `<`, `>`, `"` and `'`, and it equals its
    input exactly when the input holds none of the five reserved characters.
   */
  lemma EscapeXmlProperties(s: string)
    ensures forall i :: 0 <= i < |EscapeXml(s)| ==>
      var c := EscapeXml(s)[i]; c != '<' && c != '>' && c != '"' && c != '\''
    ensures EscapeXml(s) == s <==> forall i :: 0 <= i < |s| ==> !IsReserved(s[i])
  {
    EscapeXmlIsEscapeEach(s);
    EscapeEachClean(s);
    EscapeEachLength(s);
    if forall i :: 0 <= i < |s| ==> !IsReserved(s[i]) {
      EscapeEachPlain(s);
    }
  }

  lemma {:induction false} EscapeEachPlain(s: string)
    requires forall i :: 0 <= i < |s| ==> !IsReserved(s[i])
    ensures EscapeEach(s) == s
  {
    if |s| > 0 {
      assert forall i :: 1 <= i < |s| ==> s[i] == s[1..][i - 1];
      EscapeEachPlain(s[1..]);
      assert s == [s[0]] + s[1..];
    }
  }

  // ---------------------------------------------------------------------
  // JSON-LD and OWL
  // ---------------------------------------------------------------------

  /** One entry of `sig:compartments`. */
  datatype JsonLdCompartment = JsonLdCompartment(name: string, length: int, generationStrategy: string, position: nat)

  /** The JSON-LD object, without its constant `@context`, `@type` and `schema:schemaVersion`. */
  datatype JsonLdSchema = JsonLdSchema(
    id: string, name: string, description: string, entitySchema: string, entitySchemaIri: string,
    domainClass: string, dataConceptSeparator: string, compartmentSeparator: string,
    compartments: seq<JsonLdCompartment>)

  /** `preset.compartments.map((compartment, index) => …)`. */
  function CompartmentEntries(cs: seq<Compartment>): (r: seq<JsonLdCompartment>)
    ensures |r| == |cs|
    ensures forall k :: 0 <= k < |cs| ==> r[k] == JsonLdCompartment(cs[k].name, cs[k].length, cs[k].strategy, k)
  {
    seq(|cs|, k requires 0 <= k < |cs| => JsonLdCompartment(cs[k].name, cs[k].length, cs[k].strategy, k))
  }

  /** The compartment definitions read back from the JSON-LD entries. */
  function CompartmentsOf(es: seq<JsonLdCompartment>): seq<Compartment> {
    seq(|es|, k requires 0 <= k < |es| => Compartment(es[k].name, es[k].length, es[k].generationStrategy))
  }

  /** The mapping loses nothing: the preset's compartments come back from the entries, in order. */
  lemma CompartmentEntriesRoundTrip(cs: seq<Compartment>)
    ensures CompartmentsOf(CompartmentEntries(cs)) == cs
  {
  }

  /** `buildJsonLdSchema(presetName)`. */
  function BuildJsonLdSchema(presetName: Field<string>): (r: Result<JsonLdSchema>)
    ensures r.Ok? <==> presetName.Present? && IsPresetKey(presetName.value)
    ensures r.Err? ==> r.error == GetDomainPreset(presetName).error
    ensures r.Ok? ==> (r.value.id == SchemaBaseIri + "/" + presetName.value
      && r.value.dataConceptSeparator == "|" && r.value.compartmentSeparator == "-"
      && r.value.entitySchemaIri == EntityBaseIri + "/" + r.value.entitySchema
      && r.value.name == r.value.entitySchema + " Semantic Identifier"
      && PresetDefinition(presetName.value, r.value.entitySchema, r.value.domainClass, r.value.description)
         == Definition(KeyIndex(presetName.value))
      && CompartmentsOf(r.value.compartments) == PresetCompartments
      && forall k :: 0 <= k < |r.value.compartments| ==> r.value.compartments[k].position == k)
  {
    var preset :- GetDomainPreset(presetName);
    var metadata := GetPresetMetadata(presetName).value;
    CompartmentEntriesRoundTrip(preset.compartments);
    Ok(JsonLdSchema(
      SchemaBaseIri + "/" + presetName.value,
      metadata.schemaName + " Semantic Identifier",
      metadata.description,
      metadata.schemaName,
      EntityBaseIri + "/" + metadata.schemaName,
      metadata.schemaClass,
      preset.dataConceptSeparator,
      preset.compartmentSeparator,
      CompartmentEntries(preset.compartments)))
  }

  /** One compartment property of the OWL document: its escaped label and strategy, length and position. */
  datatype OwlProperty = OwlProperty(propertyLabel: string, generationStrategy: string, length: int, position: nat)

  /**
    The values `buildOwlSchema` interpolates into its document; the
    surrounding template text and the property IRIs are not modelled.
   */
  datatype OwlSchema = OwlSchema(
    ontologyIri: string, classLabel: string, comment: string, subClassOf: string, entitySchemaIri: string,
    dataConceptSeparator: string, compartmentSeparator: string, properties: seq<OwlProperty>)

  function OwlProperties(cs: seq<Compartment>): (r: seq<OwlProperty>)
    ensures |r| == |cs|
    ensures forall k :: 0 <= k < |cs| ==>
      r[k] == OwlProperty(EscapeXml(cs[k].name), EscapeXml(cs[k].strategy), cs[k].length, k)
  {
    seq(|cs|, k requires 0 <= k < |cs| => OwlProperty(EscapeXml(cs[k].name), EscapeXml(cs[k].strategy), cs[k].length, k))
  }

  /** Every property label reads back as its compartment's name. */
  lemma OwlLabelsReadBack(cs: seq<Compartment>)
    ensures forall k :: 0 <= k < |cs| ==> Unescape(OwlProperties(cs)[k].propertyLabel) == cs[k].name
  {
    forall k | 0 <= k < |cs| ensures Unescape(OwlProperties(cs)[k].propertyLabel) == cs[k].name {
      UnescapeEscape(cs[k].name);
    }
  }

  /** `buildOwlSchema(presetName)`, reduced to the values it writes. */
  function BuildOwlSchema(presetName: Field<string>): (r: Result<OwlSchema>)
    ensures r.Ok? <==> presetName.Present? && IsPresetKey(presetName.value)
    ensures r.Err? ==> r.error == GetDomainPreset(presetName).error
    ensures r.Ok? ==> (r.value.ontologyIri == SchemaBaseIri + "/" + presetName.value
      && Unescape(r.value.dataConceptSeparator) == "|" && Unescape(r.value.compartmentSeparator) == "-"
      && |r.value.properties| == |PresetCompartments|)
    ensures r.Ok? ==> (var d := Definition(KeyIndex(presetName.value));
      Unescape(r.value.classLabel) == d.schemaName && Unescape(r.value.comment) == d.description
      && r.value.subClassOf == ExpandSchemaType(d.schemaClass)
      && Unescape(r.value.entitySchemaIri) == EntityBaseIri + "/" + d.schemaName)
  {
    var preset :- GetDomainPreset(presetName);
    var metadata := GetPresetMetadata(presetName).value;
    UnescapeEscape(preset.dataConceptSeparator);
    UnescapeEscape(preset.compartmentSeparator);
    UnescapeEscape(metadata.schemaName);
    UnescapeEscape(metadata.description);
    UnescapeEscape(EntityBaseIri + "/" + metadata.schemaName);
    Ok(OwlSchema(
      SchemaBaseIri + "/" + presetName.value,
      EscapeXml(metadata.schemaName),
      EscapeXml(metadata.description),
      ExpandSchemaType(metadata.schemaClass),
      EscapeXml(EntityBaseIri + "/" + metadata.schemaName),
      EscapeXml(preset.dataConceptSeparator),
      EscapeXml(preset.compartmentSeparator),
      OwlProperties(preset.compartments)))
  }

  /** The OWL properties describe the preset's compartments in order: each label reads back as the compartment name. */
  lemma OwlCompartmentsReadBack(presetName: Field<string>)
    requires BuildOwlSchema(presetName).Ok?
    ensures var ps := BuildOwlSchema(presetName).value.properties;
      |ps| == |PresetCompartments| && forall k :: 0 <= k < |ps| ==>
        Unescape(ps[k].propertyLabel) == PresetCompartments[k].name && ps[k].length == PresetCompartments[k].length
        && ps[k].position == k
  {
    OwlPropertiesOfPreset(presetName);
    OwlLabelsReadBack(PresetCompartments);
  }

  lemma OwlPropertiesOfPreset(presetName: Field<string>)
    requires BuildOwlSchema(presetName).Ok?
    ensures BuildOwlSchema(presetName).value.properties == OwlProperties(PresetCompartments)
  {
  }

  /** What `exportSchema` returns: the JSON-LD object or the OWL document. */
  datatype Exported = JsonLd(jsonld: JsonLdSchema) | Owl(owl: OwlSchema)

  /**
    `exportSchema(presetName, format = 'jsonld')`: `None` is the omitted
    format. The format is checked before the preset is looked up.
   */
  function ExportSchema(presetName: Field<string>, format: Option<string>): (r: Result<Exported>)
    ensures format.Some? && format.value != "jsonld" && format.value != "owl" ==>
      r == Err(UnsupportedSchemaFormat(format.value))
    ensures (format.None? || format == Some("jsonld")) ==>
      (r.Ok? <==> BuildJsonLdSchema(presetName).Ok?) && (r.Ok? ==> r.value.JsonLd?)
    ensures format == Some("owl") ==> (r.Ok? <==> BuildOwlSchema(presetName).Ok?) && (r.Ok? ==> r.value.Owl?)
    ensures r.Err? && (format.None? || format.value == "jsonld" || format.value == "owl") ==>
      r.error == GetDomainPreset(presetName).error
  {
    var f := if format.None? then "jsonld" else format.value;
    if f == "jsonld" then
      var s :- BuildJsonLdSchema(presetName);
      Ok(JsonLd(s))
    else if f == "owl" then
      var s :- BuildOwlSchema(presetName);
      Ok(Owl(s))
    else Err(UnsupportedSchemaFormat(f))
  }

  /** `{ preset, jsonld, owl }`. */
  datatype SchemaBundle = SchemaBundle(preset: string, jsonld: JsonLdSchema, owl: OwlSchema)

  /**
    `buildSchemaForPreset(presetName)`: both documents describe the same
    preset, the OWL class label being the escaped JSON-LD entity schema.
   */
  function BuildSchemaForPreset(presetName: Field<string>): (r: Result<SchemaBundle>)
    ensures r.Ok? <==> presetName.Present? && IsPresetKey(presetName.value)
    ensures r.Ok? ==> (r.value.preset == presetName.value && r.value.jsonld.id == r.value.owl.ontologyIri
      && r.value.owl.classLabel == EscapeXml(r.value.jsonld.entitySchema)
      && r.value.owl.subClassOf == ExpandSchemaType(r.value.jsonld.domainClass)
      && |r.value.owl.properties| == |r.value.jsonld.compartments|)
  {
    var j :- BuildJsonLdSchema(presetName);
    Ok(SchemaBundle(presetName.value, j, BuildOwlSchema(presetName).value))
  }
}

=== FILE: segmentation.dfy ===
/**
  The inspector's passphrase dictionary and the dynamic program that decides
  whether a value is a concatenation of dictionary words.
 */
module Segmentation {
  import opened Values
  import opened Text
  import opened WordLists

  /** `{ words, wordSet, lengths }`: the lower-cased distinct words, the same as a set, and their distinct lengths ascending. */
  datatype Dictionary = Dictionary(words: seq<string>, wordSet: set<string>, lengths: seq<nat>)

  /** `Array.from(new Set(xs))`: each value once, at its first occurrence. */
  function Dedup(xs: seq<string>): (r: seq<string>)
    ensures forall x :: x in r <==> x in xs
    ensures forall i, j :: 0 <= i < j < |r| ==> r[i] != r[j]
  {
    if |xs| == 0 then []
    else
      var r := Dedup(xs[..|xs| - 1]);
      var last := xs[|xs| - 1];
      assert forall x :: x in xs <==> x in xs[..|xs| - 1] || x == last by {
        assert xs == xs[..|xs| - 1] + [last];
      }
      if last in r then r else r + [last]
  }

  function LowerAll(words: seq<string>): (r: seq<string>)
    ensures |r| == |words| && forall i :: 0 <= i < |words| ==> r[i] == ToLowerAscii(words[i])
  {
    seq(|words|, i requires 0 <= i < |words| => ToLowerAscii(words[i]))
  }

  function MaxLength(ws: seq<string>): (m: nat)
    ensures forall i :: 0 <= i < |ws| ==> |ws[i]| <= m
  {
    if |ws| == 0 then 0
    else
      var m := MaxLength(ws[1..]);
      assert forall i :: 1 <= i < |ws| ==> ws[i] == ws[1..][i - 1];
      if |ws[0]| > m then |ws[0]| else m
  }

  /** The members of `s` in `[lo, hi)`, ascending: a numeric sort of a set. */
  function Ascending(s: set<nat>, lo: nat, hi: nat): (r: seq<nat>)
    decreases hi - lo
    ensures forall x :: x in r <==> x in s && lo <= x < hi
    ensures forall i, j :: 0 <= i < j < |r| ==> r[i] < r[j]
  {
    if lo >= hi then []
    else
      var rest := Ascending(s, lo + 1, hi);
      if lo in s then
        assert forall j :: 0 <= j < |rest| ==> lo < rest[j] by {
          forall j | 0 <= j < |rest| ensures lo < rest[j] {
            assert rest[j] in rest;
          }
        }
        [lo] + rest
      else rest
  }

  /** Every word's length is listed: what the dynamic program relies on to find every word. */
  predicate LengthsCoverWords(d: Dictionary) {
    forall w :: w in d.wordSet ==> |w| in d.lengths
  }

  /** The dictionary built from a word list. */
  function BuildDictionary(words: seq<string>): (d: Dictionary)
    ensures d.wordSet == set i | 0 <= i < |words| :: ToLowerAscii(words[i])
    ensures forall w :: w in d.words <==> w in d.wordSet
    ensures forall i, j :: 0 <= i < j < |d.words| ==> d.words[i] != d.words[j]
    ensures forall i, j :: 0 <= i < j < |d.lengths| ==> d.lengths[i] < d.lengths[j]
    ensures forall n :: n in d.lengths ==> exists w :: w in d.wordSet && |w| == n
    ensures LengthsCoverWords(d)
  {
    var lowered := LowerAll(words);
    var normalized := Dedup(lowered);
    var wordSet := set w | w in normalized;
    var sizes := set w | w in normalized :: |w|;
    var lengths := Ascending(sizes, 0, MaxLength(normalized) + 1);
    WordSetOfLowered(words, normalized);
    LengthsListed(normalized, MaxLength(normalized) + 1);
    Dictionary(normalized, wordSet, lengths)
  }

  /** The distinct lower-cased words, as a set, are the lower-cased words of the list. */
  lemma WordSetOfLowered(words: seq<string>, normalized: seq<string>)
    requires forall x :: x in normalized <==> x in LowerAll(words)
    ensures (set w | w in normalized) == set i | 0 <= i < |words| :: ToLowerAscii(words[i])
  {
    var lowered := LowerAll(words);
    forall w ensures w in normalized <==> exists i :: 0 <= i < |words| && w == ToLowerAscii(words[i]) {
      if w in normalized {
        var i :| 0 <= i < |lowered| && lowered[i] == w;
        assert w == ToLowerAscii(words[i]);
      }
      if exists i :: 0 <= i < |words| && w == ToLowerAscii(words[i]) {
        var i :| 0 <= i < |words| && w == ToLowerAscii(words[i]);
        assert lowered[i] == w;
      }
    }
  }

  /** Every word's length appears among the ascending lengths below the bound. */
  lemma LengthsListed(normalized: seq<string>, hi: nat)
    requires forall i :: 0 <= i < |normalized| ==> |normalized[i]| < hi
    ensures forall w :: w in normalized ==> |w| in Ascending(set w | w in normalized :: |w|, 0, hi)
  {
    forall w | w in normalized ensures |w| in Ascending(set w | w in normalized :: |w|, 0, hi) {
      var i :| 0 <= i < |normalized| && normalized[i] == w;
    }
  }

  /** The cache key: the language code when it is non-empty and names a list, otherwise "all". */
  function DictionaryKey(lists: WordLists, languageCode: Option<string>): string {
    match languageCode
    case Some(code) => if code != "" && HasLanguage(lists, code) then code else "all"
    case None => "all"
  }

  /** The code is non-empty, is not "all", and names a list: the one case the dictionary uses a single list. */
  predicate NamesOwnList(lists: WordLists, languageCode: Option<string>) {
    languageCode.Some? && languageCode.value != "" && languageCode.value != "all" && HasLanguage(lists, languageCode.value)
  }

  /**
    The words behind a key: every list concatenated for "all", else that
    list. A language that is itself called "all" is therefore never used on
    its own.
   */
  function DictionaryWords(lists: WordLists, languageCode: Option<string>): (r: seq<string>)
    ensures NamesOwnList(lists, languageCode) ==> r == LanguageWords(lists, languageCode.value)
    ensures !NamesOwnList(lists, languageCode) ==> r == AllWords(lists)
  {
    var key := DictionaryKey(lists, languageCode);
    if key == "all" then AllWords(lists) else LanguageWords(lists, key)
  }

  /**
    The words behind the key as written: `wordLists[languageCode]` also
    answers for an inherited name, which then becomes the key. Its value is
    not an array, so `words.map` throws a `TypeError`.
   */
  function DictionaryWordsAsWritten(lists: WordLists, languageCode: Option<string>): (r: Result<seq<string>>)
    ensures r.Err? <==> (languageCode.Some? && languageCode.value != ""
      && !HasLanguage(lists, languageCode.value) && languageCode.value in InheritedPropertyNames)
    ensures r.Err? ==> r.error == TypeError
    ensures r.Ok? ==> r.value == DictionaryWords(lists, languageCode)
  {
    match languageCode
    case Some(code) =>
      if code != "" && !HasLanguage(lists, code) && code in InheritedPropertyNames then Err(TypeError)
      else Ok(DictionaryWords(lists, languageCode))
    case None => Ok(DictionaryWords(lists, languageCode))
  }

  /**
    With a language code such as "constructor" that names no list, the
    inspector as written throws, where the own-key lookup falls back to every
    list.
   */
  lemma InheritedLanguageAsWritten(lists: WordLists)
    requires !HasLanguage(lists, "constructor")
    ensures DictionaryWordsAsWritten(lists, Some("constructor")) == Err(TypeError)
    ensures DictionaryWords(lists, Some("constructor")) == AllWords(lists)
  {
  }

  /** `getPassphraseDictionary(languageCode)` over the loaded word lists. */
  function GetPassphraseDictionary(lists: WordLists, languageCode: Option<string>): (d: Dictionary)
    ensures LengthsCoverWords(d)
    ensures forall w :: w in DictionaryWords(lists, languageCode) ==> ToLowerAscii(w) in d.wordSet
    ensures d.wordSet == set i | 0 <= i < |DictionaryWords(lists, languageCode)| :: ToLowerAscii(DictionaryWords(lists, languageCode)[i])
  {
    var words := DictionaryWords(lists, languageCode);
    BuiltWordSet(words);
    BuildDictionary(words)
  }

  /** Every word of the list is in the built dictionary, lower-cased. */
  lemma BuiltWordSet(words: seq<string>)
    ensures forall w :: w in words ==> ToLowerAscii(w) in BuildDictionary(words).wordSet
  {
    var d := BuildDictionary(words);
    forall w | w in words ensures ToLowerAscii(w) in d.wordSet {
      var i :| 0 <= i < |words| && words[i] == w;
    }
  }

  // ---------------------------------------------------------------------
  // Segmentation
  // ---------------------------------------------------------------------

  /** The first `j` characters of `v` split into words of `words`, the last word ending at `j`. */
  predicate Segments(v: string, words: set<string>, j: nat)
    requires j <= |v|
    decreases j
  {
    j == 0 || exists i :: 0 <= i < j && Segments(v, words, i) && v[i..j] in words
  }

  /** Concatenation of a word sequence, built from the right. */
  function Concat(ws: seq<string>): string {
    if |ws| == 0 then [] else Concat(ws[..|ws| - 1]) + ws[|ws| - 1]
  }

  /** `ws` is a sequence of dictionary words that spells `s`. */
  predicate IsSegmentation(ws: seq<string>, words: set<string>, s: string) {
    (forall k :: 0 <= k < |ws| ==> ws[k] in words) && Concat(ws) == s
  }

  /** The recursive definition agrees with the plain one: some word sequence spells the prefix. */
  lemma {:induction false} SegmentsSound(v: string, words: set<string>, j: nat)
    requires j <= |v| && Segments(v, words, j)
    ensures exists ws :: IsSegmentation(ws, words, v[..j])
    decreases j
  {
    if j == 0 {
      assert IsSegmentation([], words, v[..0]);
    } else {
      var i :| 0 <= i < j && Segments(v, words, i) && v[i..j] in words;
      SegmentsSound(v, words, i);
      var ws :| IsSegmentation(ws, words, v[..i]);
      var ws' := ws + [v[i..j]];
      assert ws'[..|ws'| - 1] == ws;
      assert v[..i] + v[i..j] == v[..j];
      assert IsSegmentation(ws', words, v[..j]);
    }
  }

  lemma {:induction false} SegmentsComplete(v: string, words: set<string>, j: nat, ws: seq<string>)
    requires j <= |v| && IsSegmentation(ws, words, v[..j])
    ensures Segments(v, words, j)
    decreases |ws|
  {
    if |ws| == 0 {
      assert |v[..j]| == 0;
    } else {
      var front := ws[..|ws| - 1];
      var last := ws[|ws| - 1];
      var i := j - |last|;
      assert Concat(ws) == Concat(front) + last;
      assert v[..j] == Concat(front) + last;
      assert Concat(front) == v[..i] by {
        assert v[..i] == v[..j][..i];
      }
      assert last == v[i..j] by {
        assert v[i..j] == v[..j][i..];
      }
      assert IsSegmentation(front, words, v[..i]);
      SegmentsComplete(v, words, i, front);
      if i == j {
        assert Segments(v, words, j);
      } else {
        assert 0 <= i < j && Segments(v, words, i) && v[i..j] in words;
      }
    }
  }

  /** A value is segmentable exactly when some sequence of dictionary words spells it. */
  lemma SegmentsIffSpelled(v: string, words: set<string>)
    ensures Segments(v, words, |v|) <==> exists ws :: IsSegmentation(ws, words, v)
  {
    assert v[..|v|] == v;
    if Segments(v, words, |v|) {
      SegmentsSound(v, words, |v|);
    }
    if exists ws :: IsSegmentation(ws, words, v) {
      var ws :| IsSegmentation(ws, words, v);
      SegmentsComplete(v, words, |v|, ws);
    }
  }

  /** Position `j` is reached by a word starting before `i` (or `j` is the start). */
  predicate Partial(v: string, words: set<string>, i: nat, j: nat)
    requires i <= |v| && j <= |v|
  {
    j == 0 || exists k :: 0 <= k < i && k < j && Segments(v, words, k) && v[k..j] in words
  }

  lemma PartialSettled(v: string, words: set<string>, i: nat, j: nat)
    requires j <= i <= |v|
    ensures Partial(v, words, i, j) == Segments(v, words, j)
  {
  }

  /** Advancing the start bound past `i` adds exactly the words that start at a reachable `i`. */
  lemma PartialStep(v: string, words: set<string>, i: nat, j: nat)
    requires i < |v| && j <= |v|
    ensures Partial(v, words, i + 1, j)
        == (Partial(v, words, i, j) || (i < j && Segments(v, words, i) && v[i..j] in words))
  {
  }

  /**
    `canSegmentWithDictionary(value, dictionary)`: `dp[j]` records that the
    first `j` characters split into words; from each reachable start every
    listed length is tried.
   */
  method CanSegmentWithDictionary(v: string, d: Dictionary) returns (r: bool)
    requires LengthsCoverWords(d)
    ensures r == Segments(v, d.wordSet, |v|)
  {
    var n := |v|;
    var dp := new bool[n + 1](j => j == 0);
    var i := 0;
    while i < n
      invariant 0 <= i <= n
      invariant forall j :: 0 <= j <= n ==> dp[j] == Partial(v, d.wordSet, i, j)
    {
      PartialSettled(v, d.wordSet, i, i);
      if dp[i] {
        var t := 0;
        while t < |d.lengths|
          invariant 0 <= t <= |d.lengths|
          invariant dp[i]
          invariant forall j :: 0 <= j <= n ==>
            dp[j] == (Partial(v, d.wordSet, i, j) || (i <= j && v[i..j] in d.wordSet && (j - i) in d.lengths[..t]))
        {
          var end := i + d.lengths[t];
          if end <= n {
            var chunk := v[i..end];
            if chunk in d.wordSet {
              dp[end] := true;
            }
          }
          assert d.lengths[..t + 1] == d.lengths[..t] + [d.lengths[t]];
          t := t + 1;
        }
        assert d.lengths[..t] == d.lengths;
        forall j | 0 <= j <= n
          ensures dp[j] == Partial(v, d.wordSet, i + 1, j)
        {
          PartialStep(v, d.wordSet, i, j);
          if j == i {
            PartialSettled(v, d.wordSet, i, i);
          }
        }
      } else {
        forall j | 0 <= j <= n
          ensures dp[j] == Partial(v, d.wordSet, i + 1, j)
        {
          PartialStep(v, d.wordSet, i, j);
        }
      }
      i := i + 1;
    }
    PartialSettled(v, d.wordSet, n, n);
    r := dp[n];
  }

  /** The inspector's own examples: "appleapple" splits into two words of {"apple"}, "applezzzzz" does not split. */
  lemma AppleExamples()
    ensures Segments("appleapple", {"apple"}, 10)
    ensures !Segments("applezzzzz", {"apple"}, 10)
  {
    var good := "appleapple";
    assert good[0..5] == "apple" && good[5..10] == "apple";
    assert Segments(good, {"apple"}, 0);
    assert Segments(good, {"apple"}, 5);
    var bad := "applezzzzz";
    forall i | 0 <= i < 10 ensures bad[i..10] != "apple" {
      if |bad[i..10]| == 5 {
        assert i == 5;
        assert bad[5..10][0] == 'z';
      }
    }
  }
}

=== FILE: strategies.dfy ===
/**
  The seven string-generation strategies. Each one consumes draws until its
  string reaches the requested length; those that filter skip any character
  equal to one of the two separators.
 */
module Strategies {
  import opened Values
  import opened Text
  import opened Draws
  import opened Encodings
  import opened Types
  import opened WordLists

  datatype Strategy = AllCharacters | VisibleCharacters | Numbers | Alphanumeric | Hexadecimal | Base64 | Passphrase

  /** The tag a configuration uses for each strategy. */
  function NameOf(st: Strategy): string {
    match st
    case AllCharacters => "all characters"
    case VisibleCharacters => "visible characters"
    case Numbers => "numbers"
    case Alphanumeric => "alphanumeric"
    case Hexadecimal => "hexadecimal"
    case Base64 => "base64"
    case Passphrase => "passphrase"
  }

  /** The own-key lookup in the strategy tables of the generator and the inspector. */
  function StrategyOf(tag: string): (r: Option<Strategy>)
    ensures r.Some? ==> NameOf(r.value) == tag
    ensures r.None? ==> forall st :: NameOf(st) != tag
  {
    if tag == "all characters" then Some(AllCharacters)
    else if tag == "visible characters" then Some(VisibleCharacters)
    else if tag == "numbers" then Some(Numbers)
    else if tag == "alphanumeric" then Some(Alphanumeric)
    else if tag == "hexadecimal" then Some(Hexadecimal)
    else if tag == "base64" then Some(Base64)
    else if tag == "passphrase" then Some(Passphrase)
    else None
  }

  predicate IsSupportedStrategy(tag: string) {
    StrategyOf(tag).Some?
  }

  /**
    The generator's check `stringGenerationStrategyToFunctionMap[tag]` is a
    function, as written: the plain object also answers with the functions
    it inherits from `Object.prototype`.
   */
  predicate HasGeneratorFunctionAsWritten(tag: string) {
    IsSupportedStrategy(tag) || tag in InheritedFunctionNames
  }

  /** The as-written check lets an inherited name such as "constructor" pass as a strategy. */
  lemma InheritedNamePassesAsWritten()
    ensures HasGeneratorFunctionAsWritten("constructor")
    ensures !IsSupportedStrategy("constructor")
  {
  }

  /** `new Set([dcs, cs]).has(c)` for a one-character string. */
  predicate IsSeparatorChar(c: char, cfg: Configuration) {
    [c] == cfg.dataConceptSeparator || [c] == cfg.compartmentSeparator
  }

  // ---------------------------------------------------------------------
  // Character-at-a-time strategies
  // ---------------------------------------------------------------------

  /**
    How one draw becomes one candidate character. `VisibleSampler` scales the
    draw into `0x20..0x7E` by 2^32, `VisibleAsWrittenSampler` by 0xFFFFFFFF
    as `_randomIntFromInterval` does. `DigitSampler(n)` is
    `crypto.randomInt(0, n).toString()`, `TableSampler(n)` indexes the first
    `n` characters of the alphanumeric table, and `UnicodeSampler` picks a
    code point below the surrogates (scaled by 2^32), optionally discarding
    non-printable ones.
   */
  datatype Sampler =
    | VisibleSampler
    | VisibleAsWrittenSampler
    | DigitSampler(digits: int)
    | TableSampler(size: int)
    | UnicodeSampler(printableOnly: bool)

  predicate WellFormed(s: Sampler) {
    match s
    case DigitSampler(n) => 1 <= n <= 10
    case TableSampler(n) => 1 <= n <= 62
    case _ => true
  }

  /** The characters a sampler can produce. */
  predicate Yields(s: Sampler, c: char)
    requires WellFormed(s)
  {
    match s
    case VisibleSampler => 0x20 <= c as int <= 0x7E
    case VisibleAsWrittenSampler => 0x20 <= c as int <= 0x7F
    case DigitSampler(n) => IsDigit(c) && c as int - '0' as int < n
    case TableSampler(n) => IsAlphanumeric(c) && B64Index(c) < n
    case UnicodeSampler(_) => c as int <= 0xD7FF
  }

  function Pick(s: Sampler, d: Word32): (c: char)
    requires WellFormed(s)
    ensures Yields(s, c)
  {
    match s
    case VisibleSampler => Interval(0x20, 0x7E, d) as char
    case VisibleAsWrittenSampler => IntervalAsWritten(0x20, 0x7E, d) as char
    case DigitSampler(n) => ('0' as int + RandomInt(0, n, d)) as char
    case TableSampler(n) =>
      var k := RandomInt(0, n, d);
      B64Injective(k);
      B64(k)
    case UnicodeSampler(_) => Interval(0, 0xD7FF, d) as char
  }

  /** Whether a candidate character is appended. */
  predicate Keeps(s: Sampler, cfg: Configuration, c: char) {
    !IsSeparatorChar(c, cfg) && (s == UnicodeSampler(true) ==> IsPrintableCodePoint(c as int))
  }

  /** The characters a run of draws contributes, in order: the reference filter. */
  function Accepted(s: Sampler, cfg: Configuration, ds: seq<Word32>): (r: string)
    requires WellFormed(s)
    ensures |r| <= |ds|
    ensures forall i :: 0 <= i < |r| ==> Yields(s, r[i]) && Keeps(s, cfg, r[i])
  {
    if |ds| == 0 then []
    else
      var c := Pick(s, ds[0]);
      (if Keeps(s, cfg, c) then [c] else []) + Accepted(s, cfg, ds[1..])
  }

  /**
    The `while (string.length < length)` loop of a filtering strategy. It stops
    as soon as `need` characters are in hand, having consumed exactly the
    draws whose accepted characters it appended.
   */
  function Sample(s: Sampler, cfg: Configuration, need: nat, draws: seq<Word32>, acc: string): (r: Outcome<string>)
    requires WellFormed(s) && |acc| <= need
    decreases |draws|
    ensures !r.Failed?
    ensures r.Exhausted? <==> |acc| + |Accepted(s, cfg, draws)| < need
    ensures r.Done? ==> (IsSuffix(r.rest, draws) && |r.value| == need
      && r.value == acc + Accepted(s, cfg, Consumed(draws, r.rest)))
  {
    if |acc| == need then Done(acc, draws)
    else if |draws| == 0 then Exhausted
    else
      var c := Pick(s, draws[0]);
      var next := if Keeps(s, cfg, c) then acc + [c] else acc;
      var r := Sample(s, cfg, need, draws[1..], next);
      assert r.Done? ==> Consumed(draws, r.rest)[1..] == Consumed(draws[1..], r.rest);
      r
  }

  /** A character-at-a-time strategy: the length check, then the sampling loop. */
  function SampledString(s: Sampler, length: int, cfg: Configuration, draws: seq<Word32>): (r: Outcome<string>)
    requires WellFormed(s)
    ensures r.Failed? <==> length <= 0
    ensures r.Failed? ==> r.error == InvalidLength
    ensures r.Done? ==> (|r.value| == length && IsSuffix(r.rest, draws)
      && forall i :: 0 <= i < |r.value| ==> Yields(s, r.value[i]) && Keeps(s, cfg, r.value[i]))
  {
    if length <= 0 then Failed(InvalidLength) else Sample(s, cfg, length, draws, [])
  }

  /** `crypto.randomInt(0, 9)` excludes 9, so the number strategy as written never emits the digit 9. */
  lemma DigitsAsWrittenNeverNine(length: int, cfg: Configuration, draws: seq<Word32>)
    requires SampledString(DigitSampler(9), length, cfg, draws).Done?
    ensures '9' !in SampledString(DigitSampler(9), length, cfg, draws).value
  {
  }

  /** Likewise `randomInt(0, 61)` never picks the 62nd table entry, which is again the digit 9. */
  lemma AlphanumericAsWrittenNeverNine(length: int, cfg: Configuration, draws: seq<Word32>)
    requires SampledString(TableSampler(61), length, cfg, draws).Done?
    ensures '9' !in SampledString(TableSampler(61), length, cfg, draws).value
  {
    assert B64Index('9') == 61;
  }

  /** With the exclusive bound raised to 10 (and 62), the digit 9 is produced. */
  lemma CorrectedSamplersReachNine(cfg: Configuration)
    requires !IsSeparatorChar('9', cfg)
    ensures SampledString(DigitSampler(10), 1, cfg, [9]) == Done("9", [])
    ensures SampledString(TableSampler(62), 1, cfg, [61]) == Done("9", [])
  {
    var nine: seq<Word32> := [9];
    assert nine[1..] == [];
    assert Pick(DigitSampler(10), nine[0]) == '9';
    assert Keeps(DigitSampler(10), cfg, '9');
    assert Sample(DigitSampler(10), cfg, 1, [], "9") == Done("9", []);
    assert [] + ['9'] == "9";
    assert Sample(DigitSampler(10), cfg, 1, nine, []) == Done("9", []);
    var last: seq<Word32> := [61];
    assert last[1..] == [];
    assert Pick(TableSampler(62), last[0]) == '9';
    assert Keeps(TableSampler(62), cfg, '9');
    assert Sample(TableSampler(62), cfg, 1, [], "9") == Done("9", []);
    assert Sample(TableSampler(62), cfg, 1, last, []) == Done("9", []);
  }

  /** The "all characters" strategy as written keeps the draw 0, the NUL control character. */
  lemma UnicodeAsWrittenEmitsControls(cfg: Configuration)
    requires !IsSeparatorChar(0 as char, cfg)
    ensures SampledString(UnicodeSampler(false), 1, cfg, [0]) == Done([0 as char], [])
    ensures !IsPrintableCodePoint(0)
  {
    var zero: seq<Word32> := [0];
    assert zero[1..] == [];
    assert Pick(UnicodeSampler(false), zero[0]) == 0 as char;
    assert Keeps(UnicodeSampler(false), cfg, 0 as char);
    assert Sample(UnicodeSampler(false), cfg, 1, [], [0 as char]) == Done([0 as char], []);
    assert [] + [0 as char] == [0 as char];
    assert Sample(UnicodeSampler(false), cfg, 1, zero, []) == Done([0 as char], []);
  }

  /**
    The visible-characters strategy as written: the largest draw gives DEL
    (0x7F), which is kept unless it is a separator although it is not a
    visible character.
   */
  lemma VisibleAsWrittenEmitsDel(cfg: Configuration)
    requires !IsSeparatorChar(0x7F as char, cfg)
    ensures SampledString(VisibleAsWrittenSampler, 1, cfg, [MaxWord32 as Word32]) == Done([0x7F as char], [])
    ensures !IsPrintableCodePoint(0x7F)
  {
    var top: seq<Word32> := [MaxWord32 as Word32];
    assert top[1..] == [];
    IntervalAsWrittenOvershoots(0x20, 0x7E);
    assert Pick(VisibleAsWrittenSampler, top[0]) == 0x7F as char;
    assert Keeps(VisibleAsWrittenSampler, cfg, 0x7F as char);
    assert Sample(VisibleAsWrittenSampler, cfg, 1, [], [0x7F as char]) == Done([0x7F as char], []);
    assert [] + [0x7F as char] == [0x7F as char];
    assert Sample(VisibleAsWrittenSampler, cfg, 1, top, []) == Done([0x7F as char], []);
  }

  /**
    The code point the "all characters" strategy draws, as written:
    `_randomIntFromInterval(0, 0xD7FF)`. It reaches 0xD800, the first
    surrogate, on the largest draw and only there. That value has no `char`
    in this model, so the as-written strategy is followed to this point only.
   */
  function UnicodeCodePointAsWritten(d: Word32): (n: int)
    ensures 0 <= n <= 0xD800
    ensures n == 0xD800 <==> d == MaxWord32
  {
    IntervalAsWritten(0, 0xD7FF, d)
  }

  /** The surrogate the as-written strategy reaches is one the inspector counts as non-printable. */
  lemma UnicodeAsWrittenReachesSurrogate()
    ensures UnicodeCodePointAsWritten(MaxWord32 as Word32) == 0xD800
    ensures !IsPrintableCodePoint(UnicodeCodePointAsWritten(MaxWord32 as Word32))
  {
  }

  // ---------------------------------------------------------------------
  // Hexadecimal
  // ---------------------------------------------------------------------

  /** How many one-byte draws bring a hex string from `have` to at least `need` digits. */
  function HexDraws(need: int, have: int): nat {
    if have >= need then 0 else (need - have + 1) / 2
  }

  /** The hex loop: one byte, two digits per pass, no filtering. */
  function HexFill(need: int, draws: seq<Word32>, acc: string): (r: Outcome<string>)
    decreases |draws|
    ensures !r.Failed?
    ensures r.Exhausted? <==> |draws| < HexDraws(need, |acc|)
    ensures r.Done? ==> (IsSuffix(r.rest, draws) && |draws| - |r.rest| == HexDraws(need, |acc|)
      && r.value == acc + HexEncode(BytesOf(Consumed(draws, r.rest))))
  {
    if |acc| >= need then Done(acc, draws)
    else if |draws| == 0 then Exhausted
    else
      var r := HexFill(need, draws[1..], acc + HexByte(ByteOf(draws[0])));
      assert r.Done? ==> BytesOf(Consumed(draws, r.rest)) == [ByteOf(draws[0])] + BytesOf(Consumed(draws[1..], r.rest));
      r
  }

  /** The hexadecimal strategy: `ceil(length / 2)` bytes, hex-encoded and cut to `length`. */
  function HexString(length: int, draws: seq<Word32>): (r: Outcome<string>)
    ensures r.Failed? <==> length <= 0
    ensures r.Failed? ==> r.error == InvalidLength
    ensures r.Exhausted? <==> length > 0 && |draws| < (length + 1) / 2
    ensures r.Done? ==> (IsSuffix(r.rest, draws) && |draws| - |r.rest| == (length + 1) / 2
      && |r.value| == length
      && r.value == HexEncode(BytesOf(draws[..(length + 1) / 2]))[..length]
      && forall i :: 0 <= i < |r.value| ==> IsLowerHexDigit(r.value[i]))
  {
    if length <= 0 then Failed(InvalidLength)
    else
      assert HexDraws(length, 0) == (length + 1) / 2;
      match HexFill(length, draws, [])
      case Done(v, rest) =>
        var bytes := BytesOf(Consumed(draws, rest));
        assert Consumed(draws, rest) == draws[..(length + 1) / 2];
        assert v == HexEncode(bytes) by {
          assert [] + HexEncode(bytes) == HexEncode(bytes);
        }
        assert |v| >= length;
        Done(v[..length], rest)
      case Failed(e) => Failed(e)
      case Exhausted => Exhausted
  }

  /** An even-length hex compartment decodes back to the bytes that were drawn. */
  lemma HexStringDecodes(length: int, draws: seq<Word32>)
    requires length > 0 && length % 2 == 0
    requires HexString(length, draws).Done?
    ensures HexDecode(HexString(length, draws).value) == BytesOf(draws[..length / 2])
  {
    var bs := BytesOf(draws[..length / 2]);
    assert HexEncode(bs)[..length] == HexEncode(bs);
    HexRoundTrip(bs);
  }

  // ---------------------------------------------------------------------
  // Base64
  // ---------------------------------------------------------------------

  /** `Math.ceil(length * 0.75)`: the bytes drawn per batch. */
  function Base64Batch(length: nat): (k: nat)
    ensures length > 0 ==> k >= 1
    ensures 4 * k >= 3 * length
  {
    (3 * length + 3) / 4
  }

  /** The characters of `s` that are not a separator. */
  function Kept(cfg: Configuration, s: string): (r: string)
    ensures |r| <= |s|
  {
    if |s| == 0 then [] else (if IsSeparatorChar(s[0], cfg) then [] else [s[0]]) + Kept(cfg, s[1..])
  }

  /** What `Kept` keeps are characters of its input, and never a separator. */
  lemma {:induction false} KeptChars(cfg: Configuration, s: string)
    ensures forall i :: 0 <= i < |Kept(cfg, s)| ==> Kept(cfg, s)[i] in s && !IsSeparatorChar(Kept(cfg, s)[i], cfg)
  {
    if |s| > 0 {
      KeptChars(cfg, s[1..]);
      var head := if IsSeparatorChar(s[0], cfg) then [] else [s[0]];
      var tail := Kept(cfg, s[1..]);
      assert Kept(cfg, s) == head + tail;
      forall i | 0 <= i < |head + tail| ensures (head + tail)[i] in s && !IsSeparatorChar((head + tail)[i], cfg) {
        if i >= |head| {
          assert (head + tail)[i] == tail[i - |head|];
          assert tail[i - |head|] in s[1..];
        }
      }
    }
  }

  lemma {:induction false} KeptAppend(cfg: Configuration, a: string, b: string)
    ensures Kept(cfg, a + b) == Kept(cfg, a) + Kept(cfg, b)
  {
    if |a| > 0 {
      var head := if IsSeparatorChar(a[0], cfg) then [] else [a[0]];
      assert (a + b)[0] == a[0];
      assert (a + b)[1..] == a[1..] + b;
      assert Kept(cfg, a + b) == head + Kept(cfg, a[1..] + b);
      KeptAppend(cfg, a[1..], b);
      assert Kept(cfg, a) == head + Kept(cfg, a[1..]);
    } else {
      assert a + b == b;
    }
  }

  /** At most the first `n` characters of `x`. */
  function Prefix(x: string, n: nat): string {
    if |x| <= n then x else x[..n]
  }

  lemma PrefixAbsorb(x: string, y: string, n: nat)
    ensures Prefix(Prefix(x, n) + y, n) == Prefix(x + y, n)
  {
    if |x| > n {
      assert (x + y)[..n] == x[..n];
      assert (x[..n] + y)[..n] == x[..n];
    }
  }

  /** One pass of `TakeKept`'s loop keeps the capped result unchanged. */
  lemma TakeKeptStep(cfg: Configuration, acc: string, s: string, need: nat)
    requires |acc| <= need && |s| > 0
    ensures Prefix(acc + Kept(cfg, s), need)
         == Prefix((if !IsSeparatorChar(s[0], cfg) && |acc| < need then acc + [s[0]] else acc) + Kept(cfg, s[1..]), need)
  {
    var tail := Kept(cfg, s[1..]);
    if IsSeparatorChar(s[0], cfg) {
      assert Kept(cfg, s) == tail;
    } else {
      assert Kept(cfg, s) == [s[0]] + tail;
      if |acc| < need {
        assert acc + ([s[0]] + tail) == (acc + [s[0]]) + tail;
      } else {
        PrefixFull(acc, [s[0]] + tail, need);
        PrefixFull(acc, tail, need);
      }
    }
  }

  /** Once `x` has `n` characters, capping `x + y` at `n` gives `x`. */
  lemma PrefixFull(x: string, y: string, n: nat)
    requires |x| == n
    ensures Prefix(x + y, n) == x
  {
    assert (x + y)[..n] == x;
  }

  /**
    The inner `for (const char of text)` loop shared by the base64 and
    passphrase strategies: append each non-separator character while the
    string is shorter than `need`.
   */
  function TakeKept(cfg: Configuration, acc: string, s: string, need: nat): (r: string)
    requires |acc| <= need
    decreases |s|
    ensures r == Prefix(acc + Kept(cfg, s), need)
  {
    if |s| == 0 then
      assert acc + Kept(cfg, s) == acc;
      acc
    else
      var next := if !IsSeparatorChar(s[0], cfg) && |acc| < need then acc + [s[0]] else acc;
      TakeKeptStep(cfg, acc, s, need);
      TakeKept(cfg, next, s[1..], need)
  }

  /** `n` draws make up a whole number of batches of `k`. */
  predicate WholeBatches(n: nat, k: nat)
    requires k >= 1
    decreases n
  {
    n == 0 || (n >= k && WholeBatches(n - k, k))
  }

  /** The base64 text of consecutive batches of `k` draws each. */
  function Batches(ds: seq<Word32>, k: nat): string
    requires k >= 1 && WholeBatches(|ds|, k)
    decreases |ds|
  {
    if |ds| == 0 then [] else Base64Encode(BytesOf(ds[..k])) + Batches(ds[k..], k)
  }

  /** Every character of a batch text is a base64 character or the pad. */
  lemma {:induction false} BatchesAlphabet(ds: seq<Word32>, k: nat)
    requires k >= 1 && WholeBatches(|ds|, k)
    ensures forall i :: 0 <= i < |Batches(ds, k)| ==> IsBase64Char(Batches(ds, k)[i]) || Batches(ds, k)[i] == '='
    decreases |ds|
  {
    if |ds| > 0 {
      BatchesAlphabet(ds[k..], k);
      var a := Base64Encode(BytesOf(ds[..k]));
      var b := Batches(ds[k..], k);
      assert Batches(ds, k) == a + b;
      forall i | 0 <= i < |a + b| ensures IsBase64Char((a + b)[i]) || (a + b)[i] == '=' {
        if i >= |a| {
          assert (a + b)[i] == b[i - |a|];
        }
      }
    }
  }

  /** Consuming one more batch in front of the rest extends the batch text by that batch's encoding. */
  lemma BatchesCons(draws: seq<Word32>, k: nat, rest: seq<Word32>)
    requires k >= 1 && |draws| >= k
    requires IsSuffix(rest, draws[k..]) && WholeBatches(|draws[k..]| - |rest|, k)
    ensures IsSuffix(rest, draws) && WholeBatches(|draws| - |rest|, k)
    ensures Batches(Consumed(draws, rest), k)
         == Base64Encode(BytesOf(draws[..k])) + Batches(Consumed(draws[k..], rest), k)
  {
    SuffixCons(draws, k, rest);
    WholeBatchesCons(draws, k, rest);
    BatchesConsText(draws, k, rest);
  }

  /** A suffix of the draws after the first batch is a suffix of all the draws. */
  lemma SuffixCons(draws: seq<Word32>, k: nat, rest: seq<Word32>)
    requires k <= |draws| && IsSuffix(rest, draws[k..])
    ensures IsSuffix(rest, draws)
  {
    ConsumedCons(draws, k, rest);
  }

  /** Whole batches consumed after the first batch make whole batches counted from the start. */
  lemma WholeBatchesCons(draws: seq<Word32>, k: nat, rest: seq<Word32>)
    requires k >= 1 && |draws| >= k
    requires IsSuffix(rest, draws[k..]) && WholeBatches(|draws[k..]| - |rest|, k)
    ensures WholeBatches(|draws| - |rest|, k)
  {
    WholeBatchesStep(|draws| - |rest|, k);
  }

  /** The batch text of everything consumed is the first batch's encoding and then the rest's text. */
  lemma BatchesConsText(draws: seq<Word32>, k: nat, rest: seq<Word32>)
    requires k >= 1 && |draws| >= k
    requires IsSuffix(rest, draws[k..]) && WholeBatches(|draws[k..]| - |rest|, k)
    requires IsSuffix(rest, draws) && WholeBatches(|draws| - |rest|, k)
    ensures Batches(Consumed(draws, rest), k)
         == Base64Encode(BytesOf(draws[..k])) + Batches(Consumed(draws[k..], rest), k)
  {
    ConsumedCons(draws, k, rest);
    BatchesSplit(draws[..k], Consumed(draws[k..], rest), k);
  }

  /** The draws consumed before `rest` are the first `k` draws and then those consumed from the remainder. */
  lemma ConsumedCons(draws: seq<Word32>, k: nat, rest: seq<Word32>)
    requires k <= |draws| && IsSuffix(rest, draws[k..])
    ensures IsSuffix(rest, draws)
    ensures Consumed(draws, rest) == draws[..k] + Consumed(draws[k..], rest)
  {
    var tail := draws[k..];
    assert rest == tail[|tail| - |rest|..];
    assert rest == draws[|draws| - |rest|..];
  }

  /** A first batch in front of whole batches encodes as that batch's text and then the others'. */
  lemma BatchesSplit(first: seq<Word32>, later: seq<Word32>, k: nat)
    requires k >= 1 && |first| == k && WholeBatches(|later|, k)
    ensures WholeBatches(|first + later|, k)
    ensures Batches(first + later, k) == Base64Encode(BytesOf(first)) + Batches(later, k)
  {
    var used := first + later;
    assert used[..k] == first && used[k..] == later;
    WholeBatchesStep(|used|, k);
  }

  /** One more batch in front of whole batches is still whole batches. */
  lemma WholeBatchesStep(n: nat, k: nat)
    requires k >= 1 && n >= k && WholeBatches(n - k, k)
    ensures WholeBatches(n, k)
  {
  }

  /** Taking from one text and then capping with the next is capping the filtered concatenation. */
  lemma TakeKeptThenKept(cfg: Configuration, acc: string, t1: string, t2: string, need: nat)
    requires |acc| <= need
    ensures Prefix(TakeKept(cfg, acc, t1, need) + Kept(cfg, t2), need) == Prefix(acc + Kept(cfg, t1 + t2), need)
  {
    var k1 := Kept(cfg, t1);
    var k2 := Kept(cfg, t2);
    KeptAppend(cfg, t1, t2);
    assert Kept(cfg, t1 + t2) == k1 + k2;
    assert TakeKept(cfg, acc, t1, need) == Prefix(acc + k1, need);
    PrefixAbsorb(acc + k1, k2, need);
    assert acc + k1 + k2 == acc + (k1 + k2);
  }

  /**
    What the base64 loop leaves: `rest` is what remains of `draws` after
    whole batches of `k`, and `value` is the first `need` characters of
    `acc` followed by the kept characters of those batches' encodings.
   */
  predicate Filled(need: nat, k: nat, cfg: Configuration, draws: seq<Word32>, acc: string, value: string, rest: seq<Word32>)
    requires k >= 1
  {
    IsSuffix(rest, draws) && WholeBatches(|draws| - |rest|, k) && |value| == need
    && value == Prefix(acc + Kept(cfg, Batches(Consumed(draws, rest), k)), need)
  }

  /** The base64 loop: whole batches of `k` bytes, filtered and capped at `need`. */
  function Base64Fill(need: nat, k: nat, cfg: Configuration, draws: seq<Word32>, acc: string): (r: Outcome<string>)
    requires k >= 1 && |acc| <= need
    decreases |draws|
    ensures !r.Failed?
    ensures r.Done? ==> Filled(need, k, cfg, draws, acc, r.value, r.rest)
  {
    if |acc| >= need then
      Base64FillStop(need, k, cfg, draws, acc);
      Done(acc, draws)
    else if |draws| < k then Exhausted
    else
      var text := Base64Encode(BytesOf(draws[..k]));
      var r := Base64Fill(need, k, cfg, draws[k..], TakeKept(cfg, acc, text, need));
      Base64FillExtend(need, k, cfg, draws, acc, r);
      r
  }

  /** The base case of `Base64Fill`: once `need` characters are collected, no draw is consumed. */
  lemma Base64FillStop(need: nat, k: nat, cfg: Configuration, draws: seq<Word32>, acc: string)
    requires k >= 1 && |acc| == need
    ensures Filled(need, k, cfg, draws, acc, acc, draws)
  {
    assert Consumed(draws, draws) == [];
    assert acc + Kept(cfg, []) == acc;
  }

  /** The inductive step of `Base64Fill`: what the remaining batches give, seen from before the current one. */
  lemma Base64FillExtend(need: nat, k: nat, cfg: Configuration, draws: seq<Word32>, acc: string, r: Outcome<string>)
    requires k >= 1 && |acc| <= need && |draws| >= k
    requires r.Done? ==> Filled(need, k, cfg, draws[k..], TakeKept(cfg, acc, Base64Encode(BytesOf(draws[..k])), need), r.value, r.rest)
    ensures r.Done? ==> Filled(need, k, cfg, draws, acc, r.value, r.rest)
  {
    if r.Done? {
      var text := Base64Encode(BytesOf(draws[..k]));
      var later := Consumed(draws[k..], r.rest);
      assert WholeBatches(|later|, k);
      BatchesCons(draws, k, r.rest);
      TakeKeptThenKept(cfg, acc, text, Batches(later, k), need);
    }
  }

  /** The first `n` kept characters of base64 text are base64 characters or pads, and no separator. */
  lemma KeptBase64(cfg: Configuration, text: string, n: nat)
    requires forall i :: 0 <= i < |text| ==> IsBase64Char(text[i]) || text[i] == '='
    ensures forall i :: 0 <= i < |Prefix(Kept(cfg, text), n)| ==>
      (IsBase64Char(Prefix(Kept(cfg, text), n)[i]) || Prefix(Kept(cfg, text), n)[i] == '=')
      && !IsSeparatorChar(Prefix(Kept(cfg, text), n)[i], cfg)
  {
    var p := Prefix(Kept(cfg, text), n);
    KeptChars(cfg, text);
    forall i | 0 <= i < |p| ensures (IsBase64Char(p[i]) || p[i] == '=') && !IsSeparatorChar(p[i], cfg) {
      assert p[i] == Kept(cfg, text)[i];
      assert p[i] in text;
    }
  }

  /**
    The base64 strategy: batches of `ceil(0.75 * length)` random bytes,
    encoded with padding and stripped of separator characters, until
    `length` characters are collected.
   */
  function Base64String(length: int, cfg: Configuration, draws: seq<Word32>): (r: Outcome<string>)
    ensures r.Failed? <==> length <= 0
    ensures r.Failed? ==> r.error == InvalidLength
    ensures r.Done? ==> length > 0 && Filled(length, Base64Batch(length), cfg, draws, [], r.value, r.rest)
    ensures r.Done? ==> forall i :: 0 <= i < |r.value| ==>
      (IsBase64Char(r.value[i]) || r.value[i] == '=') && !IsSeparatorChar(r.value[i], cfg)
  {
    if length <= 0 then Failed(InvalidLength)
    else
      var k := Base64Batch(length);
      var r := Base64Fill(length, k, cfg, draws, []);
      if r.Done? then
        Base64Done(length, k, cfg, draws, r.value, r.rest);
        r
      else
        r
  }

  /** What a finished base64 loop started from nothing guarantees about its text. */
  lemma Base64Done(length: nat, k: nat, cfg: Configuration, draws: seq<Word32>, value: string, rest: seq<Word32>)
    requires k >= 1 && Filled(length, k, cfg, draws, [], value, rest)
    ensures forall i :: 0 <= i < |value| ==> (IsBase64Char(value[i]) || value[i] == '=') && !IsSeparatorChar(value[i], cfg)
  {
    var text := Batches(Consumed(draws, rest), k);
    BatchesAlphabet(Consumed(draws, rest), k);
    assert [] + Kept(cfg, text) == Kept(cfg, text);
    KeptBase64(cfg, text, length);
  }

  // ---------------------------------------------------------------------
  // Passphrase
  // ---------------------------------------------------------------------

  /**
    When a drawn word may be appended whole. The source tests that the word
    is not EQUAL to a separator (`separators.has(word)`), while its comment
    asks that it not CONTAIN one.
   */
  datatype WordTest = Equality | Containment

  predicate WholeWordAllowed(test: WordTest, cfg: Configuration, w: string) {
    match test
    case Equality => w != cfg.dataConceptSeparator && w != cfg.compartmentSeparator
    case Containment => !Contains(w, cfg.dataConceptSeparator) && !Contains(w, cfg.compartmentSeparator)
  }

  /**
    The word pool: the configured language's list when the code is a
    non-empty string naming a list, otherwise every list concatenated in
    key order.
   */
  function PassphraseWords(lists: WordLists, languageCode: Option<string>): (r: seq<string>)
    ensures languageCode.Some? && languageCode.value != "" && HasLanguage(lists, languageCode.value) ==>
      r == LanguageWords(lists, languageCode.value)
    ensures !(languageCode.Some? && languageCode.value != "" && HasLanguage(lists, languageCode.value)) ==>
      r == AllWords(lists)
  {
    match languageCode
    case Some(code) => if code != "" && HasLanguage(lists, code) then LanguageWords(lists, code) else AllWords(lists)
    case None => AllWords(lists)
  }

  /** `c` occurs in one of the pool's words. */
  predicate FromWords(c: char, words: seq<string>) {
    exists j :: 0 <= j < |words| && c in words[j]
  }

  /** Under the containment test, a word allowed whole holds no separator character. */
  lemma ContainmentExcludesSeparators(cfg: Configuration, w: string, i: int)
    requires WholeWordAllowed(Containment, cfg, w) && 0 <= i < |w|
    ensures !IsSeparatorChar(w[i], cfg)
  {
    if [w[i]] == cfg.dataConceptSeparator {
      ContainsSingle(w, w[i]);
    }
    if [w[i]] == cfg.compartmentSeparator {
      ContainsSingle(w, w[i]);
    }
  }

  /**
    One pass of the passphrase loop for the drawn word `w`: the word whole
    when the test allows it and it fits, otherwise its non-separator
    characters one by one while room remains.
   */
  function AppendWord(test: WordTest, cfg: Configuration, acc: string, w: string, need: nat): (next: string)
    requires |acc| <= need
    ensures |acc| <= |next| <= need && next[..|acc|] == acc
    ensures forall i :: |acc| <= i < |next| ==> next[i] in w
    ensures test == Containment ==> forall i :: |acc| <= i < |next| ==> !IsSeparatorChar(next[i], cfg)
    ensures WholeWordAllowed(test, cfg, w) && |acc| + |w| <= need ==> next == acc + w
    ensures !(WholeWordAllowed(test, cfg, w) && |acc| + |w| <= need) ==> next == Prefix(acc + Kept(cfg, w), need)
  {
    if WholeWordAllowed(test, cfg, w) && |acc| + |w| <= need then
      var next := acc + w;
      assert forall i :: |acc| <= i < |next| ==> next[i] == w[i - |acc|];
      assert test == Containment ==> forall i :: |acc| <= i < |next| ==> !IsSeparatorChar(next[i], cfg) by {
        if test == Containment {
          forall i | |acc| <= i < |next| ensures !IsSeparatorChar(next[i], cfg) {
            ContainmentExcludesSeparators(cfg, w, i - |acc|);
          }
        }
      }
      next
    else
      var next := TakeKept(cfg, acc, w, need);
      KeptChars(cfg, w);
      assert forall i :: |acc| <= i < |next| ==> next[i] == Kept(cfg, w)[i - |acc|];
      next
  }

  /** Once the string is full, a further word changes nothing. */
  lemma AppendWordFull(test: WordTest, cfg: Configuration, acc: string, w: string, need: nat)
    requires |acc| == need
    ensures AppendWord(test, cfg, acc, w, need) == acc
  {
    if !(WholeWordAllowed(test, cfg, w) && |acc| + |w| <= need) {
      PrefixFull(acc, Kept(cfg, w), need);
    }
  }

  /** The word each draw picks: `words[crypto.randomInt(0, words.length)]`. */
  function Drawn(words: seq<string>, ds: seq<Word32>): (r: seq<string>)
    requires |words| > 0
    ensures |r| == |ds|
  {
    seq(|ds|, i requires 0 <= i < |ds| => words[RandomInt(0, |words|, ds[i])])
  }

  /** The reference for the passphrase loop: `AppendWord` applied to each word in turn. */
  function AppendAll(test: WordTest, cfg: Configuration, acc: string, ws: seq<string>, need: nat): (r: string)
    requires |acc| <= need
    ensures |acc| <= |r| <= need
    decreases |ws|
  {
    if |ws| == 0 then acc else AppendAll(test, cfg, AppendWord(test, cfg, acc, ws[0], need), ws[1..], need)
  }

  /** Appending to a full string leaves it as it is. */
  lemma {:induction false} AppendAllFull(test: WordTest, cfg: Configuration, acc: string, ws: seq<string>, need: nat)
    requires |acc| == need
    ensures AppendAll(test, cfg, acc, ws, need) == acc
    decreases |ws|
  {
    if |ws| > 0 {
      AppendWordFull(test, cfg, acc, ws[0], need);
      AppendAllFull(test, cfg, acc, ws[1..], need);
    }
  }

  /** The words picked by the draws before `rest`, with the first draw's word split off. */
  lemma DrawnCons(words: seq<string>, draws: seq<Word32>, rest: seq<Word32>)
    requires |words| > 0 && |draws| > 0 && IsSuffix(rest, draws[1..])
    ensures IsSuffix(rest, draws)
    ensures Drawn(words, Consumed(draws, rest)) == [words[RandomInt(0, |words|, draws[0])]] + Drawn(words, Consumed(draws[1..], rest))
  {
    ConsumedCons(draws, 1, rest);
    assert draws[..1] == [draws[0]];
  }

  /**
    The passphrase loop: one drawn word per pass until `need` characters are
    in hand. It gives `AppendWord` applied to the words its draws pick, and
    runs out of draws exactly when all of them leave the string short.
   */
  function PassphraseFill(need: nat, words: seq<string>, test: WordTest, cfg: Configuration, draws: seq<Word32>, acc: string): (r: Outcome<string>)
    requires |words| > 0 && |acc| <= need
    decreases |draws|
    ensures !r.Failed?
    ensures r.Done? ==> (IsSuffix(r.rest, draws) && |r.value| == need && r.value[..|acc|] == acc
      && (forall i :: |acc| <= i < need ==> FromWords(r.value[i], words))
      && (test == Containment ==> forall i :: |acc| <= i < need ==> !IsSeparatorChar(r.value[i], cfg)))
    ensures r.Done? ==> r.value == AppendAll(test, cfg, acc, Drawn(words, Consumed(draws, r.rest)), need)
    ensures r.Exhausted? <==> |AppendAll(test, cfg, acc, Drawn(words, draws), need)| < need
  {
    if |acc| >= need then
      AppendAllFull(test, cfg, acc, Drawn(words, draws), need);
      assert Consumed(draws, draws) == [];
      Done(acc, draws)
    else if |draws| == 0 then Exhausted
    else
      var j := RandomInt(0, |words|, draws[0]);
      var next := AppendWord(test, cfg, acc, words[j], need);
      var r := PassphraseFill(need, words, test, cfg, draws[1..], next);
      assert Drawn(words, draws) == [words[j]] + Drawn(words, draws[1..]);
      PassphraseFillExtend(need, words, test, cfg, draws, acc, r);
      r
  }

  /** The inductive step of `PassphraseFill`: what the later draws give, seen from before the current one. */
  lemma PassphraseFillExtend(need: nat, words: seq<string>, test: WordTest, cfg: Configuration, draws: seq<Word32>, acc: string, r: Outcome<string>)
    requires |words| > 0 && |acc| < need && |draws| > 0
    requires r.Done? ==> PassphraseFilled(need, words, test, cfg, draws[1..],
      AppendWord(test, cfg, acc, words[RandomInt(0, |words|, draws[0])], need), r.value, r.rest)
    ensures r.Done? ==> PassphraseFilled(need, words, test, cfg, draws, acc, r.value, r.rest)
  {
    if r.Done? {
      var j := RandomInt(0, |words|, draws[0]);
      var next := AppendWord(test, cfg, acc, words[j], need);
      DrawnCons(words, draws, r.rest);
      assert r.value[..|next|] == next;
      assert forall i :: |acc| <= i < |next| ==> r.value[i] == next[i];
      assert forall i :: |acc| <= i < |next| ==> FromWords(r.value[i], words) by {
        forall i | |acc| <= i < |next| ensures FromWords(r.value[i], words) {
          assert r.value[i] in words[j];
        }
      }
    }
  }

  /** What a `Done` outcome of `PassphraseFill` promises, as one predicate for its inductive step. */
  predicate PassphraseFilled(need: nat, words: seq<string>, test: WordTest, cfg: Configuration, draws: seq<Word32>, acc: string, value: string, rest: seq<Word32>)
    requires |words| > 0 && |acc| <= need
  {
    IsSuffix(rest, draws) && |value| == need && value[..|acc|] == acc
    && (forall i :: |acc| <= i < need ==> FromWords(value[i], words))
    && (test == Containment ==> forall i :: |acc| <= i < need ==> !IsSeparatorChar(value[i], cfg))
    && value == AppendAll(test, cfg, acc, Drawn(words, Consumed(draws, rest)), need)
  }

  /**
    The passphrase strategy. `load` is what reading the bundled word-lists
    file gives this call (`None` when reading or parsing fails).
   */
  function PassphraseString(length: int, cfg: Configuration, load: Option<WordLists>, test: WordTest, draws: seq<Word32>): (r: Outcome<string>)
    ensures r.Failed? <==> length <= 0 || load.None? || |PassphraseWords(load.value, cfg.languageCode)| == 0
    ensures r.Failed? ==> r.error == (if length <= 0 then InvalidLength else if load.None? then WordListsLoadFailed else NoWords)
    ensures r.Done? ==> (IsSuffix(r.rest, draws) && |r.value| == length
      && forall i :: 0 <= i < length ==> FromWords(r.value[i], PassphraseWords(load.value, cfg.languageCode)))
    ensures r.Done? && test == Containment ==> forall i :: 0 <= i < length ==> !IsSeparatorChar(r.value[i], cfg)
  {
    if length <= 0 then Failed(InvalidLength)
    else if load.None? then Failed(WordListsLoadFailed)
    else
      var words := PassphraseWords(load.value, cfg.languageCode);
      if |words| == 0 then Failed(NoWords)
      else PassphraseFill(length, words, test, cfg, draws, [])
  }

  /** The configuration and word list of the passphrase examples below: one word holding the separator. */
  function ExampleConfiguration(): Configuration {
    Configuration("|", "-", [], None, None)
  }

  function ExampleLists(): WordLists {
    [LanguageList("eng", ["a|b"])]
  }

  /**
    As written, a drawn word that contains the separator is appended whole
    when it fits: the only word, "a|b", lands in the compartment with its `|`.
   */
  lemma WholeWordWithSeparatorAsWritten()
    ensures PassphraseString(3, ExampleConfiguration(), Some(ExampleLists()), Equality, [0, 0]) == Done("a|b", [0])
  {
    ExampleWords();
    ExampleAsWrittenFill();
  }

  /** With the containment test the same draws drop the separator and fill up with the word's letters. */
  lemma WholeWordWithSeparatorCorrected()
    ensures PassphraseString(3, ExampleConfiguration(), Some(ExampleLists()), Containment, [0, 0]) == Done("aba", [])
  {
    ExampleWords();
    ExampleCorrectedFill();
  }

  /** The example pool is the one word. */
  lemma ExampleWords()
    ensures PassphraseWords(ExampleLists(), ExampleConfiguration().languageCode) == ["a|b"]
  {
    assert AllWords(ExampleLists()) == ["a|b"];
  }

  /** As written, the first draw appends the word whole and the loop stops. */
  lemma ExampleAsWrittenFill()
    ensures PassphraseFill(3, ["a|b"], Equality, ExampleConfiguration(), [0, 0], "") == Done("a|b", [0])
  {
    var cfg := ExampleConfiguration();
    assert AppendWord(Equality, cfg, "", "a|b", 3) == "a|b";
    var two: seq<Word32> := [0, 0];
    assert two[1..] == [0];
    assert PassphraseFill(3, ["a|b"], Equality, cfg, [0], "a|b") == Done("a|b", [0]);
  }

  /** Under the containment test the first draw gives "ab" and the second "aba". */
  lemma ExampleCorrectedFill()
    ensures PassphraseFill(3, ["a|b"], Containment, ExampleConfiguration(), [0, 0], "") == Done("aba", [])
  {
    var cfg := ExampleConfiguration();
    ExampleWordKept();
    assert AppendWord(Containment, cfg, "", "a|b", 3) == "ab";
    var two: seq<Word32> := [0, 0];
    assert two[1..] == [0];
    ExampleCorrectedLast();
  }

  lemma ExampleCorrectedLast()
    ensures PassphraseFill(3, ["a|b"], Containment, ExampleConfiguration(), [0], "ab") == Done("aba", [])
  {
    var cfg := ExampleConfiguration();
    ExampleWordKept();
    assert AppendWord(Containment, cfg, "ab", "a|b", 3) == "aba";
    var one: seq<Word32> := [0];
    assert one[1..] == [];
    assert PassphraseFill(3, ["a|b"], Containment, cfg, [], "aba") == Done("aba", []);
  }

  /** The example word fails the containment test and keeps two letters. */
  lemma ExampleWordKept()
    ensures !WholeWordAllowed(Containment, ExampleConfiguration(), "a|b")
    ensures Kept(ExampleConfiguration(), "a|b") == "ab"
  {
    var cfg := ExampleConfiguration();
    ContainsSingle("a|b", '|');
    assert "a|b"[1..] == "|b" && "|b"[1..] == "b" && "b"[1..] == "";
    assert Kept(cfg, "b") == "b";
    assert Kept(cfg, "|b") == "b";
  }

  // ---------------------------------------------------------------------
  // Dispatch
  // ---------------------------------------------------------------------

  /** The characters a strategy's output is drawn from, checked per character. */
  predicate InAlphabet(st: Strategy, c: char) {
    match st
    case AllCharacters => IsPrintableCodePoint(c as int)
    case VisibleCharacters => 0x20 <= c as int <= 0x7E
    case Numbers => IsDigit(c)
    case Alphanumeric => IsAlphanumeric(c)
    case Hexadecimal => IsLowerHexDigit(c)
    case Base64 => IsBase64Char(c) || c == '='
    case Passphrase => true
  }

  /** The strategies that drop separator characters from what they produce. */
  predicate Filters(st: Strategy) {
    st != Hexadecimal
  }

  /**
    `strategyFunction(length, configuration)` with the strategies corrected:
    the interval scaled by 2^32, exclusive bounds 10 and 62, non-printable
    code points rejected and whole words tested for containment.
   */
  function Generate(st: Strategy, length: int, cfg: Configuration, load: Option<WordLists>, draws: seq<Word32>): (r: Outcome<string>)
    ensures length <= 0 ==> r == Failed(InvalidLength)
    ensures r.Failed? && st != Passphrase ==> length <= 0
    ensures r.Done? ==> (IsSuffix(r.rest, draws) && |r.value| == length
      && forall i :: 0 <= i < length ==> InAlphabet(st, r.value[i]) && (Filters(st) ==> !IsSeparatorChar(r.value[i], cfg)))
  {
    match st
    case AllCharacters => SampledString(UnicodeSampler(true), length, cfg, draws)
    case VisibleCharacters => SampledString(VisibleSampler, length, cfg, draws)
    case Numbers => SampledString(DigitSampler(10), length, cfg, draws)
    case Alphanumeric => SampledString(TableSampler(62), length, cfg, draws)
    case Hexadecimal => HexString(length, draws)
    case Base64 => Base64String(length, cfg, draws)
    case Passphrase => PassphraseString(length, cfg, load, Containment, draws)
  }
}

=== FILE: text.dfy ===
/**
  The JavaScript string operations the library relies on, over strings of
  UTF-16 code units (one `char` per code unit): `indexOf`, `includes`,
  `split` with a string separator, `Array.prototype.join`, `trim` and an
  ASCII `toLowerCase`.
 */
module Text {
  import opened Values

  /** `p` occurs in `s` starting at index `k`. */
  predicate OccursAt(s: string, p: string, k: int) {
    0 <= k && k + |p| <= |s| && s[k..k + |p|] == p
  }

  /** The first occurrence of `p` in `s` at or after `k`. */
  function IndexFrom(s: string, p: string, k: nat): (r: Option<nat>)
    decreases |s| - k
    ensures r.Some? ==> k <= r.value && OccursAt(s, p, r.value)
    ensures r.Some? ==> forall j :: k <= j < r.value ==> !OccursAt(s, p, j)
    ensures r.None? ==> forall j :: k <= j ==> !OccursAt(s, p, j)
  {
    if k + |p| > |s| then None
    else if s[k..k + |p|] == p then Some(k)
    else IndexFrom(s, p, k + 1)
  }

  /** `s.indexOf(p)`, with `None` for -1; an empty `p` is found at 0. */
  function IndexOf(s: string, p: string): (r: Option<nat>)
    ensures r.Some? ==> OccursAt(s, p, r.value) && forall j :: 0 <= j < r.value ==> !OccursAt(s, p, j)
    ensures r.None? <==> forall j :: !OccursAt(s, p, j)
  {
    IndexFrom(s, p, 0)
  }

  /** `s.includes(p)`. */
  predicate Contains(s: string, p: string) {
    IndexOf(s, p).Some?
  }

  /** `s.startsWith(p)`. */
  predicate StartsWith(s: string, p: string) {
    |p| <= |s| && s[..|p|] == p
  }

  lemma OccursAtSingle(s: string, c: char, k: int)
    ensures OccursAt(s, [c], k) <==> 0 <= k < |s| && s[k] == c
  {
    if 0 <= k < |s| {
      assert s[k..k + 1] == [s[k]];
    }
  }

  /** For a one-character separator, substring search is membership. */
  lemma ContainsSingle(s: string, c: char)
    ensures Contains(s, [c]) <==> c in s
  {
    if c in s {
      var k :| 0 <= k < |s| && s[k] == c;
      OccursAtSingle(s, c, k);
    } else {
      forall j ensures !OccursAt(s, [c], j) {
        OccursAtSingle(s, c, j);
      }
    }
  }

  /** A one-character separator placed after a text that lacks it is its first occurrence. */
  lemma IndexOfAfter(a: string, c: char, b: string)
    requires c !in a
    ensures IndexOf(a + [c] + b, [c]) == Some(|a|)
  {
    var s := a + [c] + b;
    OccursAtSingle(s, c, |a|);
    forall j | 0 <= j < |a|
      ensures !OccursAt(s, [c], j)
    {
      OccursAtSingle(s, c, j);
      assert s[j] == a[j];
    }
  }

  /** `s.split(sep)` for a string separator, including the empty separator. */
  function Split(s: string, sep: string): (r: seq<string>)
    decreases |s|
  {
    if sep == [] then seq(|s|, i requires 0 <= i < |s| => [s[i]])
    else match IndexOf(s, sep)
      case None => [s]
      case Some(k) => [s[..k]] + Split(s[k + |sep|..], sep)
  }

  /** `segs.join(sep)`. */
  function Join(segs: seq<string>, sep: string): string
  {
    if |segs| == 0 then []
    else if |segs| == 1 then segs[0]
    else segs[0] + sep + Join(segs[1..], sep)
  }

  function SumLengths(segs: seq<string>): nat
  {
    if |segs| == 0 then 0 else |segs[0]| + SumLengths(segs[1..])
  }

  /** The joined text is as long as its pieces plus one separator between each pair. */
  lemma {:induction false} JoinLength(segs: seq<string>, sep: string)
    requires |segs| >= 1
    ensures |Join(segs, sep)| == SumLengths(segs) + (|segs| - 1) * |sep|
  {
    if |segs| > 1 {
      JoinLength(segs[1..], sep);
    }
  }

  /**
    Splitting on a one-character separator recovers the joined pieces when
    no piece contains that character.
   */
  lemma {:induction false} SplitJoin(segs: seq<string>, c: char)
    requires |segs| >= 1
    requires forall i :: 0 <= i < |segs| ==> c !in segs[i]
    ensures Split(Join(segs, [c]), [c]) == segs
  {
    if |segs| == 1 {
      ContainsSingle(segs[0], c);
    } else {
      var rest := Join(segs[1..], [c]);
      var s := segs[0] + [c] + rest;
      assert Join(segs, [c]) == s;
      IndexOfAfter(segs[0], c, rest);
      assert s[..|segs[0]|] == segs[0];
      assert s[|segs[0]| + 1..] == rest;
      SplitJoin(segs[1..], c);
    }
  }

  /** A character absent from every piece and from the separator is absent from the join. */
  lemma {:induction false} JoinLacks(segs: seq<string>, sep: string, c: char)
    requires c !in sep
    requires forall i :: 0 <= i < |segs| ==> c !in segs[i]
    ensures c !in Join(segs, sep)
  {
    if |segs| > 1 {
      JoinLacks(segs[1..], sep, c);
    }
  }

  /** The characters `String.prototype.trim` removes: WhiteSpace and LineTerminator. */
  predicate IsJsWhitespace(c: char) {
    var n := c as int;
    n == 0x09 || n == 0x0A || n == 0x0B || n == 0x0C || n == 0x0D || n == 0x20
    || n == 0xA0 || n == 0x1680 || (0x2000 <= n <= 0x200A) || n == 0x2028
    || n == 0x2029 || n == 0x202F || n == 0x205F || n == 0x3000 || n == 0xFEFF
  }

  function TrimStart(s: string): (r: string)
    ensures |r| <= |s| && r == s[|s| - |r|..]
    ensures forall i :: 0 <= i < |s| - |r| ==> IsJsWhitespace(s[i])
    ensures r == [] || !IsJsWhitespace(r[0])
  {
    if |s| > 0 && IsJsWhitespace(s[0]) then TrimStart(s[1..]) else s
  }

  function TrimEnd(s: string): (r: string)
    ensures |r| <= |s| && r == s[..|r|]
    ensures forall i :: |r| <= i < |s| ==> IsJsWhitespace(s[i])
    ensures r == [] || !IsJsWhitespace(r[|r| - 1])
  {
    if |s| > 0 && IsJsWhitespace(s[|s| - 1]) then TrimEnd(s[..|s| - 1]) else s
  }

  /** `s.trim()`. */
  function Trim(s: string): string {
    TrimEnd(TrimStart(s))
  }

  /** Trimming leaves a string alone exactly when it neither starts nor ends with whitespace. */
  lemma TrimIdentity(s: string)
    ensures Trim(s) == s <==> (s == [] || (!IsJsWhitespace(s[0]) && !IsJsWhitespace(s[|s| - 1])))
  {
    if s == [] {
    } else if IsJsWhitespace(s[0]) {
      var t := TrimStart(s);
      assert t == TrimStart(s[1..]);
      assert |TrimEnd(t)| <= |t| < |s|;
    } else {
      assert TrimStart(s) == s;
      if IsJsWhitespace(s[|s| - 1]) {
        assert TrimEnd(s) == TrimEnd(s[..|s| - 1]);
        assert |TrimEnd(s)| < |s|;
      } else {
        assert TrimEnd(s) == s;
      }
    }
  }

  /** A string trims to nothing exactly when every character is whitespace. */
  lemma TrimBlank(s: string)
    ensures Trim(s) == [] <==> forall i :: 0 <= i < |s| ==> IsJsWhitespace(s[i])
  {
  }

  function LowerChar(c: char): char {
    if 'A' <= c <= 'Z' then (c as int + 32) as char else c
  }

  /** `toLowerCase` restricted to the ASCII letters. */
  function ToLowerAscii(s: string): (r: string)
    ensures |r| == |s|
  {
    seq(|s|, i requires 0 <= i < |s| => LowerChar(s[i]))
  }
}

=== FILE: types.dfy ===
/**
  The configuration shapes shared by the generator, the inspector, the
  normaliser and the preset table.
 */
module Types {
  import opened Values

  /** A validated compartment definition: its name, its length in code units and its strategy tag. */
  datatype Compartment = Compartment(name: string, length: int, strategy: string)

  /**
    A compartment definition as a caller writes it. A `length` that is a
    number but not an integer, or not a number at all, is `Foreign`.
   */
  datatype RawCompartment = RawCompartment(name: Field<string>, length: Field<int>, generationStrategy: Field<string>)

  /**
    A caller-supplied configuration object, before normalisation. Every
    field may be missing; `languageCode` is passed through untouched.
   */
  datatype ConfigInput = ConfigInput(
    preset: Field<string>,
    dataConceptSeparator: Field<string>,
    compartmentSeparator: Field<string>,
    compartments: Field<seq<RawCompartment>>,
    languageCode: Option<string>)

  /** A normalised configuration, as held by a generator or an inspector. */
  datatype Configuration = Configuration(
    dataConceptSeparator: string,
    compartmentSeparator: string,
    compartments: seq<Compartment>,
    languageCode: Option<string>,
    preset: Option<string>)

  /** The object a caller would write to describe `c`. */
  function ToRaw(c: Compartment): (r: RawCompartment)
    ensures r.name == Present(c.name) && r.length == Present(c.length)
    ensures r.generationStrategy == Present(c.strategy)
  {
    RawCompartment(Present(c.name), Present(c.length), Present(c.strategy))
  }

  function ToRawAll(cs: seq<Compartment>): (r: seq<RawCompartment>)
    ensures |r| == |cs| && forall i :: 0 <= i < |cs| ==> r[i] == ToRaw(cs[i])
  {
    seq(|cs|, i requires 0 <= i < |cs| => ToRaw(cs[i]))
  }

  /** The empty caller object `{}`. */
  const EmptyInput: ConfigInput := ConfigInput(Absent, Absent, Absent, Absent, None)
}

=== FILE: validators.dfy ===
/**
  The inspector's per-compartment checks: one character-class validator per
  strategy, the passphrase dictionary check, and the reserved-separator
  search.
 */
module Validators {
  import opened Values
  import opened Text
  import opened Types
  import opened Encodings
  import opened WordLists
  import opened Strategies
  import opened Segmentation

  /** The findings an inspection reports, one constructor per distinct message. */
  datatype Issue =
    | MissingConceptSeparator(separator: string)
    | MissingConceptName
    | TooFewCompartments(expectedCount: nat, receivedCount: nat)
    | UnexpectedCompartments(extra: nat)
    | MissingValue(name: string, position: nat)
    | WrongLength(expected: int, received: nat)
    | ReservedSeparator(separator: string)
    | NonPrintable(count: nat)
    | OutsideVisibleAscii
    | NotNumeric
    | NotAlphanumeric
    | NotHexadecimal
    | NotBase64
    | NotLetters
    | NotInWordLists

  /** The characters each strategy's validator accepts, one code unit at a time. */
  predicate Accepts(st: Strategy, c: char) {
    match st
    case AllCharacters => IsPrintableCodePoint(c as int)
    case VisibleCharacters => 0x20 <= c as int <= 0x7E
    case Numbers => IsDigit(c)
    case Alphanumeric => IsAlphanumeric(c)
    case Hexadecimal => IsHexDigit(c)
    case Base64 => IsBase64Char(c) || c == '='
    case Passphrase => IsLetter(c)
  }

  /** The validators written as an anchored regular expression with `+` reject the empty value. */
  predicate RejectsEmpty(st: Strategy) {
    st != AllCharacters && st != VisibleCharacters
  }

  /** How many characters of `value` the validator rejects. */
  function CountRejected(st: Strategy, value: string): (n: nat)
    ensures n <= |value|
    ensures n == 0 <==> forall i :: 0 <= i < |value| ==> Accepts(st, value[i])
  {
    if |value| == 0 then 0
    else
      var rest := CountRejected(st, value[1..]);
      assert forall i :: 1 <= i < |value| ==> value[i] == value[1..][i - 1];
      (if Accepts(st, value[0]) then 0 else 1) + rest
  }

  /** The validator's verdict on the whole value. */
  predicate Conforming(st: Strategy, value: string) {
    (RejectsEmpty(st) ==> |value| > 0) && forall i :: 0 <= i < |value| ==> Accepts(st, value[i])
  }

  /** The single issue each character-class validator reports. */
  function ClassIssue(st: Strategy, rejected: nat): Issue {
    match st
    case AllCharacters => NonPrintable(rejected)
    case VisibleCharacters => OutsideVisibleAscii
    case Numbers => NotNumeric
    case Alphanumeric => NotAlphanumeric
    case Hexadecimal => NotHexadecimal
    case Base64 => NotBase64
    case Passphrase => NotLetters
  }

  /**
    `validateAllCharacters`, `validateVisibleCharacters`, `validateNumeric`,
    `validateAlphanumeric`, `validateHexadecimal` and `validateBase64`, and
    the letters check that opens `validatePassphrase`.
   */
  function ClassIssues(st: Strategy, value: string): (r: seq<Issue>)
    ensures r == [] <==> Conforming(st, value)
    ensures r != [] ==> r == [ClassIssue(st, CountRejected(st, value))]
    ensures st == AllCharacters && r != [] ==> r[0].count > 0
  {
    var n := CountRejected(st, value);
    if n > 0 || (RejectsEmpty(st) && |value| == 0) then [ClassIssue(st, n)] else []
  }

  /** The words of the dictionary for `languageCode`, lower-cased. */
  function DictionaryFor(lists: WordLists, languageCode: Option<string>): set<string> {
    GetPassphraseDictionary(lists, languageCode).wordSet
  }

  /**
    `validatePassphrase(value, configuration)`: letters only, then a split of
    the lower-cased value into dictionary words. `load` is what
    `getWordLists()` yields; it is consulted only once the letters check
    passes.
   */
  function ValidatePassphrase(value: string, cfg: Configuration, load: Option<WordLists>): (r: Result<seq<Issue>>)
    ensures !Conforming(Passphrase, value) ==> r == Ok([NotLetters])
    ensures Conforming(Passphrase, value) && load.None? ==> r == Err(WordListsLoadFailed)
    ensures r == Ok([]) <==> (Conforming(Passphrase, value) && load.Some?
      && exists ws :: IsSegmentation(ws, DictionaryFor(load.value, cfg.languageCode), ToLowerAscii(value)))
    ensures r.Ok? && r.value != [] ==> r.value == [NotLetters] || r.value == [NotInWordLists]
  {
    var letters := ClassIssues(Passphrase, value);
    if letters != [] then Ok(letters)
    else if load.None? then Err(WordListsLoadFailed)
    else
      var lowered := ToLowerAscii(value);
      var words := DictionaryFor(load.value, cfg.languageCode);
      SegmentsIffSpelled(lowered, words);
      if Segments(lowered, words, |lowered|) then Ok([]) else Ok([NotInWordLists])
  }

  /** The validator for a strategy, run on one compartment value. */
  function ValidateValue(st: Strategy, value: string, cfg: Configuration, load: Option<WordLists>): (r: Result<seq<Issue>>)
    ensures r.Err? ==> st == Passphrase && load.None? && Conforming(Passphrase, value)
    ensures st != Passphrase ==> r.Ok? && (r.value == [] <==> Conforming(st, value))
    ensures st == Passphrase ==> r == ValidatePassphrase(value, cfg, load)
  {
    if st == Passphrase then ValidatePassphrase(value, cfg, load) else Ok(ClassIssues(st, value))
  }

  /**
    `findForbiddenSeparator(value, configuration)`: the first of the two
    separators, data-concept separator first, that is non-empty and occurs
    in the value.
   */
  function FindForbiddenSeparator(value: string, cfg: Configuration): (r: Option<string>)
    ensures r.None? <==> ((cfg.dataConceptSeparator == [] || !Contains(value, cfg.dataConceptSeparator))
      && (cfg.compartmentSeparator == [] || !Contains(value, cfg.compartmentSeparator)))
    ensures r.Some? ==> (r.value != [] && Contains(value, r.value)
      && (r.value == cfg.dataConceptSeparator || r.value == cfg.compartmentSeparator))
    ensures cfg.dataConceptSeparator != [] && Contains(value, cfg.dataConceptSeparator) ==>
      r == Some(cfg.dataConceptSeparator)
  {
    if cfg.dataConceptSeparator != [] && Contains(value, cfg.dataConceptSeparator) then Some(cfg.dataConceptSeparator)
    else if cfg.compartmentSeparator != [] && Contains(value, cfg.compartmentSeparator) then Some(cfg.compartmentSeparator)
    else None
  }

  /** With one-character separators, a value holds no reserved separator exactly when it holds neither character. */
  lemma NoForbiddenSingle(value: string, cfg: Configuration)
    requires |cfg.dataConceptSeparator| == 1 && |cfg.compartmentSeparator| == 1
    ensures FindForbiddenSeparator(value, cfg).None? <==>
      forall i :: 0 <= i < |value| ==> !IsSeparatorChar(value[i], cfg)
  {
    var d := cfg.dataConceptSeparator[0];
    var c := cfg.compartmentSeparator[0];
    assert cfg.dataConceptSeparator == [d] && cfg.compartmentSeparator == [c];
    ContainsSingle(value, d);
    ContainsSingle(value, c);
  }

  /** The report on one compartment. */
  datatype CompartmentReport = CompartmentReport(
    name: string, position: nat, expectedLength: int, generationStrategy: string,
    value: string, isValid: bool, issues: seq<Issue>)

  /** What one compartment's value must satisfy to be reported valid. */
  predicate CompartmentHolds(value: string, definition: Compartment, cfg: Configuration, missing: bool, load: Option<WordLists>) {
    !missing && |value| == definition.length && FindForbiddenSeparator(value, cfg).None?
    && match StrategyOf(definition.strategy)
       case None => true
       case Some(st) => ValidateValue(st, value, cfg, load) == Ok([])
  }

  /**
    `validateCompartmentValue({ value, definition, configuration, index, missing })`:
    the missing-value, length and separator issues, then the strategy's own.
   */
  function ValidateCompartmentValue(value: string, definition: Compartment, cfg: Configuration, index: nat,
                                    missing: bool, load: Option<WordLists>): (r: Result<CompartmentReport>)
    ensures r.Err? <==> (StrategyOf(definition.strategy) == Some(Passphrase) && load.None?
      && Conforming(Passphrase, value))
    ensures r.Ok? ==> (r.value.name == definition.name && r.value.position == index && r.value.value == value
      && r.value.expectedLength == definition.length && r.value.generationStrategy == definition.strategy
      && (r.value.isValid <==> r.value.issues == [])
      && (r.value.isValid <==> CompartmentHolds(value, definition, cfg, missing, load)))
    ensures r.Ok? && missing ==> r.value.issues[0] == MissingValue(definition.name, index)
  {
    var own := (if missing then [MissingValue(definition.name, index)] else [])
      + (if |value| != definition.length then [WrongLength(definition.length, |value|)] else [])
      + (match FindForbiddenSeparator(value, cfg)
         case Some(sep) => [ReservedSeparator(sep)]
         case None => []);
    var strategyIssues :- match StrategyOf(definition.strategy)
      case None => Ok([])
      case Some(st) => ValidateValue(st, value, cfg, load);
    var issues := own + strategyIssues;
    Ok(CompartmentReport(definition.name, index, definition.length, definition.strategy, value, issues == [], issues))
  }

  /** The generator's alphabets lie inside the validators' for every strategy but the passphrase. */
  lemma GeneratedCharsAccepted(st: Strategy, c: char)
    requires st != Passphrase && InAlphabet(st, c)
    ensures Accepts(st, c)
  {
  }
}

=== FILE: values.dfy ===
/**
  Shared value types: optional values, results carrying the library's error
  kinds, and a small picture of a JavaScript property or argument slot.
 */
module Values {

  /** An optional value: a missing JavaScript property, `null` or `undefined` is `None`. */
  datatype Option<+T> = None | Some(value: T)

  /** The outcome of an operation that may throw one of the library's errors. */
  datatype Result<+T> = Ok(value: T) | Err(error: Error) {
    predicate IsFailure() { Err? }
    function PropagateFailure<U>(): Result<U>
      requires Err?
    {
      Err(error)
    }
    function Extract(): T
      requires Ok?
    {
      value
    }
  }

  /**
    A property of a caller-supplied object (or an argument) as the library sees it:
    `Absent` when it is `undefined` or `null`, `Present` when it has the expected
    JavaScript type, `Foreign` when it holds a value of some other type. Where the
    library tests truthiness before the type, `Foreign` stands for a truthy value.
   */
  datatype Field<+T> = Absent | Present(value: T) | Foreign

  /** The errors the library throws, one constructor per distinct message. */
  datatype Error =
    | InvalidLength                 // a strategy was asked for a non-positive length
    | InvalidConceptName
    | InvalidPreset
    | InvalidDataConceptSeparator
    | InvalidCompartmentSeparator
    | InvalidCompartments
    | InvalidCompartmentLength
    | InvalidCompartmentName
    | InvalidGenerationStrategy
    | PresetNameNotString
    | UnknownPreset(name: string)
    | InvalidSemanticId
    | OverridesNotObject
    | UnresolvedConfiguration
    | WordListsLoadFailed
    | NoWords
    | UnsupportedSchemaFormat(format: string)
    | TypeError                     // a JavaScript TypeError raised by the runtime

  /**
    The function-valued properties every plain object literal inherits from
    `Object.prototype`; a lookup `table[name]` on such a literal finds them.
   */
  const InheritedFunctionNames: set<string> := {
    "constructor", "hasOwnProperty", "isPrototypeOf", "propertyIsEnumerable",
    "toLocaleString", "toString", "valueOf",
    "__defineGetter__", "__defineSetter__", "__lookupGetter__", "__lookupSetter__"
  }

  /**
    Every name a plain object answers for without owning it: the inherited
    methods and `__proto__`.
   */
  const InheritedPropertyNames: set<string> := InheritedFunctionNames + {"__proto__"}
}

=== FILE: wordlists.dfy ===
/**
  The bundled passphrase word lists and the process-wide cache in front of
  them. The lists file is read through an abstract oracle: each load attempt
  either yields the parsed lists or fails.
 */
module WordLists {
  import opened Values

  /** One language's entry of the word-lists object. */
  datatype LanguageList = LanguageList(code: string, words: seq<string>)

  /** The parsed word-lists object, its keys in insertion order. */
  type WordLists = seq<LanguageList>

  predicate HasLanguage(lists: WordLists, code: string) {
    exists i :: 0 <= i < |lists| && lists[i].code == code
  }

  /** `lists[code]` for a key that is present. */
  function LanguageWords(lists: WordLists, code: string): (r: seq<string>)
    requires HasLanguage(lists, code)
    ensures exists i :: 0 <= i < |lists| && lists[i].code == code && r == lists[i].words
  {
    if lists[0].code == code then lists[0].words
    else
      assert HasLanguage(lists[1..], code) by {
        var i :| 0 <= i < |lists| && lists[i].code == code;
        assert lists[1..][i - 1].code == code;
      }
      LanguageWords(lists[1..], code)
  }

  /** The concatenation of every language's list, in key order (`Object.values(...).forEach(concat)`). */
  function AllWords(lists: WordLists): (r: seq<string>)
    ensures forall i, w :: 0 <= i < |lists| && w in lists[i].words ==> w in r
    ensures forall w :: w in r ==> exists i :: 0 <= i < |lists| && w in lists[i].words
  {
    if |lists| == 0 then []
    else
      var rest := AllWords(lists[1..]);
      assert forall w :: w in rest ==> exists i :: 0 <= i < |lists| && w in lists[i].words by {
        forall w | w in rest ensures exists i :: 0 <= i < |lists| && w in lists[i].words {
          var j :| 0 <= j < |lists[1..]| && w in lists[1..][j].words;
          assert lists[j + 1] == lists[1..][j];
        }
      }
      assert forall i, w :: 1 <= i < |lists| && w in lists[i].words ==> w in rest by {
        forall i, w | 1 <= i < |lists| && w in lists[i].words ensures w in rest {
          assert lists[1..][i - 1] == lists[i];
        }
      }
      lists[0].words + rest
  }

  /**
    The two global slots of the cache: the parsed lists and the recorded
    failure. The cached value is consulted before the failure.
   */
  datatype CacheState = CacheState(cached: Option<WordLists>, failure: Option<Error>)

  const EmptyCache: CacheState := CacheState(None, None)

  /** The outcome of one `getWordLists()` call: what it returned or threw, the new cache, and whether it read the file. */
  datatype Lookup = Lookup(result: Result<WordLists>, state: CacheState, attempted: bool)

  /**
    `getWordLists()`. `load` is what reading and parsing the file would give
    if this call attempted it (`None` when either step fails).
   */
  function GetWordLists(st: CacheState, load: Option<WordLists>): (r: Lookup)
    ensures st.cached.Some? ==> r == Lookup(Ok(st.cached.value), st, false)
    ensures st.cached.None? && st.failure.Some? ==> r == Lookup(Err(st.failure.value), st, false)
    ensures st == EmptyCache && load.Some? ==> r == Lookup(Ok(load.value), CacheState(load, None), true)
    ensures st == EmptyCache && load.None? ==>
      r == Lookup(Err(WordListsLoadFailed), CacheState(None, Some(WordListsLoadFailed)), true)
  {
    if st.cached.Some? then Lookup(Ok(st.cached.value), st, false)
    else if st.failure.Some? then Lookup(Err(st.failure.value), st, false)
    else match load
      case Some(parsed) => Lookup(Ok(parsed), CacheState(Some(parsed), st.failure), true)
      case None => Lookup(Err(WordListsLoadFailed), CacheState(st.cached, Some(WordListsLoadFailed)), true)
  }

  /** The results of successive calls, each offered its own load outcome, and how many of them read the file. */
  datatype History = History(results: seq<Result<WordLists>>, attempts: nat, last: CacheState)

  function Run(st: CacheState, loads: seq<Option<WordLists>>): (h: History)
    ensures |h.results| == |loads|
    decreases |loads|
  {
    if |loads| == 0 then History([], 0, st)
    else
      var first := GetWordLists(st, loads[0]);
      var later := Run(first.state, loads[1..]);
      History([first.result] + later.results, (if first.attempted then 1 else 0) + later.attempts, later.last)
  }

  /**
    The passphrase strategy as written reads and parses the file itself on
    every call, bypassing the cache: each call gets its own load outcome,
    every call reads, and the cache is left as it was.
   */
  function DirectReads(st: CacheState, loads: seq<Option<WordLists>>): (h: History)
    ensures |h.results| == |loads| && h.attempts == |loads| && h.last == st
    ensures forall i :: 0 <= i < |loads| ==>
      h.results[i] == (if loads[i].Some? then Ok(loads[i].value) else Err(WordListsLoadFailed))
    decreases |loads|
  {
    if |loads| == 0 then History([], 0, st)
    else
      var later := DirectReads(st, loads[1..]);
      var first := if loads[0].Some? then Ok(loads[0].value) else Err(WordListsLoadFailed);
      History([first] + later.results, 1 + later.attempts, st)
  }

  /**
    A first call that loads, then a file that can no longer be read: reading
    directly, the second call reads again and fails; through the cache it
    reads nothing and succeeds with the first lists.
   */
  lemma DirectReadsAsWritten(lists: WordLists)
    ensures DirectReads(EmptyCache, [Some(lists), None]) == History([Ok(lists), Err(WordListsLoadFailed)], 2, EmptyCache)
    ensures Run(EmptyCache, [Some(lists), None]) == History([Ok(lists), Ok(lists)], 1, CacheState(Some(lists), None))
  {
    var loads := [Some(lists), None];
    var filled := CacheState(Some(lists), None);
    assert loads[1..] == [None];
    assert loads[1..][1..] == [];
    assert GetWordLists(EmptyCache, loads[0]) == Lookup(Ok(lists), filled, true);
    assert Run(filled, []) == History([], 0, filled);
    assert Run(filled, [None]) == History([Ok(lists)], 0, filled);
    assert Run(EmptyCache, loads) == History([Ok(lists)] + [Ok(lists)], 1, filled);
  }

  /** Exactly one of the two slots is filled: the state every call leaves behind. */
  predicate Decided(st: CacheState) {
    st.cached.Some? != st.failure.Some?
  }

  /** Once decided, the cache answers every later call with the same result and never reads again. */
  lemma {:induction false} DecidedIsFinal(st: CacheState, loads: seq<Option<WordLists>>)
    requires Decided(st)
    ensures var h := Run(st, loads);
      h.attempts == 0 && h.last == st
      && forall i :: 0 <= i < |loads| ==> h.results[i] == GetWordLists(st, None).result
  {
    if |loads| > 0 {
      DecidedIsFinal(st, loads[1..]);
    }
  }

  /**
    Sticky outcome: starting from an empty cache, the file is read once, by
    the first call, and every call returns what that first call returned,
    success or failure.
   */
  lemma StickyOutcome(loads: seq<Option<WordLists>>)
    requires |loads| >= 1
    ensures var h := Run(EmptyCache, loads);
      h.attempts == 1
      && h.results[0] == (if loads[0].Some? then Ok(loads[0].value) else Err(WordListsLoadFailed))
      && (forall i :: 0 <= i < |loads| ==> h.results[i] == h.results[0])
      && Decided(h.last)
  {
    var first := GetWordLists(EmptyCache, loads[0]);
    assert Decided(first.state);
    DecidedIsFinal(first.state, loads[1..]);
  }
}
